=== FILE: README.md ===
# ccalign core in Dafny

ccalign aligns proteins whose residues carry a coiled-coil annotation: a heptad
register (a..g, or none) per residue, a coil probability and a set of plausible
registers. Its core has two parts, and this project models both.

**The aligner.** `SmithWatermanGotoh` is a local Smith-Waterman-Gotoh alignment
with affine gaps. Its scoring is register-aware: a pair of residues is scored
from a background matrix, or from the coil matrix of the register that the more
confident residue chooses. A bonus is added when the plausible registers
overlap; a penalty is subtracted when both residues are coiled in incompatible
registers. `construct` fills the traceback directions and gap-run lengths with
rolling score rows and returns the first cell of maximal score. `traceback`
walks back from that cell into reversed buffers. `align` checks the matrices and
joins the two steps.

**The result pipeline.** An `AlignmentResult` is one hit: two names, bitscore,
identity, coordinates and a method tag, or an error message instead. It is
printed and parsed as a tab-separated line. A `ResultList` keeps the hits of one
query in ranking order without duplicate keys, together with per-pair scoring
matrices. `removeFromTop` drains the hits that have not yet been recomputed.
`ResultListIterator` reads a result file and cuts it into one list per query
(or per subject in the second pass). On the way it drops hits below the bitscore
cutoff and loads the matrix declarations it meets. `MatrixLoader` reads those
one-line declarations and the square text format of substitution matrices. The
two `Matrix` classes (`ccaligner.matrix` and the older `jaligner.matrix`) hold a
127 x 127 table indexed by residue letters, with a self-check, scaling and
rounding.

## How the model is organised

- `wrappers.dfy` (`Wrappers`): `Option` and `Result`.
- `text.dfy` (`Text`): Java's `trim`, `StringTokenizer`, `String.split` and `String.compareTo` on `seq<char>`.
- `numbers.dfy` (`Numbers`): Java `int` wrap-around, `Integer.valueOf`, and the two-decimal score format and parse.
- `matrices.dfy` (`Matrices`): `ccaligner.matrix.Matrix`.
- `legacy_matrices.dfy` (`LegacyMatrices`): `jaligner.matrix.Matrix`.
- `residues.dfy` (`Residues`): `Residue` and `Sequence`.
- `recurrence.dfy` (`Recurrence`): the recurrence that `construct` computes, written as functions of a cell: the similarity, the scores `V`/`G`/`H`, the gap runs and the direction.
- `tracing.dfy` (`Tracing`): the traceback written as a function of the pointer tables, and the rendering of its columns into the five alignment lines and the counters.
- `engine.dfy` (`SmithWatermanGotoh`): the imperative `construct`, `traceback` and `align`. Each is proved equal to the recurrence and the traceback function.
- `alignment_result.dfy` (`AlignmentResults`): the record, its order, `toString` and the line parser.
- `result_list.dfy` (`ResultLists`): `ResultList`.
- `result_iterator.dfy` (`ResultListIterators`): `ResultListIterator`.

Choices that affect every part of the model:

- Scores are `real`. `AlignmentResult` scores are `Float`, which is a real or NaN.
- Java assertions are a run-time switch, so members containing `assert` take it as the parameter `assertionsEnabled`.
- Code the model cannot see is passed in as a function parameter:
  - `Commons.extractName` is `extractName`;
  - `Residue.aa_to_code` is `aaToCode`;
  - `Character.isLetter` is `isLetter`;
  - the `Matrix(query, subject, scores)` naming is `matrixId`.
- Exceptions become `Failure` values of small error datatypes.

## Model

| member | source | states |
|---|---|---|
| SmithWatermanGotoh.Maximum | src/ccaligner/SmithWatermanGotoh.java:424-436 | The result is one of the four arguments and is at least each of them. |
| SmithWatermanGotoh.MaximumIsMax4 | src/ccaligner/SmithWatermanGotoh.java:424-436 | The nested comparisons of `maximum` agree with the plain maximum that the recurrence uses. |
| SmithWatermanGotoh.Reverse | src/ccaligner/SmithWatermanGotoh.java:445-451 | The result has length `len`, and position `j` holds the input's position `len - 1 - j`. |
| SmithWatermanGotoh.FillRow | src/ccaligner/SmithWatermanGotoh.java:168-258 | One pass of the row loop. It leaves every entry of the score row, gap row, direction row and both gap-run rows equal to the recurrence's value for that cell. The best cell is the first maximum over all rows so far. |
| SmithWatermanGotoh.FillCell | src/ccaligner/SmithWatermanGotoh.java:218-257 | One cell: the rolling rows afterwards agree with the recurrence up to column `j + 1`. |
| SmithWatermanGotoh.VerticalStep | src/ccaligner/SmithWatermanGotoh.java:220-227 | Extending beats opening exactly when the recurrence extends the vertical run. `G` is the larger of the two candidates. |
| SmithWatermanGotoh.HorizontalStep | src/ccaligner/SmithWatermanGotoh.java:229-236 | The same for the horizontal gap `h`. |
| SmithWatermanGotoh.ScoreStep | src/ccaligner/SmithWatermanGotoh.java:238-250 | The cell score is `maximum(f, g, h, 0)`. The direction is the first of diagonal, up, left that attains it, or stop at 0. |
| SmithWatermanGotoh.BestStep | src/ccaligner/SmithWatermanGotoh.java:252-257 | The strict `>` update keeps the first cell, in row-major order, of the largest score seen. |
| SmithWatermanGotoh.Construct | src/ccaligner/SmithWatermanGotoh.java:147-266 | Every direction and gap-run entry equals the recurrence's value. The best cell has the largest `V` of the table, every earlier cell scores strictly less, and a best score of 0 is cell (0, 0). |
| SmithWatermanGotoh.RecurrencePointersValid | src/ccaligner/SmithWatermanGotoh.java:220-236 | The gap runs `construct` records are at least 1 and never reach past row or column 0, so the traceback stays inside the table. |
| SmithWatermanGotoh.SamePointers | src/ccaligner/SmithWatermanGotoh.java:99-113 | The tables `construct` fills from the STOP / run-1 initialisation are exactly the recurrence's tables. |
| SmithWatermanGotoh.UpMoves | src/ccaligner/SmithWatermanGotoh.java:334-347 | An UP run of length `len` writes the residues `s1[i - len..i]` against gaps, in traceback order. |
| SmithWatermanGotoh.DiagonalMove | src/ccaligner/SmithWatermanGotoh.java:349-371 | A DIAGONAL step writes the aligned pair `s1[i - 1]`, `s2[j - 1]` with its markup. |
| SmithWatermanGotoh.LeftMoves | src/ccaligner/SmithWatermanGotoh.java:373-385 | A LEFT run writes the residues `s2[j - len..j]` against gaps. |
| SmithWatermanGotoh.Follow | src/ccaligner/SmithWatermanGotoh.java:332-389 | The traceback loop writes exactly the columns of the traceback path, reversed. It ends at the path's start cell. |
| SmithWatermanGotoh.Traceback | src/ccaligner/SmithWatermanGotoh.java:293-409 | The five lines are the rendering of the traceback path, the counters are its identity / similarity / gap counts, and the starts are the path's start. No line is longer than the two sequences together. |
| SmithWatermanGotoh.TraceFits | src/ccaligner/SmithWatermanGotoh.java:306-313 | A traceback path has at most `|s1| + |s2|` columns, the size of the reversed buffers. |
| SmithWatermanGotoh.CoilScores | src/ccaligner/SmithWatermanGotoh.java:82-90 | Collects the coil tables in order. It fails exactly when assertions are on and some matrix fails its self-check. |
| SmithWatermanGotoh.EmptyIffZero | src/ccaligner/SmithWatermanGotoh.java:386-388 | The traceback from the best cell is empty exactly when the best score is 0. |
| SmithWatermanGotoh.AlignScorable | src/ccaligner/SmithWatermanGotoh.java:94-118 | After the setup, the result's score is the largest local score, attained first at the traceback start. Its lines and counters render the traceback path from that cell. |
| SmithWatermanGotoh.Align | src/ccaligner/SmithWatermanGotoh.java:75-127 | Fails with CheckFailed exactly when, with assertions on, the background matrix or some coil matrix fails its self-check. Fails with NoSuchRegister exactly when some residue pair needs a missing coil table. Otherwise the result is the optimal local alignment with names, matrix and penalties copied, and its score is 0 exactly when it is empty. |
| Recurrence.SimilarityBackground | src/ccaligner/SmithWatermanGotoh.java:190-215 | Without coil tables, or for two uncoiled residues, the background table decides. |
| Recurrence.SimilarityCoiled | src/ccaligner/SmithWatermanGotoh.java:193-206 | With a coiled residue, the score is the chosen register's table entry, plus the bonus when the plausible registers overlap. Otherwise it is minus the penalty when both residues are coiled, and unchanged when not. |
| Recurrence.CoilRegisterSymmetric | src/ccaligner/SmithWatermanGotoh.java:196 | The chosen register (higher probability, then higher register) does not depend on argument order. |
| Recurrence.SimilaritySymmetric | src/ccaligner/SmithWatermanGotoh.java:188-215 | With symmetric tables, scoring `a` against `b` equals scoring `b` against `a`. |
| Recurrence.NegativeCoilRegister | src/ccaligner/SmithWatermanGotoh.java:196 | An uncoiled residue with the higher probability picks register -1, which indexes no table. |
| Recurrence.V | src/ccaligner/SmithWatermanGotoh.java:239 | Every local score is non-negative. |
| Recurrence.StopIffZero | src/ccaligner/SmithWatermanGotoh.java:242-243 | A cell points STOP exactly when its score is 0. |
| Recurrence.DirAttains | src/ccaligner/SmithWatermanGotoh.java:241-250 | A non-STOP direction lies inside the table with a positive score, and the term it names attains the score. |
| Recurrence.VGapBound | src/ccaligner/SmithWatermanGotoh.java:222-224 | A vertical run is at least 1 and at most the row index. |
| Recurrence.HGapBound | src/ccaligner/SmithWatermanGotoh.java:231-233 | A horizontal run is at least 1 and at most the column index. |
| Tracing.TraceCovers | src/ccaligner/SmithWatermanGotoh.java:332-399 | The traceback path from `(i, j)` uses exactly the residues `s1[start1..i]` and `s2[start2..j]`, in order. A non-empty path starts at a diagonal step. |
| Tracing.FirstAppend | src/ccaligner/SmithWatermanGotoh.java:334-385 | The residues of each sequence along joined paths are the joined residues. |
| Tracing.MapRegister | src/ccaligner/SmithWatermanGotoh.java:268-272 | '-' outside coils, otherwise the letter `r` places after 'a'; the heptad registers 0..6 print as letters between 'a' and 'g'. |
| Tracing.MapRegisterTruncates | src/ccaligner/SmithWatermanGotoh.java:271 | The cast to `char` keeps 16 bits, so registers 65536 apart print alike. |
| Tracing.HeptadLetters | src/ccaligner/SmithWatermanGotoh.java:271 | Registers 0..6 print as the increasing letters a..g. |
| Tracing.Render | src/ccaligner/SmithWatermanGotoh.java:391-401 | All five lines have one character per column. |
| Tracing.CountsPartition | src/ccaligner/SmithWatermanGotoh.java:361-384 | Each column is exactly one of identity, similarity, mismatch or gap. The gap count is the number of residues facing a gap. |
| Tracing.CountsBounds | src/ccaligner/SmithWatermanGotoh.java:361-384 | `0 <= identity <= similarity` and `similarity + gaps` is at most the number of columns. |
| Tracing.RevRev | src/ccaligner/SmithWatermanGotoh.java:391-401 | Reversing the reversed buffers restores the path order. |
| Residues.NewSequence | src/ccaligner/Sequence.java:8-18 | Name and residues are stored, and `maxProb` is the largest coil probability, or 0 when none is larger. |
| Matrices.Zeroes | src/ccaligner/matrix/Matrix.java:46-49 | The default matrix is called "zeroes" and scores every pair 0. |
| Matrices.RowMax | src/ccaligner/matrix/Matrix.java:70-75 | The inner loop's maximum is at least 0, at least every score of the row, and is 0 or one of them. |
| Matrices.RowMaxPositive | src/ccaligner/matrix/Matrix.java:70-85 | The row maximum is positive exactly when some standard residue scores positively. |
| Matrices.CheckFrom | src/ccaligner/matrix/Matrix.java:66-88 | The loop from row `k` on returns true exactly when every remaining row passes. Otherwise the first failing row's assertion fails when assertions are on, and the loop returns false only when they are off. |
| Matrices.CheckScores | src/ccaligner/matrix/Matrix.java:66-88 | True exactly when every standard row has a positive score, or, for the matrix called "zeroes", none does. For any other matrix, the assertion fails when assertions are on; false is returned only when they are off. |
| Matrices.GetScores | src/ccaligner/matrix/Matrix.java:93-96 | The table is handed out unless assertions are on and the self-check fails. |
| Matrices.ZeroesPassesCheck | src/ccaligner/matrix/Matrix.java:46-88 | The default matrix passes its own self-check, with assertions on or off. |
| Matrices.ScaleScores | src/ccaligner/matrix/Matrix.java:98-107 | Every cell is multiplied by `f`, and the name is kept. |
| Matrices.ScalePreservesCheck | src/ccaligner/matrix/Matrix.java:66-107 | Scaling by a positive factor does not change the self-check's outcome, with assertions on or off. |
| Matrices.Round | src/ccaligner/matrix/Matrix.java:115 | The result is a whole number in the `int` range. Within that range it is within half a unit of `x`; beyond it, it saturates at `Integer.MAX_VALUE` or `Integer.MIN_VALUE`, as `Math.round` does. |
| Matrices.RoundScores | src/ccaligner/matrix/Matrix.java:109-118 | Every cell is rounded, and the name is kept. |
| Matrices.RoundScoresIdempotent | src/ccaligner/matrix/Matrix.java:109-118 | Rounding twice is rounding once. |
| LegacyMatrices.LegacyCheckScores | src/jaligner/matrix/Matrix.java:61-75 | As written: never returns true. The assertion fails exactly when assertions are on and the first standard row has no positive score. |
| LegacyMatrices.LegacyCheckScoresIntended | src/jaligner/matrix/Matrix.java:61-75 | Corrected: true exactly when every standard row has a positive score. Otherwise the assertion fails (assertions on) or the answer is false. |
| LegacyMatrices.LegacyIntendedAgrees | src/jaligner/matrix/Matrix.java:61-75 | The corrected check has the same outcome as the newer class's check for any matrix not called "zeroes", with assertions on or off. |
| LegacyMatrices.LegacyCheckRejectsOnes | src/jaligner/matrix/Matrix.java:71-72 | A table of ones is rejected by the check as written and accepted by the corrected one. |
| LegacyMatrices.LegacyGetScores | src/jaligner/matrix/Matrix.java:80-83 | The table is handed out exactly when assertions are off. |
| MatrixLoader.CoordsOf | src/ccaligner/matrix/MatrixCoord.java:10-13 | Each header column becomes the coordinate of its first two characters. A column shorter than two characters fails. |
| MatrixLoader.ParseHeader | src/ccaligner/matrix/MatrixLoader.java:83-98 | Succeeds exactly when there are at least three columns and every column after them has two characters. Fewer than three columns is NoSuchElement. Column `k + 3` becomes coordinate `k`, made from its first two letters, in order. |
| MatrixLoader.ParseHeaderOf | src/ccaligner/matrix/MatrixLoader.java:83-98 | A header built from two-character columns reads back as exactly their coordinates, in order. |
| MatrixLoader.DefaultLayout | src/ccaligner/matrix/MatrixLoader.java:104-135 | The built-in header loads, and its 784 coordinates are every ordered pair of the 28 letters, row by row. |
| MatrixLoader.LastIndex | src/ccaligner/matrix/MatrixLoader.java:158-165 | Finds the last column naming a coordinate, or reports that none does. |
| MatrixLoader.SetCell | src/ccaligner/matrix/MatrixLoader.java:164 | One cell is set and every other cell is kept. |
| MatrixLoader.TokenValue | src/ccaligner/matrix/MatrixLoader.java:161-163 | "X" is -32768. A column that is no number is NumberFormat. A number divided by a zero scale is ZeroScale; otherwise the value is the number divided by the (non-zero) scale. |
| MatrixLoader.FillDeclared | src/ccaligner/matrix/MatrixLoader.java:156-165 | Java raises an exception (NoSuchElement or NumberFormat) exactly when some value column has no coordinate or is neither a number nor "X". The loop succeeds exactly when every column also has a value. Each cell then holds the value of the last column naming it, divided by the scale (or -32768 for "X"), and 0 when no column names it. |
| MatrixLoader.LoadFromLine | src/ccaligner/matrix/MatrixLoader.java:142-168 | A line with fewer columns than the layout has coordinates is no declaration. A matrix is loaded exactly when there are at least three columns, no more value columns than coordinates, a numeric scale, every value a number or "X", and a non-zero scale unless every value is "X". The matrix is named from query and subject, and its cells are those the columns declare. ZeroScale is the answer exactly when Java would load the line but divide a number by a scale of 0. |
| MatrixLoader.FillZeroScale | src/ccaligner/matrix/MatrixLoader.java:156-165 | The value loop ends in ZeroScale exactly when every column has a coordinate and is a number or "X", the scale is 0, and some column is a number. |
| MatrixLoader.ZeroScaleWithoutNumbers | src/ccaligner/matrix/MatrixLoader.java:150-167 | A line with a scale of 0 and no value columns loads as an all-zero matrix, as in Java. |
| MatrixLoader.SkipComments | src/ccaligner/matrix/MatrixLoader.java:295-302 | Finds the first non-comment line. A blank line before it fails, and only comments means there is no header line. |
| MatrixLoader.HeaderAcids | src/ccaligner/matrix/MatrixLoader.java:304-309 | The first letter of every header word, padded with NUL to 127 slots. More than 127 words fails. |
| MatrixLoader.SetSymmetric | src/ccaligner/matrix/MatrixLoader.java:334 | Sets both mirror cells, keeps all others and preserves symmetry. |
| MatrixLoader.FillRow | src/ccaligner/matrix/MatrixLoader.java:332-336 | The `n`-th declared header letter gets the `n`-th word, mirrored. Cells not facing the row are kept, and symmetry is preserved. |
| MatrixLoader.RowOf | src/ccaligner/matrix/MatrixLoader.java:316-330 | A row labelled by a letter or '*' uses that label and skips its first word. Any other row takes the next header letter. A blank line fails. |
| MatrixLoader.LoadRows | src/ccaligner/matrix/MatrixLoader.java:315-337 | The row loop fails only with a loader exception and keeps a symmetric table symmetric. |
| MatrixLoader.Load | src/ccaligner/matrix/MatrixLoader.java:280-345 | A loaded matrix carries the given name and is symmetric. Input of nothing but comments is the missing-header error. |
| Numbers.Wrap32 | src/ccaligner/AlignmentResult.java:100 | The result is a Java `int`; in-range values are kept and the two boundary overflows wrap. |
| Numbers.ParseInt | src/ccaligner/AlignmentResult.java:75-78 | `Integer.valueOf` only yields values that fit in an `int`. |
| Numbers.ParseIntToString | src/ccaligner/AlignmentResult.java:75-78 | A printed `int` reads back as itself. |
| Numbers.ParseFormatScore | src/ccaligner/AlignmentResult.java:73-74 | A two-decimal score reads back as the score rounded to two decimals. |
| Text.Trim | src/ccaligner/matrix/MatrixLoader.java:85 | `trim` never lengthens the text and leaves no blank or control character at either end. |
| Text.TrimSlice | src/ccaligner/matrix/MatrixLoader.java:85 | The trimmed text is a slice of the input: only characters at or below ' ' are removed, only at the two ends, and the middle is kept. |
| Text.Tokenize | src/ccaligner/matrix/MatrixLoader.java:85 | Every token is non-empty and free of delimiters. |
| Text.TokenizeJoin | src/ccaligner/matrix/MatrixLoader.java:85 | Tokenizing delimiter-free tokens joined by a delimiter gives back the tokens. |
| Text.JavaSplitJoin | src/ccaligner/AlignmentResult.java:60 | `split("\t")` of tab-free fields joined by tabs gives the fields back, unless the last one is empty. |
| Text.JavaSplitJoinEmptyLast | src/ccaligner/AlignmentResult.java:60 | A trailing empty field is dropped by `split`. |
| Text.CompareStringsZero | src/ccaligner/AlignmentResult.java:89-92 | `compareTo` is 0 exactly for equal strings. |
| Text.CompareStringsAntisymmetric | src/ccaligner/AlignmentResult.java:89-92 | Swapping the arguments negates the result. |
| Text.CompareStringsTransitive | src/ccaligner/AlignmentResult.java:89-92 | The string order is transitive. |
| AlignmentResults.CompareFloat | src/ccaligner/AlignmentResult.java:86 | `Float.compare` is -1, 0 or 1, is 0 exactly for equal floats, and orders numbers by value. |
| AlignmentResults.CompareFloatTransitive | src/ccaligner/AlignmentResult.java:86 | The float order, NaN included, is transitive. |
| AlignmentResults.ParseFormatFloat | src/ccaligner/AlignmentResult.java:73-74 | Printing a float with two decimals and reading it back rounds it to two decimals. NaN stays NaN. |
| AlignmentResults.ErrorResult | src/ccaligner/AlignmentResult.java:22-28 | Keeps the names and the message, with no method and zero numbers. |
| AlignmentResults.NewResult | src/ccaligner/AlignmentResult.java:30-42 | Succeeds exactly when both names pass `extractName`. The result is then the extracted names with every given number and the method, and no message. |
| AlignmentResults.Percent | src/ccaligner/AlignmentResult.java:49 | NaN exactly for an empty alignment. Otherwise it lies between 0 and 100 when identity does not exceed the length. |
| AlignmentResults.FromAlignment | src/ccaligner/AlignmentResult.java:44-56 | As written: names, bitscore and starts are copied, and the method is "CC". Identity is `100 * identity / length` of the first aligned line, NaN exactly when that line is empty. Each end is the start plus the aligned line's length, gaps included. |
| AlignmentResults.FromAlignmentByResidues | src/ccaligner/AlignmentResult.java:44-56 | Corrected: the same names, bitscore, identity, starts and method, but each end is the start plus the number of residues on the line. |
| AlignmentResults.IsRecomputed | src/ccaligner/AlignmentResult.java:103-106 | Undefined (NPE) exactly for a result without a method, and true exactly for "CC". |
| AlignmentResults.FromAlignmentRecomputed | src/ccaligner/AlignmentResult.java:54 | A result built from an alignment counts as recomputed. |
| AlignmentResults.ResiduesOfLines | src/ccaligner/SmithWatermanGotoh.java:391-401 | Each rendered line holds one non-gap letter per residue of its sequence on the path. |
| AlignmentResults.TracedEnds | src/ccaligner/AlignmentResult.java:50-53 | For a traceback alignment, the corrected ends are exactly the traceback's start cell `(i, j)`. The ends as written overshoot it by the line's gap count. |
| AlignmentResults.EndCountsGaps | src/ccaligner/AlignmentResult.java:51 | A concrete alignment using two residues from 0 gets end 3 as written and 2 corrected. |
| AlignmentResults.CompareZero | src/ccaligner/AlignmentResult.java:84-93 | Two results compare equal exactly when bitscore and both names agree. |
| AlignmentResults.CompareAntisymmetric | src/ccaligner/AlignmentResult.java:84-93 | Swapping the two results negates the comparison. |
| AlignmentResults.CompareTransitive | src/ccaligner/AlignmentResult.java:84-93 | The result order is transitive. |
| AlignmentResults.HigherBitscoreFirst | src/ccaligner/AlignmentResult.java:85-86 | A higher bitscore always ranks first. |
| AlignmentResults.ToString | src/ccaligner/AlignmentResult.java:95-101 | An error result prints as name, tab, name, tab, message. A hit prints its nine fields separated by tabs: names, both scores to two decimals, `1+start1` (wrapped as a Java `int`), `end1`, `1+start2`, `end2` and the method, "null" when there is none. |
| AlignmentResults.ToStringError | src/ccaligner/AlignmentResult.java:97 | An error result prints as its names and message. |
| AlignmentResults.SplitFields | src/ccaligner/AlignmentResult.java:95-101 | Splitting a printed hit at tabs gives back all nine fields, or the first eight when the method is empty. |
| AlignmentResults.WrapIncDec | src/ccaligner/AlignmentResult.java:75-100 | In `int` arithmetic, printing `1+start` and reading back one less restores every start, `Integer.MAX_VALUE` included. |
| AlignmentResults.WrapDecInc | src/ccaligner/AlignmentResult.java:75-100 | Conversely, a printed number read back as one less prints as itself again, `Integer.MIN_VALUE` included. |
| AlignmentResults.ReadNumbers | src/ccaligner/AlignmentResult.java:73-78 | Succeeds exactly when fields 2 and 3 are floats and fields 4 to 7 are `int`s, and returns them. |
| AlignmentResults.Names | src/ccaligner/AlignmentResult.java:62-63 | Succeeds exactly when there are two fields and both names pass `extractName`. |
| AlignmentResults.ParseFields | src/ccaligner/AlignmentResult.java:60-81 | Three fields give an error result. Four to seven fields fail. Otherwise the hit has the parsed numbers and method "SW" unless a ninth field names one. |
| AlignmentResults.Parse | src/ccaligner/AlignmentResult.java:58-82 | As written: the line constructor over the tab-split fields, reading each start as the printed number. |
| AlignmentResults.ParseOneBased | src/ccaligner/AlignmentResult.java:58-82 | Corrected: the same, with each start read as the printed number minus one. |
| AlignmentResults.ParseToString | src/ccaligner/AlignmentResult.java:58-101 | As written, reading a printed hit back moves both starts up by one. |
| AlignmentResults.StartShifts | src/ccaligner/AlignmentResult.java:75-100 | A concrete hit with start 0 reads back with start 1. |
| AlignmentResults.ParseOneBasedToString | src/ccaligner/AlignmentResult.java:58-101 | Reading a printed hit with one-based starts restores the names, both starts, both ends and the method, and the scores to two decimals. |
| AlignmentResults.ParseErrorToString | src/ccaligner/AlignmentResult.java:65-70 | An error result with a non-empty, tab-free message reads back as itself. |
| AlignmentResults.ParseEmptyMessage | src/ccaligner/AlignmentResult.java:60-70 | An error result with an empty message does not read back: the split drops the empty field. |
| ResultLists.OrderedBefore | src/ccaligner/ResultList.java:14 | In the ordered results, every earlier result ranks strictly before every later one. |
| ResultLists.Empty | src/ccaligner/ResultList.java:17-21 | A new list is ordered, empty and has no matrices. |
| ResultLists.InsertSpec | src/ccaligner/ResultList.java:32-35 | The tree-set insertion keeps the order. It changes nothing when a result of the same key is present, and otherwise adds exactly `x`. |
| ResultLists.Add | src/ccaligner/ResultList.java:32-35 | Returns true exactly when no result of the same key is present. Then it adds exactly `x`; otherwise the list is unchanged. Order and matrices are kept. |
| ResultLists.AddMembers | src/ccaligner/ResultList.java:32-35 | After `add`, every result is an old one or `x`. |
| ResultLists.AddSize | src/ccaligner/ResultList.java:32-65 | A successful `add` grows the size by one, and a refused one keeps it. |
| ResultLists.AddSameKeyRefused | src/ccaligner/ResultList.java:32-35 | A second result of the same key is refused. |
| ResultLists.AddKeeps | src/ccaligner/ResultList.java:32-35 | `add` loses nothing. Every old result stays, and afterwards the list holds the key of `x`. |
| ResultLists.AddMatrix | src/ccaligner/ResultList.java:27-30 | Sets the entry for `name`, keeps every other entry and the results. |
| ResultLists.Clear | src/ccaligner/ResultList.java:57-60 | Empties the results and keeps the matrices. |
| ResultLists.GetMatrix | src/ccaligner/ResultList.java:67-82 | With `blosum_matrix` the answer is the background matrix. Otherwise, with `cc_comp_adj`, the adjusted key's matrix comes first, then the pair's own matrix, then the background matrix. |
| ResultLists.AddMatrixGet | src/ccaligner/ResultList.java:27-79 | A matrix stored under a pair's key is what `getMatrix` hands out for that pair without adjustment. |
| ResultLists.AdjustedKeyOfPrefix | src/ccaligner/ResultList.java:73-74 | With a non-empty prefix, the adjusted key is `prefix-name1-prefix-name2`. |
| ResultLists.EmptyPrefixUnadjusted | src/ccaligner/ResultList.java:73-79 | With the interned empty prefix, the adjusted lookup is the plain pair lookup. |
| ResultLists.ClearKeepsMatrices | src/ccaligner/ResultList.java:57-82 | Clearing the results changes no matrix lookup. |
| ResultLists.Examined | src/ccaligner/ResultList.java:41-50 | The loop looks at no more results than there are, and at least one when there is one. |
| ResultLists.RemoveFromTop | src/ccaligner/ResultList.java:37-55 | A negative bound fails. It fails with NullMethod exactly when an examined result has no method. Otherwise it returns the stale results among the examined ones, in order, and keeps the recomputed ones there, everything after them and the matrices. |
| ResultLists.WithoutTop | src/ccaligner/ResultList.java:52 | `removeAll` of those stale results leaves the recomputed top followed by the untouched rest. |
| ResultLists.RemovalConserves | src/ccaligner/ResultList.java:37-55 | What is returned and what stays make up the original list, the rest stays ordered, and no returned result is a recomputed one. |
| ResultLists.OrderedSub | src/ccaligner/ResultList.java:52 | Removing results keeps the list ordered. |
| ResultListIterators.Fetch | src/ccaligner/ResultListIterator.java:50-109 | The top of the loop: the cached result, else the cached line, else the next line. Every step that continues consumes input. A taken result is above the cutoff. |
| ResultListIterators.Line | src/ccaligner/ResultListIterator.java:68-101 | The handling of one line:<br>- a comment line after some results ends the list and is kept for the next call;<br>- a "## query" line replaces the layout with the parsed header, or fails when the header does not parse;<br>- another comment line is read as a matrix declaration with the current layout, or the built-in one when no header was seen. A declared matrix is added to the list under its id, a line that declares none is echoed in pass -1, and a bad declaration fails;<br>- any other line is parsed by the line constructor as written. A parse failure ends the call with that error, a hit below the cutoff is dropped, and any other hit is taken. |
| ResultListIterators.ReadNext | src/ccaligner/ResultListIterator.java:42-126 | The loop always returns an ordered list. |
| ResultListIterators.ReadNextSplits | src/ccaligner/ResultListIterator.java:42-126 | A returned list is above the cutoff and of one grouping name. It is empty only at end of input. A cached result has another name, and a cached line is a comment. |
| ResultListIterators.ReadGroup | src/ccaligner/ResultListIterator.java:42-50 | `readNext` starts from an empty list and returns an ordered one. |
| ResultListIterators.Layout | src/ccaligner/ResultListIterator.java:84-89 | The layout of the last header, or else the built-in layout of all 784 letter pairs. |
| ResultListIterators.ReadNextKeeps | src/ccaligner/ResultListIterator.java:104-124 | No result is lost and none is invented. The returned list keeps every result it started with, and holds the key of every result taken, except the one left in the result cache. Everything in it was there at the start or was taken. |
| ResultListIterators.CachedResultFirst | src/ccaligner/ResultListIterator.java:104-109 | A result left in the cache is the first one the next call takes, and it ends up in the list that call returns, unless the call fails. |
| ResultListIterators.ReadGroupSplits | src/ccaligner/ResultListIterator.java:42-126 | The same for a call of `readNext`. |
| ResultListIterators.Start | src/ccaligner/ResultListIterator.java:129-134 | A new iterator starts at the first line with nothing read ahead. |
| ResultListIterators.StartConsistent | src/ccaligner/ResultListIterator.java:129-134 | A new iterator satisfies the iterator invariant. |
| ResultListIterators.HasNext | src/ccaligner/ResultListIterator.java:136-147 | True exactly when a non-empty list is read ahead. It reads nothing when a list is already waiting. A failed read leaves the exception recorded. |
| ResultListIterators.Next | src/ccaligner/ResultListIterator.java:149-153 | Returns a list exactly when `hasNext` is true, namely the list read ahead, and clears it. |
| ResultListIterators.HasNextStable | src/ccaligner/ResultListIterator.java:136-147 | Asking again after a true answer changes nothing. |
| ResultListIterators.NextGroup | src/ccaligner/ResultListIterator.java:149-153 | Every list `next` returns is non-empty, ordered, of one grouping name and above the cutoff. |
| ResultListIterators.HasNextFalseAtEnd | src/ccaligner/ResultListIterator.java:136-147 | A false answer that read an empty list means the input is exhausted, and the answer stays false. |
| ResultListIterators.ExhaustedEmpty | src/ccaligner/ResultListIterator.java:63-66 | With nothing left to read, `readNext` returns an empty list at once. |

## Left out

- Logging, timing (`System.currentTimeMillis`) and the `Alignment` setters beyond the fields that `align` fills are not modelled. `Cell`, `Alignment`, `Markups` and `Directions` are not part of this model beyond their use in the engine.
- The resource loaders `loadMatrices` and `list` of MatrixLoader are not modelled (file system and jar access). `load(name, stream)` is modelled over the lines of the stream.
- `ResultList.iterator` and `ResultListIterator.remove` are not modelled (a plain iteration and an empty method).
- `AlignmentResult.setMethod` and the getters are not modelled (plain field access).
- `ResultListIterator.lastException` is a plain getter and has no member of its own: the exception it returns is the `exception` field of the iterator state.
- `System.out.println` in the iterator's pass -1 is modelled as the list of echoed lines in the reader state.
- Floating point: scores are reals. `float` rounding, infinities, -0.0 and `DecimalFormat`'s HALF_EVEN rounding are not modelled: the model rounds halves up. `DecimalFormat("0.00")` uses the default locale's decimal separator; the model assumes a locale whose separator is '.', and `AlignmentResults.ParseFormatFloat` and the printed-line round trips hold only there (a ',' separator prints text `Float.valueOf` rejects). The NaN text is "NaN", as printed by JDKs whose locale data is CLDR (the default from JDK 9 on). Older JDKs print U+FFFD, which `Float.valueOf` does not read back; that variant is not modelled.
- `Float.valueOf` is read as plain decimal text only, not with exponents, hexadecimal or the "f"/"d" suffixes. The result-line reader `AlignmentResults.ParseFloat` also reads "NaN".
- `Numbers.ParseScore`: the matrix loader's `Float.valueOf` does not read "NaN" or "Infinity". Java would store those values in the table, which holds only reals, so the model reports NumberFormat for such a column (and LoaderException in the square format).
- `Numbers.Wrap32`: states only the in-range case and the two boundary overflows, not the general modular law.
- The gap-run lengths are unbounded integers. Java stores them in a `short`, which would wrap beyond 32767 consecutive gap steps.
- `SmithWatermanGotoh.Align`: a residue pair that needs a missing coil table is reported as NoSuchRegister before the fill starts. Java throws the same ArrayIndexOutOfBoundsException midway through `construct`.
- A residue letter at or above code 127 is excluded by the `Aa` type. Java would throw ArrayIndexOutOfBoundsException.
- `MatrixLoader.ParseHeader`: the assertions on the three leading columns compare string references with `==`, so with assertions enabled they fail for any header read from input, and also for the built-in header of the default constructor. The resulting AssertionError is not an Exception, so it would escape `hasNext`'s catch. The model leaves these assertions out and treats the header constructor as if assertions were disabled.
- `MatrixLoader.LoadFromLine`: when a scaling factor of 0 divides a numeric value column and Java raises no exception, the model reports ZeroScale. Java would store an infinite or NaN score there, which a table of reals cannot hold. A zero-scale line whose value columns are all "X" loads as in Java.
- `ResultLists.GetMatrix`: Java tests `prefix != ""` by reference. The flag `interned` says whether an empty prefix is the interned literal: only then is the dash omitted. With any other empty prefix the adjusted key becomes `-name1--name2`, whose lookup then falls back to the pair's own key.
- Behaviour kept as the code has it:
  - `removeFromTop` counts recomputed results towards its bound, and a bound below 1 still examines one result;
  - the coil table is that of the register chosen by probability, not a separate mixed matrix;
  - the iterator reads result lines with the line constructor as written (`Parse`), so a start field is taken as printed.
- `Text.CompareStrings`: strings are sequences of Unicode scalar values, while Java's `compareTo` compares UTF-16 code units. The two orders agree on the Basic Multilingual Plane but differ beyond it: "\uFFFF" sorts before U+10000 here, and after it in Java.
- `Numbers.ParseInt`: only ASCII digits are read, while `Integer.valueOf` also accepts the other Unicode decimal digits.
- The recompute scheduler, the command-line driver and the concurrency around them (`Run`) are not part of this model.

## Findings

| source | as written | input that shows it | evidently intended | confidence | as-written member | corrected member |
|---|---|---|---|---|---|---|
| src/ccaligner/AlignmentResult.java:75-100 | `toString` prints `1+start1` and `1+start2`; the line constructor reads them back unchanged. | A hit with start1 = 0 prints 1 and is read back with start1 = 1. | The two agree, so a printed hit reads back with the same starts. The result writer of the command-line driver (src/ccaligner/run/Run.java) prints zero-based starts, which the constructor reads correctly, so either side may be the one to change; the corrected member subtracts one when reading. | medium, not executed | AlignmentResults.ParseToString, AlignmentResults.StartShifts | AlignmentResults.ParseOneBased, AlignmentResults.ParseOneBasedToString |
| src/ccaligner/AlignmentResult.java:51-53 | end = start + length of the aligned line, which counts gap characters. | Columns (A,A), (gap,C), (A,A) from start 0 use two residues of sequence 1, yet end1 = 3. | end = start + number of residues on the line, i.e. the traceback's start cell. The command-line driver computes its ends with the same gap-counting sum, so this may be a convention rather than a slip. | low, not executed | AlignmentResults.FromAlignment, AlignmentResults.EndCountsGaps | AlignmentResults.FromAlignmentByResidues, AlignmentResults.TracedEnds |
| src/jaligner/matrix/Matrix.java:71-72 | `checkScores` returns false unconditionally at the end of its first row. | A table of ones: every row has a positive score, yet the check answers false. With assertions on, `getScores` then always fails. | `if (max <= 0) return false;` inside the loop, as in `ccaligner.matrix.Matrix`, with true after all rows. | high, not executed | LegacyMatrices.LegacyCheckScores, LegacyMatrices.LegacyCheckRejectsOnes | LegacyMatrices.LegacyCheckScoresIntended, LegacyMatrices.LegacyIntendedAgrees |

=== FILE: alignment_result.dfy ===
/** `ccaligner.AlignmentResult`: one line of a result file, either the scores
    and coordinates of a hit or an error message for the pair, with the ranking
    order of result lists, the tab-separated formatter and the line parser.

    `Commons.extractName` is not part of this model; it is the parameter
    `extractName`, whose `None` stands for the exception it may raise. */
module AlignmentResults {
  import opened Wrappers
  import opened Text
  import opened Numbers
  import opened Matrices
  import opened Residues
  import opened Tracing
  import opened SmithWatermanGotoh

  // ---------------------------------------------------------------------------
  // Java floats

  /** A Java `float` as far as results use it: a number, or the NaN that `0/0`
      and the text "NaN" give. */
  datatype Float = Num(value: real) | NaN

  /** `Float.compare(a, b)`: numbers by value, NaN above every number and equal
      to itself. */
  function CompareFloat(a: Float, b: Float): (r: int)
    ensures r == -1 || r == 0 || r == 1
    ensures r == 0 <==> a == b
    ensures a.Num? && b.Num? ==> (r < 0 <==> a.value < b.value)
  {
    match a
    case Num(x) =>
      (match b
       case Num(y) => if x < y then -1 else if x > y then 1 else 0
       case NaN => -1)
    case NaN => if b.NaN? then 0 else 1
  }

  lemma CompareFloatAntisymmetric(a: Float, b: Float)
    ensures CompareFloat(a, b) == -CompareFloat(b, a)
  {
  }

  lemma CompareFloatTransitive(a: Float, b: Float, c: Float)
    requires CompareFloat(a, b) < 0 && CompareFloat(b, c) < 0
    ensures CompareFloat(a, c) < 0
  {
  }

  /** `x < cutoff` for a float `x`: false whenever `x` is NaN. */
  predicate Below(x: Float, cutoff: real) {
    x.Num? && x.value < cutoff
  }

  /** What `DecimalFormat` prints for NaN. */
  const NaNText: string := "NaN"

  /** `f1.format(x)`: two decimals, or the NaN symbol. */
  function FormatFloat(x: Float): (s: string)
    ensures s != [] && '\t' !in s
  {
    match x
    case Num(v) => FormatScore(v)
    case NaN => NaNText
  }

  /** `Float.valueOf(s)` for plain decimal text and for "NaN" with an optional
      sign; `None` is NumberFormatException. */
  function ParseFloat(s: string): (r: Option<Float>)
    ensures Trim(s) == NaNText ==> r == Some(NaN)
  {
    var t := Trim(s);
    if t == NaNText || t == "+" + NaNText || t == "-" + NaNText then Some(NaN)
    else
      match ParseScore(s)
      case Some(v) => Some(Num(v))
      case None => None
  }

  /** The value a float has after printing with two decimals. */
  function Rounded(x: Float): Float {
    match x
    case Num(v) => Num(Round2(v))
    case NaN => NaN
  }

  /** Printing a float and reading it back rounds it to two decimals. */
  lemma ParseFormatFloat(x: Float)
    ensures ParseFloat(FormatFloat(x)) == Some(Rounded(x))
  {
    match x
    case NaN =>
      TrimIdentity(NaNText);
    case Num(v) =>
      ParseFormatScore(v);
      FormatNotNaN(v);
  }

  /** Two-decimal text never reads as NaN: it starts with a digit or a minus
      sign followed by a digit. */
  lemma FormatNotNaN(v: real)
    ensures var t := Trim(FormatScore(v)); t != NaNText && t != "+" + NaNText && t != "-" + NaNText
  {
    var s := FormatScore(v);
    TrimIdentity(s);
    assert Trim(s) == s;
    assert s[0] != '-' ==> s[0] != NaNText[0] && s[0] != '+';
    assert s[0] == '-' ==> |s| > 1 && s[1] != NaNText[0];
  }

  // ---------------------------------------------------------------------------
  // The record

  /** An alignment result. `tag` (the method) is `None` where Java holds null (error
      results); `message` is `Some` exactly for error results. */
  datatype AlignmentResult = AlignmentResult(
    p1: string, p2: string, bitscore: Float, identity: Float,
    start1: int, end1: int, start2: int, end2: int,
    tag: Option<string>, message: Option<string>)

  /** The four coordinates fit in Java `int`s. */
  predicate Valid(r: AlignmentResult) {
    IsInt32(r.start1) && IsInt32(r.end1) && IsInt32(r.start2) && IsInt32(r.end2)
  }

  /** The method tag of a hit recomputed by this aligner. */
  const Recomputed: string := "CC"

  /** The method tag of a line that names none. */
  const DefaultMethod: string := "SW"

  /** `new AlignmentResult(p1, p2, message)`: an error result; the names are kept
      as given. */
  function ErrorResult(p1: string, p2: string, message: string): (r: AlignmentResult)
    ensures r.message == Some(message) && r.tag.None?
    ensures r.p1 == p1 && r.p2 == p2 && Valid(r)
  {
    AlignmentResult(p1, p2, Num(0.0), Num(0.0), 0, 0, 0, 0, None, Some(message))
  }

  /** The error an `AlignmentResult` constructor raises. */
  datatype ParseError = IndexOutOfBounds | NumberFormat | BadName

  /** `new AlignmentResult(p1, p2, bitscore, identity, start1, end1, start2, end2,
      method)`: the names pass through `extractName`, which may throw. */
  function NewResult(p1: string, p2: string, bitscore: Float, identity: Float,
                     start1: int, end1: int, start2: int, end2: int, tag: string,
                     extractName: string -> Option<string>): (r: Result<AlignmentResult, ParseError>)
    ensures r.Success? <==> extractName(p1).Some? && extractName(p2).Some?
    ensures r.Success? ==>
      r.value == AlignmentResult(extractName(p1).value, extractName(p2).value, bitscore, identity,
                                 start1, end1, start2, end2, Some(tag), None)
  {
    var n1 :- Name(p1, extractName);
    var n2 :- Name(p2, extractName);
    Success(AlignmentResult(n1, n2, bitscore, identity, start1, end1, start2, end2, Some(tag), None))
  }

  function Name(s: string, extractName: string -> Option<string>): Result<string, ParseError> {
    match extractName(s)
    case Some(n) => Success(n)
    case None => Failure(BadName)
  }

  /** The characters of an aligned line that are residues rather than gaps. */
  function ResidueCount(line: seq<char>): (n: nat)
    ensures n <= |line|
  {
    if line == [] then 0
    else (if line[0] == Gap then 0 else 1) + ResidueCount(line[1..])
  }

  /** `100.0 * identity / length` as a float: NaN for an empty alignment. */
  function Percent(identity: int, length: int): (r: Float)
    ensures r.NaN? <==> length == 0
    ensures 0 <= identity <= length && length > 0 ==> 0.0 <= r.value <= 100.0
  {
    if length == 0 then NaN
    else Num(100.0 * (identity as real) / (length as real))
  }

  /** `new AlignmentResult(alignment)` as written: names and bitscore copied, the
      identity as a percentage of the first aligned line, each end the start
      plus the length of that side's aligned line, gaps included; the method is
      "CC". The bitscore is computed by the caller (`Alignment` is not part of
      this model beyond what `align` fills in). */
  function FromAlignment(al: Alignment, bitscore: Float): (r: AlignmentResult)
    ensures r.p1 == al.name1 && r.p2 == al.name2 && r.bitscore == bitscore
    ensures r.identity == Percent(al.counts.identity, |al.lines.seq1|)
    ensures r.identity.NaN? <==> al.lines.seq1 == []
    ensures r.tag == Some(Recomputed) && r.message.None?
    ensures r.start1 == al.start1 && r.start2 == al.start2
    ensures IsInt32(al.start1) ==> IsInt32(r.end1)
    ensures IsInt32(al.start1 + |al.lines.seq1|) ==> r.end1 - r.start1 == |al.lines.seq1|
    ensures IsInt32(al.start2 + |al.lines.seq2|) ==> r.end2 - r.start2 == |al.lines.seq2|
  {
    AlignmentResult(al.name1, al.name2, bitscore, Percent(al.counts.identity, |al.lines.seq1|),
      al.start1, Wrap32(al.start1 + |al.lines.seq1|),
      al.start2, Wrap32(al.start2 + |al.lines.seq2|),
      Some(Recomputed), None)
  }

  /** The same constructor with each end the start plus the number of residues
      that side actually uses, so that the end is where the traceback began. */
  function FromAlignmentByResidues(al: Alignment, bitscore: Float): (r: AlignmentResult)
    ensures r.p1 == al.name1 && r.p2 == al.name2 && r.bitscore == bitscore
    ensures r.identity == Percent(al.counts.identity, |al.lines.seq1|)
    ensures r.identity.NaN? <==> al.lines.seq1 == []
    ensures r.tag == Some(Recomputed) && r.message.None?
    ensures r.start1 == al.start1 && r.start2 == al.start2
    ensures IsInt32(al.start1 + ResidueCount(al.lines.seq1)) ==> r.end1 - r.start1 == ResidueCount(al.lines.seq1)
    ensures IsInt32(al.start2 + ResidueCount(al.lines.seq2)) ==> r.end2 - r.start2 == ResidueCount(al.lines.seq2)
  {
    AlignmentResult(al.name1, al.name2, bitscore, Percent(al.counts.identity, |al.lines.seq1|),
      al.start1, Wrap32(al.start1 + ResidueCount(al.lines.seq1)),
      al.start2, Wrap32(al.start2 + ResidueCount(al.lines.seq2)),
      Some(Recomputed), None)
  }

  /** `isRecomputed()`: whether the method is "CC"; `None` is the
      NullPointerException of an error result, whose method is null. */
  function IsRecomputed(r: AlignmentResult): (b: Option<bool>)
    ensures b.None? <==> r.tag.None?
    ensures b == Some(true) <==> r.tag == Some(Recomputed)
  {
    match r.tag
    case None => None
    case Some(m) => Some(m == Recomputed)
  }

  /** A result built from an alignment counts as recomputed. */
  lemma FromAlignmentRecomputed(al: Alignment, bitscore: Float)
    ensures IsRecomputed(FromAlignment(al, bitscore)) == Some(true)
    ensures IsRecomputed(FromAlignmentByResidues(al, bitscore)) == Some(true)
  {
  }

  /** No residue letter is the gap character. */
  predicate NoGapLetters(s: seq<Residue>) {
    forall k :: 0 <= k < |s| ==> s[k].aa != Gap
  }

  /** Each line of rendered columns holds one letter per residue its sequence
      contributes and a gap character for every other column. */
  lemma {:induction false} ResiduesOfLines(cols: seq<Column>, t: Table)
    requires NoGapLetters(First(cols)) && NoGapLetters(Second(cols))
    ensures ResidueCount(Render(cols, t).seq1) == |First(cols)|
    ensures ResidueCount(Render(cols, t).seq2) == |Second(cols)|
  {
    if cols != [] {
      var l := Render(cols, t);
      var m := Render(cols[1..], t);
      assert l.seq1[1..] == m.seq1 && l.seq2[1..] == m.seq2;
      var d1 := if cols[0].OnlySecond? then [] else [cols[0].a];
      var d2 := if cols[0].OnlyFirst? then [] else [cols[0].b];
      assert First(cols) == d1 + First(cols[1..]);
      assert Second(cols) == d2 + Second(cols[1..]);
      assert forall k :: 0 <= k < |First(cols[1..])| ==> First(cols[1..])[k] == First(cols)[k + |d1|];
      assert forall k :: 0 <= k < |Second(cols[1..])| ==> Second(cols[1..])[k] == Second(cols)[k + |d2|];
      if !cols[0].OnlySecond? {
        assert First(cols)[0] == cols[0].a;
      }
      if !cols[0].OnlyFirst? {
        assert Second(cols)[0] == cols[0].b;
      }
      ResiduesOfLines(cols[1..], t);
    }
  }

  /** For an alignment rendered from a traceback that began at cell `(i, j)`,
      counting residues puts each end exactly at that cell, while the
      constructor as written overshoots it by the gap characters of the line. */
  lemma TracedEnds(s1: seq<Residue>, s2: seq<Residue>, p: Pointers, i: int, j: int, t: Table,
                   al: Alignment, bitscore: Float)
    requires ValidPointers(p, |s1| + 1, |s2| + 1)
    requires 0 <= i <= |s1| && 0 <= j <= |s2|
    requires NoGapLetters(s1) && NoGapLetters(s2) && IsInt32(|s1|) && IsInt32(|s2|)
    requires var path := Trace(s1, s2, p, i, j);
      al.lines == Render(path.columns, t) && al.start1 == path.start1 && al.start2 == path.start2
    ensures FromAlignmentByResidues(al, bitscore).end1 == i
    ensures FromAlignmentByResidues(al, bitscore).end2 == j
    ensures IsInt32(al.start1 + |al.lines.seq1|) ==>
      FromAlignment(al, bitscore).end1 == i + (|al.lines.seq1| - ResidueCount(al.lines.seq1))
    ensures IsInt32(al.start2 + |al.lines.seq2|) ==>
      FromAlignment(al, bitscore).end2 == j + (|al.lines.seq2| - ResidueCount(al.lines.seq2))
  {
    var path := Trace(s1, s2, p, i, j);
    TraceCovers(s1, s2, p, i, j);
    assert First(path.columns) == s1[path.start1..i];
    assert Second(path.columns) == s2[path.start2..j];
    ResiduesOfLines(path.columns, t);
    assert ResidueCount(al.lines.seq1) == i - al.start1;
    assert ResidueCount(al.lines.seq2) == j - al.start2;
  }

  /** A concrete alignment with a gap in its first line: the columns use two
      residues of the first sequence, from 0, yet the end written is 3. */
  lemma EndCountsGaps(a: Residue, c: Residue, t: Table, bitscore: Float)
    requires a.aa != Gap && c.aa != Gap
    ensures var cols := [Aligned(a, a), OnlySecond(c), Aligned(a, a)];
      var al := Alignment("x", "y", None, 0.0, 0.0, 1.0, Render(cols, t), 0, 0, CountsOf(cols, t));
      |First(cols)| == 2 && FromAlignment(al, bitscore).end1 == 3 &&
      FromAlignmentByResidues(al, bitscore).end1 == 2
  {
    var cols := [Aligned(a, a), OnlySecond(c), Aligned(a, a)];
    var l := Render(cols, t);
    assert l.seq1 == [a.aa, Gap, a.aa];
    assert l.seq1[1..] == [Gap, a.aa] && l.seq1[1..][1..] == [a.aa];
    assert ResidueCount(l.seq1[1..][1..]) == 1;
    assert ResidueCount(l.seq1) == 2;
    assert cols[1..] == [OnlySecond(c), Aligned(a, a)] && cols[1..][1..] == [Aligned(a, a)];
    assert First(cols[1..][1..]) == [a];
    assert First(cols[1..]) == [a];
  }

  // ---------------------------------------------------------------------------
  // compareTo

  /** `compareTo(other)`: higher bitscores first, then the first name, then the
      second name, each in `String.compareTo` order. */
  function Compare(a: AlignmentResult, b: AlignmentResult): int {
    var byScore := CompareFloat(b.bitscore, a.bitscore);
    if byScore != 0 then byScore
    else
      var byName1 := CompareStrings(a.p1, b.p1);
      if byName1 != 0 then byName1 else CompareStrings(a.p2, b.p2)
  }

  /** The part of a result the order looks at. */
  predicate SameKey(a: AlignmentResult, b: AlignmentResult) {
    a.bitscore == b.bitscore && a.p1 == b.p1 && a.p2 == b.p2
  }

  /** Two results compare equal exactly when bitscore and both names agree. */
  lemma CompareZero(a: AlignmentResult, b: AlignmentResult)
    ensures Compare(a, b) == 0 <==> SameKey(a, b)
  {
    CompareStringsZero(a.p1, b.p1);
    CompareStringsZero(a.p2, b.p2);
  }

  lemma CompareAntisymmetric(a: AlignmentResult, b: AlignmentResult)
    ensures Compare(a, b) == -Compare(b, a)
  {
    CompareFloatAntisymmetric(a.bitscore, b.bitscore);
    CompareStringsAntisymmetric(a.p1, b.p1);
    CompareStringsAntisymmetric(a.p2, b.p2);
  }

  lemma CompareTransitive(a: AlignmentResult, b: AlignmentResult, c: AlignmentResult)
    requires Compare(a, b) < 0 && Compare(b, c) < 0
    ensures Compare(a, c) < 0
  {
    CompareZero(a, b);
    CompareZero(b, c);
    var ab, bc := CompareFloat(b.bitscore, a.bitscore), CompareFloat(c.bitscore, b.bitscore);
    if ab < 0 && bc < 0 {
      CompareFloatTransitive(c.bitscore, b.bitscore, a.bitscore);
    } else if ab == 0 && bc == 0 {
      if CompareStrings(a.p1, b.p1) == 0 || CompareStrings(b.p1, c.p1) == 0 {
        CompareStringsZero(a.p1, b.p1);
        CompareStringsZero(b.p1, c.p1);
        if CompareStrings(a.p1, b.p1) == 0 && CompareStrings(b.p1, c.p1) == 0 {
          CompareStringsTransitive(a.p2, b.p2, c.p2);
        }
      } else {
        CompareStringsTransitive(a.p1, b.p1, c.p1);
      }
    }
  }

  /** A higher bitscore always comes first. */
  lemma HigherBitscoreFirst(a: AlignmentResult, b: AlignmentResult)
    requires a.bitscore.Num? && b.bitscore.Num? && a.bitscore.value > b.bitscore.value
    ensures Compare(a, b) < 0
  {
  }

  // ---------------------------------------------------------------------------
  // toString

  /** `"null"`, which Java prints for a null method. */
  function MethodText(m: Option<string>): string {
    match m
    case Some(s) => s
    case None => "null"
  }

  /** The fields `toString` prints, in order. */
  function Fields(r: AlignmentResult): seq<string> {
    if r.message.Some? then [r.p1, r.p2, r.message.value]
    else HitFields(r) + [MethodText(r.tag)]
  }

  /** The eight fields of a hit before its method. */
  function HitFields(r: AlignmentResult): seq<string> {
    [r.p1, r.p2, FormatFloat(r.bitscore), FormatFloat(r.identity),
     IntToString(Wrap32(1 + r.start1)), IntToString(r.end1),
     IntToString(Wrap32(1 + r.start2)), IntToString(r.end2)]
  }

  /** `toString()`: the fields joined by tabs; the starts are printed one-based,
      with Java `int` wrap-around. */
  function ToString(r: AlignmentResult): (s: string)
    ensures r.message.Some? ==> s == r.p1 + "\t" + (r.p2 + "\t" + r.message.value)
    ensures r.message.None? ==>
      s == r.p1 + "\t" + (r.p2 + "\t" + (FormatFloat(r.bitscore) + "\t" + (FormatFloat(r.identity) + "\t" +
           (IntToString(Wrap32(1 + r.start1)) + "\t" + (IntToString(r.end1) + "\t" +
           (IntToString(Wrap32(1 + r.start2)) + "\t" + (IntToString(r.end2) + "\t" + MethodText(r.tag))))))))
  {
    if r.message.Some? then
      JoinFields([r.p1, r.p2, r.message.value]);
      Join(Fields(r), '\t')
    else
      var fs := [r.p1, r.p2, FormatFloat(r.bitscore), FormatFloat(r.identity),
                 IntToString(Wrap32(1 + r.start1)), IntToString(r.end1),
                 IntToString(Wrap32(1 + r.start2)), IntToString(r.end2), MethodText(r.tag)];
      assert Fields(r) == fs;
      JoinFields(fs);
      Join(Fields(r), '\t')
  }

  /** Joining three or nine fields with tabs, written out (concatenation is
      associative; the grouping follows `Join`). */
  lemma JoinFields(fs: seq<string>)
    ensures |fs| == 3 ==> Join(fs, '\t') == fs[0] + "\t" + (fs[1] + "\t" + fs[2])
    ensures |fs| == 9 ==>
      Join(fs, '\t') == fs[0] + "\t" + (fs[1] + "\t" + (fs[2] + "\t" + (fs[3] + "\t" + (fs[4] + "\t" +
                        (fs[5] + "\t" + (fs[6] + "\t" + (fs[7] + "\t" + fs[8])))))))
  {
    if |fs| == 3 {
      JoinStep(fs, 1);
      JoinStep(fs, 0);
    } else if |fs| == 9 {
      JoinStep(fs, 7);
      JoinStep(fs, 6);
      JoinStep(fs, 5);
      JoinStep(fs, 4);
      JoinStep(fs, 3);
      JoinStep(fs, 2);
      JoinStep(fs, 1);
      JoinStep(fs, 0);
    }
  }

  lemma JoinStep(fs: seq<string>, k: nat)
    requires k + 1 < |fs|
    ensures Join(fs[k..], '\t') == fs[k] + "\t" + Join(fs[k + 1..], '\t')
  {
    assert fs[k..][1..] == fs[k + 1..];
  }

  /** An error result prints as the two names and the message. */
  lemma ToStringError(p1: string, p2: string, message: string)
    ensures ToString(ErrorResult(p1, p2, message)) == p1 + "\t" + p2 + "\t" + message
  {
    var fs := [p1, p2, message];
    assert fs[1..] == [p2, message];
    assert fs[1..][1..] == [message];
    assert Join(fs[1..], '\t') == p2 + "\t" + message;
    assert Join(fs, '\t') == p1 + "\t" + (p2 + "\t" + message);
  }

  // ---------------------------------------------------------------------------
  // The line constructor

  function Field(fields: seq<string>, k: nat): Result<string, ParseError> {
    if k < |fields| then Success(fields[k]) else Failure(IndexOutOfBounds)
  }

  function FloatField(fields: seq<string>, k: nat): Result<Float, ParseError> {
    var s :- Field(fields, k);
    match ParseFloat(s)
    case Some(x) => Success(x)
    case None => Failure(NumberFormat)
  }

  function IntField(fields: seq<string>, k: nat): Result<int, ParseError> {
    var s :- Field(fields, k);
    match ParseInt(s)
    case Some(x) => Success(x)
    case None => Failure(NumberFormat)
  }

  /** The numbers of a hit line. */
  datatype HitNumbers = HitNumbers(bitscore: Float, identity: Float, start1: int, end1: int, start2: int, end2: int)

  /** Fields 2 to 7 of a hit line, read in order; the first one missing or
      malformed raises. */
  function ReadNumbers(fields: seq<string>): (r: Result<HitNumbers, ParseError>)
    ensures r.Success? ==> |fields| >= 8
    ensures r.Success? <==>
      FloatField(fields, 2).Success? && FloatField(fields, 3).Success? &&
      IntField(fields, 4).Success? && IntField(fields, 5).Success? &&
      IntField(fields, 6).Success? && IntField(fields, 7).Success?
    ensures r.Success? ==> r.value == HitNumbers(
      FloatField(fields, 2).value, FloatField(fields, 3).value, IntField(fields, 4).value,
      IntField(fields, 5).value, IntField(fields, 6).value, IntField(fields, 7).value)
  {
    var bitscore :- FloatField(fields, 2);
    var identity :- FloatField(fields, 3);
    var start1 :- IntField(fields, 4);
    var end1 :- IntField(fields, 5);
    var start2 :- IntField(fields, 6);
    var end2 :- IntField(fields, 7);
    Success(HitNumbers(bitscore, identity, start1, end1, start2, end2))
  }

  /** A hit from its names and numbers, each start read as the printed number
      minus `base`: 0 as written, 1 for one-based starts. */
  function Hit(fields: seq<string>, p1: string, p2: string, n: HitNumbers, base: int): AlignmentResult {
    var tag := if |fields| > 8 then fields[8] else DefaultMethod;
    AlignmentResult(p1, p2, n.bitscore, n.identity, Wrap32(n.start1 - base), n.end1, Wrap32(n.start2 - base), n.end2, Some(tag), None)
  }

  /** Fields 0 and 1 through `extractName`. */
  function Names(fields: seq<string>, extractName: string -> Option<string>): (r: Result<(string, string), ParseError>)
    ensures r.Success? <==> |fields| >= 2 && extractName(fields[0]).Some? && extractName(fields[1]).Some?
    ensures r.Success? ==> r.value == (extractName(fields[0]).value, extractName(fields[1]).value)
  {
    var f0 :- Field(fields, 0);
    var p1 :- Name(f0, extractName);
    var f1 :- Field(fields, 1);
    var p2 :- Name(f1, extractName);
    Success((p1, p2))
  }

  /** The line constructor over the split fields: the two names, then the
      message of a three-field line or the numbers and method of a hit. */
  function ParseFields(fields: seq<string>, extractName: string -> Option<string>, base: int)
    : (r: Result<AlignmentResult, ParseError>)
    ensures r.Success? ==> (|fields| == 3 || |fields| >= 8) && Names(fields, extractName) == Success((r.value.p1, r.value.p2))
    ensures r.Success? && |fields| == 3 ==> r.value == ErrorResult(r.value.p1, r.value.p2, fields[2])
    ensures r.Success? && |fields| != 3 ==>
      ReadNumbers(fields).Success? && r.value == Hit(fields, r.value.p1, r.value.p2, ReadNumbers(fields).value, base)
    ensures 3 < |fields| < 8 ==> r.Failure?
  {
    var names :- Names(fields, extractName);
    if |fields| == 3 then Success(ErrorResult(names.0, names.1, fields[2]))
    else
      var n :- ReadNumbers(fields);
      Success(Hit(fields, names.0, names.1, n, base))
  }

  /** `new AlignmentResult(line)` as written: the line is split at tabs; three
      fields make an error result, eight or more a hit whose starts are read
      exactly as printed. */
  function Parse(line: string, extractName: string -> Option<string>): (r: Result<AlignmentResult, ParseError>)
    ensures var fields := JavaSplit(line, '\t');
      (r.Success? ==> |fields| == 3 || |fields| >= 8) &&
      (r.Success? && |fields| >= 8 ==> IntField(fields, 4) == Success(r.value.start1))
  {
    ParseFields(JavaSplit(line, '\t'), extractName, 0)
  }

  /** The line constructor reading the starts back as one-based numbers, the
      inverse of `toString`. */
  function ParseOneBased(line: string, extractName: string -> Option<string>): (r: Result<AlignmentResult, ParseError>)
    ensures var fields := JavaSplit(line, '\t');
      (r.Success? ==> |fields| == 3 || |fields| >= 8) &&
      (r.Success? && |fields| >= 8 ==> IntField(fields, 4) == Success(Wrap32(r.value.start1 + 1)))
  {
    var fields := JavaSplit(line, '\t');
    OneBasedStart(fields, extractName);
    ParseFields(fields, extractName, 1)
  }

  lemma OneBasedStart(fields: seq<string>, extractName: string -> Option<string>)
    ensures var r := ParseFields(fields, extractName, 1);
      r.Success? && |fields| >= 8 ==> IntField(fields, 4) == Success(Wrap32(r.value.start1 + 1))
  {
    var r := ParseFields(fields, extractName, 1);
    if r.Success? && |fields| >= 8 {
      ParsedStart(fields, extractName, 1);
      var x := ReadNumbers(fields).value.start1;
      assert IntField(fields, 4) == Success(x);
      assert r.value.start1 == Wrap32(x - 1);
      WrapDecInc(x);
    }
  }

  /** A parsed hit's first start is the printed number minus `base`, in `int`
      arithmetic. */
  lemma ParsedStart(fields: seq<string>, extractName: string -> Option<string>, base: int)
    ensures var r := ParseFields(fields, extractName, base);
      r.Success? && |fields| >= 8 ==>
        ReadNumbers(fields).Success? && r.value.start1 == Wrap32(ReadNumbers(fields).value.start1 - base)
  {
  }

  // ---------------------------------------------------------------------------
  // Round trips

  predicate TabFree(s: string) {
    '\t' !in s
  }

  /** A hit whose names and method hold no tab and whose names are already in
      the form `extractName` produces. */
  predicate Printable(r: AlignmentResult, extractName: string -> Option<string>) {
    r.message.None? && r.tag.Some? && Valid(r) &&
    TabFree(r.p1) && TabFree(r.p2) && TabFree(r.tag.value) &&
    extractName(r.p1) == Some(r.p1) && extractName(r.p2) == Some(r.p2)
  }

  /** What reading back a printed hit gives, with the starts read as
      `printed - base`: scores rounded to two decimals, an empty method replaced
      by the default one (the empty last field is dropped by the split). */
  function ReadBack(r: AlignmentResult, base: int): AlignmentResult
    requires r.tag.Some?
  {
    r.(bitscore := Rounded(r.bitscore), identity := Rounded(r.identity),
       start1 := Wrap32(Wrap32(1 + r.start1) - base), start2 := Wrap32(Wrap32(1 + r.start2) - base),
       tag := Some(if r.tag.value == [] then DefaultMethod else r.tag.value))
  }

  /** The fields of a printed hit come back from the split: all nine, or the
      first eight when the method is empty. */
  lemma SplitFields(r: AlignmentResult)
    requires r.message.None? && r.tag.Some?
    requires TabFree(r.p1) && TabFree(r.p2) && TabFree(r.tag.value)
    ensures var hs := HitFields(r);
      JavaSplit(ToString(r), '\t') == (if r.tag.value == [] then hs else hs + [r.tag.value])
  {
    var hs := HitFields(r);
    var fs := Fields(r);
    assert fs == hs + [r.tag.value];
    assert |fs| == 9 && fs[7] != [];
    assert forall k :: 0 <= k < |fs| ==> Free(fs[k], '\t');
    if r.tag.value == [] {
      JavaSplitJoinEmptyLast(fs, '\t');
      assert fs[..8] == hs;
    } else {
      JavaSplitJoin(fs, '\t');
    }
  }

  /** The numbers a printed hit shows: scores rounded to two decimals, starts
      one-based. */
  function PrintedNumbers(r: AlignmentResult): HitNumbers {
    HitNumbers(Rounded(r.bitscore), Rounded(r.identity),
      Wrap32(1 + r.start1), r.end1, Wrap32(1 + r.start2), r.end2)
  }

  /** The numbers of a printed hit read back as printed. */
  lemma NumbersReadBack(r: AlignmentResult)
    requires Valid(r)
    ensures ReadNumbers(HitFields(r)) == Success(PrintedNumbers(r))
  {
    ScoresReadBack(r);
    CoordinatesReadBack(r);
    ReadNumbersOf(HitFields(r), PrintedNumbers(r));
  }

  lemma ScoresReadBack(r: AlignmentResult)
    ensures FloatField(HitFields(r), 2) == Success(Rounded(r.bitscore))
    ensures FloatField(HitFields(r), 3) == Success(Rounded(r.identity))
  {
    FloatReadBack(HitFields(r), 2, r.bitscore);
    FloatReadBack(HitFields(r), 3, r.identity);
  }

  lemma CoordinatesReadBack(r: AlignmentResult)
    requires Valid(r)
    ensures IntField(HitFields(r), 4) == Success(Wrap32(1 + r.start1))
    ensures IntField(HitFields(r), 5) == Success(r.end1)
    ensures IntField(HitFields(r), 6) == Success(Wrap32(1 + r.start2))
    ensures IntField(HitFields(r), 7) == Success(r.end2)
  {
    StartsReadBack(r);
    EndsReadBack(r);
  }

  lemma StartsReadBack(r: AlignmentResult)
    ensures IntField(HitFields(r), 4) == Success(Wrap32(1 + r.start1))
    ensures IntField(HitFields(r), 6) == Success(Wrap32(1 + r.start2))
  {
    var fs := HitFields(r);
    var a, b := Wrap32(1 + r.start1), Wrap32(1 + r.start2);
    assert fs[4] == IntToString(a) && fs[6] == IntToString(b);
    IntReadBack(fs, 4, a);
    IntReadBack(fs, 6, b);
  }

  lemma EndsReadBack(r: AlignmentResult)
    requires Valid(r)
    ensures IntField(HitFields(r), 5) == Success(r.end1)
    ensures IntField(HitFields(r), 7) == Success(r.end2)
  {
    var fs := HitFields(r);
    assert fs[5] == IntToString(r.end1) && fs[7] == IntToString(r.end2);
    IntReadBack(fs, 5, r.end1);
    IntReadBack(fs, 7, r.end2);
  }

  /** Six fields that each read as a number give those numbers. */
  lemma ReadNumbersOf(fs: seq<string>, n: HitNumbers)
    requires FloatField(fs, 2) == Success(n.bitscore) && FloatField(fs, 3) == Success(n.identity)
    requires IntField(fs, 4) == Success(n.start1) && IntField(fs, 5) == Success(n.end1)
    requires IntField(fs, 6) == Success(n.start2) && IntField(fs, 7) == Success(n.end2)
    ensures ReadNumbers(fs) == Success(n)
  {
  }

  /** A ninth field changes neither the names nor the numbers read. */
  lemma ExtraField(hs: seq<string>, t: string, extractName: string -> Option<string>)
    requires |hs| == 8
    ensures ReadNumbers(hs + [t]) == ReadNumbers(hs)
    ensures Names(hs + [t], extractName) == Names(hs, extractName)
  {
    var fs := hs + [t];
    assert forall k :: 0 <= k < 8 ==> fs[k] == hs[k];
  }

  lemma FloatReadBack(fs: seq<string>, k: nat, x: Float)
    requires k < |fs| && fs[k] == FormatFloat(x)
    ensures FloatField(fs, k) == Success(Rounded(x))
  {
    ParseFormatFloat(x);
  }

  lemma IntReadBack(fs: seq<string>, k: nat, n: int)
    requires k < |fs| && fs[k] == IntToString(n) && IsInt32(n)
    ensures IntField(fs, k) == Success(n)
  {
    ParseIntToString(n);
  }

  lemma ParseFieldsOfPrinted(r: AlignmentResult, extractName: string -> Option<string>, base: int)
    requires Printable(r, extractName)
    ensures ParseFields(JavaSplit(ToString(r), '\t'), extractName, base) == Success(ReadBack(r, base))
  {
    SplitFields(r);
    ParsePrintedFields(r, JavaSplit(ToString(r), '\t'), extractName, base);
  }

  /** The fields of a printed hit, as the split returns them, parse back. */
  lemma ParsePrintedFields(r: AlignmentResult, fs: seq<string>, extractName: string -> Option<string>, base: int)
    requires Printable(r, extractName)
    requires fs == (if r.tag.value == [] then HitFields(r) else HitFields(r) + [r.tag.value])
    ensures ParseFields(fs, extractName, base) == Success(ReadBack(r, base))
  {
    var hs := HitFields(r);
    NumbersReadBack(r);
    assert Names(hs, extractName) == Success((r.p1, r.p2));
    if r.tag.value != [] {
      ExtraField(hs, r.tag.value, extractName);
    }
    ParseHit(fs, extractName, base, r.p1, r.p2, PrintedNumbers(r));
    HitReadBack(r, hs, fs, PrintedNumbers(r), base);
  }

  /** The hit built from a printed hit's fields is what reading back promises. */
  lemma HitReadBack(r: AlignmentResult, hs: seq<string>, fs: seq<string>, n: HitNumbers, base: int)
    requires r.tag.Some? && r.message.None?
    requires |hs| == 8 && fs == (if r.tag.value == [] then hs else hs + [r.tag.value])
    requires n == PrintedNumbers(r)
    ensures Hit(fs, r.p1, r.p2, n, base) == ReadBack(r, base)
  {
    if r.tag.value != [] {
      assert |fs| == 9 && fs[8] == r.tag.value;
    }
  }

  /** A line with both names and all six numbers parses to the hit they make. */
  lemma ParseHit(fs: seq<string>, extractName: string -> Option<string>, base: int,
                 p1: string, p2: string, n: HitNumbers)
    requires Names(fs, extractName) == Success((p1, p2))
    requires ReadNumbers(fs) == Success(n)
    ensures ParseFields(fs, extractName, base) == Success(Hit(fs, p1, p2, n, base))
  {
  }

  /** As written, reading back a printed hit moves both starts up by one (with
      `int` wrap-around); names, ends and the method survive and the scores are
      rounded to two decimals. */
  lemma ParseToString(r: AlignmentResult, extractName: string -> Option<string>)
    requires Printable(r, extractName)
    ensures Parse(ToString(r), extractName) == Success(ReadBack(r, 0))
    ensures Parse(ToString(r), extractName).value.start1 == Wrap32(r.start1 + 1)
  {
    ParseFieldsOfPrinted(r, extractName, 0);
  }

  /** A concrete hit whose start does not survive the round trip. */
  lemma StartShifts(extractName: string -> Option<string>)
    requires extractName("a") == Some("a") && extractName("b") == Some("b")
    ensures var r := AlignmentResult("a", "b", Num(1.0), Num(50.0), 0, 4, 0, 4, Some(Recomputed), None);
      Parse(ToString(r), extractName).Success? && Parse(ToString(r), extractName).value.start1 == 1 != r.start1
  {
    var r := AlignmentResult("a", "b", Num(1.0), Num(50.0), 0, 4, 0, 4, Some(Recomputed), None);
    ParseToString(r, extractName);
  }

  /** Reading the starts as one-based restores them exactly. */
  lemma ParseOneBasedToString(r: AlignmentResult, extractName: string -> Option<string>)
    requires Printable(r, extractName)
    ensures ParseOneBased(ToString(r), extractName) == Success(ReadBack(r, 1))
    ensures ReadBack(r, 1).start1 == r.start1 && ReadBack(r, 1).start2 == r.start2
  {
    ParseFieldsOfPrinted(r, extractName, 1);
    WrapIncDec(r.start1);
    WrapIncDec(r.start2);
  }

  /** In Java `int` arithmetic, subtracting one and then adding one is the
      identity, `Integer.MIN_VALUE` included. */
  lemma WrapDecInc(x: int)
    requires IsInt32(x)
    ensures Wrap32(Wrap32(x - 1) + 1) == x
  {
    if x == MinInt32 {
      assert Wrap32(x - 1) == MaxInt32;
    } else {
      assert Wrap32(x - 1) == x - 1;
    }
  }

  /** In Java `int` arithmetic, adding one and then subtracting one is the
      identity, `Integer.MAX_VALUE` included. */
  lemma WrapIncDec(x: int)
    requires IsInt32(x)
    ensures Wrap32(Wrap32(1 + x) - 1) == x
  {
    if x == MaxInt32 {
      assert Wrap32(1 + x) == MinInt32;
    } else {
      assert Wrap32(1 + x) == 1 + x;
    }
  }

  /** An error result with a non-empty, tab-free message reads back as itself. */
  lemma ParseErrorToString(p1: string, p2: string, message: string, extractName: string -> Option<string>)
    requires TabFree(p1) && TabFree(p2) && TabFree(message) && message != []
    requires extractName(p1) == Some(p1) && extractName(p2) == Some(p2)
    ensures Parse(ToString(ErrorResult(p1, p2, message)), extractName) == Success(ErrorResult(p1, p2, message))
  {
    var fs := [p1, p2, message];
    assert forall k :: 0 <= k < 3 ==> Free(fs[k], '\t');
    JavaSplitJoin(fs, '\t');
  }

  /** An error result with an empty message does not read back: the split drops
      the empty last field and the constructor indexes past the end. */
  lemma ParseEmptyMessage(p1: string, p2: string, extractName: string -> Option<string>)
    requires TabFree(p1) && p2 != [] && TabFree(p2)
    requires extractName(p1) == Some(p1) && extractName(p2) == Some(p2)
    ensures Parse(ToString(ErrorResult(p1, p2, "")), extractName) == Failure(IndexOutOfBounds)
  {
    var fs := [p1, p2, ""];
    assert forall k :: 0 <= k < 3 ==> Free(fs[k], '\t');
    JavaSplitJoinEmptyLast(fs, '\t');
    assert fs[..2] == [p1, p2];
  }
}

=== FILE: engine.dfy ===
/** `ccaligner.SmithWatermanGotoh`: the imperative fill of the direction and
    gap-run tables with rolling score rows, the traceback into reversed
    buffers, and `align`, which joins the two. Each is proved to compute what
    the recurrence and the traceback function of the specification modules
    define. */
module SmithWatermanGotoh {
  import opened Wrappers
  import opened Matrices
  import opened Residues
  import opened Recurrence
  import opened Tracing

  // ---------------------------------------------------------------------------
  // Helpers

  /** `maximum(a, b, c, d)`, with the source's nested comparisons. */
  function Maximum(a: real, b: real, c: real, d: real): (r: real)
    ensures r == a || r == b || r == c || r == d
    ensures r >= a && r >= b && r >= c && r >= d
  {
    if a > b then
      if a > c then (if a > d then a else d)
      else (if c > d then c else d)
    else if b > c then (if b > d then b else d)
    else (if c > d then c else d)
  }

  /** `reverse(a, len)`: the first `len` elements of `a`, last one first. */
  method Reverse<T>(a: seq<T>, len: int) returns (b: seq<T>)
    requires 0 <= len <= |a|
    ensures |b| == len
    ensures forall j :: 0 <= j < len ==> b[j] == a[len - 1 - j]
  {
    b := [];
    var i := len - 1;
    while i >= 0
      invariant -1 <= i < len
      invariant |b| == len - 1 - i
      invariant forall j :: 0 <= j < |b| ==> b[j] == a[len - 1 - j]
    {
      b := b + [a[i]];
      i := i - 1;
    }
  }

  /** The cell where the traceback starts, with its score. */
  datatype Cell = Cell(row: int, col: int, score: real)

  /** A running gap score: minus infinity until the first update, as the source
      initialises `g` and `h` with `Float.NEGATIVE_INFINITY`. */
  datatype Ext = NegInf | Fin(value: real)

  /** `x - e > y`, where minus infinity minus anything is below every score. */
  predicate Exceeds(x: Ext, e: real, y: real) {
    x.Fin? && x.value - e > y
  }

  /** The value `g[c]` holds after row `r`. */
  function GExt(pr: Problem, r: int, c: int): Ext
    requires Scorable(pr) && 0 <= r <= |pr.s1| && 1 <= c <= |pr.s2|
  {
    if r == 0 then NegInf else Fin(G(pr, r, c))
  }

  /** The value `h` holds after column `c` of row `r`. */
  function HExt(pr: Problem, r: int, c: int): Ext
    requires Scorable(pr) && 1 <= r <= |pr.s1| && 0 <= c <= |pr.s2|
  {
    if c == 0 then NegInf else Fin(H(pr, r, c))
  }

  // ---------------------------------------------------------------------------
  // construct

  /** Cell `(r, c)` comes before cell `(i, j)` in row-major order. */
  predicate Before(r: int, c: int, i: int, j: int) {
    r < i || (r == i && c < j)
  }

  /** `best` is the first cell of maximal score among those before `(i, j)`,
      with row 0 and column 0 counting as visited; ties keep the earlier cell
      and a maximum of 0 keeps the initial cell `(0, 0)`. */
  ghost predicate BestOf(pr: Problem, best: Cell, i: int, j: int)
    requires Scorable(pr)
  {
    InRange(pr, best.row, best.col) && best.score == V(pr, best.row, best.col) &&
    (best.score == 0.0 ==> best.row == 0 && best.col == 0) &&
    (forall r, c :: InRange(pr, r, c) && Before(r, c, i, j) ==> V(pr, r, c) <= best.score) &&
    (forall r, c :: InRange(pr, r, c) && Before(r, c, best.row, best.col) ==> V(pr, r, c) < best.score)
  }

  lemma BestStart(pr: Problem)
    requires Scorable(pr)
    ensures BestOf(pr, Cell(0, 0, 0.0), 1, 1)
  {
  }

  /** Visiting cell `(i, j)` replaces the best cell only on a strictly greater
      score. */
  lemma BestStep(pr: Problem, best: Cell, i: int, j: int)
    requires Scorable(pr) && 1 <= i <= |pr.s1| && 1 <= j <= |pr.s2|
    requires BestOf(pr, best, i, j)
    ensures BestOf(pr, if V(pr, i, j) > best.score then Cell(i, j, V(pr, i, j)) else best, i, j + 1)
  {
    var v := V(pr, i, j);
    var nb := if v > best.score then Cell(i, j, v) else best;
    forall r, c | InRange(pr, r, c) && Before(r, c, i, j + 1)
      ensures V(pr, r, c) <= nb.score
    {
      if r != i || c != j {
        assert Before(r, c, i, j);
      }
    }
    if v > best.score {
      assert Before(0, 0, i, j);
      forall r, c | InRange(pr, r, c) && Before(r, c, i, j)
        ensures V(pr, r, c) < v
      {
        assert V(pr, r, c) <= best.score;
      }
    }
  }

  /** The end of a row: the next row's column 0 scores 0. */
  lemma BestNextRow(pr: Problem, best: Cell, i: int)
    requires Scorable(pr) && 1 <= i <= |pr.s1|
    requires BestOf(pr, best, i, |pr.s2| + 1)
    ensures BestOf(pr, best, i + 1, 1)
  {
    forall r, c | InRange(pr, r, c) && Before(r, c, i + 1, 1)
      ensures V(pr, r, c) <= best.score
    {
      if r == i + 1 {
        assert c == 0;
      } else {
        assert Before(r, c, i, |pr.s2| + 1);
      }
    }
  }

  /** The direction `construct` picks for score `x`, with `f` the diagonal term
      and `gj` the vertical gap term. */
  function Pick(x: real, f: real, gj: real): Direction {
    if x == 0.0 then Stop
    else if x == f then Diagonal
    else if x == gj then Up
    else Left
  }

  /** The vertical gap update of cell `(i, j)`: `g[j]` and `v[j]` still hold
      row `i - 1`. */
  lemma VerticalStep(pr: Problem, i: int, j: int, gj: Ext, vj: real)
    requires Scorable(pr) && 1 <= i <= |pr.s1| && 1 <= j <= |pr.s2|
    requires gj == GExt(pr, i - 1, j) && vj == V(pr, i - 1, j)
    ensures Exceeds(gj, pr.sc.extend, vj - pr.sc.open) <==> ExtendsVertical(pr, i, j)
    ensures G(pr, i, j) ==
      if Exceeds(gj, pr.sc.extend, vj - pr.sc.open) then gj.value - pr.sc.extend else vj - pr.sc.open
  {
  }

  /** The horizontal gap update of cell `(i, j)`: `h` and `v[j - 1]` already
      hold row `i`. */
  lemma HorizontalStep(pr: Problem, i: int, j: int, h: Ext, vLeft: real)
    requires Scorable(pr) && 1 <= i <= |pr.s1| && 1 <= j <= |pr.s2|
    requires h == HExt(pr, i, j - 1) && vLeft == V(pr, i, j - 1)
    ensures Exceeds(h, pr.sc.extend, vLeft - pr.sc.open) <==> ExtendsHorizontal(pr, i, j)
    ensures H(pr, i, j) ==
      if Exceeds(h, pr.sc.extend, vLeft - pr.sc.open) then h.value - pr.sc.extend else vLeft - pr.sc.open
  {
  }

  /** The score and direction of cell `(i, j)` from the diagonal term and the
      two gap scores. */
  lemma ScoreStep(pr: Problem, i: int, j: int, vDiag: real)
    requires Scorable(pr) && 1 <= i <= |pr.s1| && 1 <= j <= |pr.s2|
    requires vDiag == V(pr, i - 1, j - 1)
    ensures V(pr, i, j) == Maximum(vDiag + Sim(pr, i, j), G(pr, i, j), H(pr, i, j), 0.0)
    ensures Dir(pr, i, j) == Pick(V(pr, i, j), vDiag + Sim(pr, i, j), G(pr, i, j))
  {
    assert Diag(pr, i, j) == vDiag + Sim(pr, i, j);
    MaximumIsMax4(Diag(pr, i, j), G(pr, i, j), H(pr, i, j), 0.0);
  }

  /** The nested comparisons of `maximum` compute the largest of the four. */
  lemma MaximumIsMax4(a: real, b: real, c: real, d: real)
    ensures Maximum(a, b, c, d) == Max4(a, b, c, d)
  {
  }

  // The state of row `i` of `construct` after its columns `1..j - 1`: the
  // columns already visited hold row `i`, the others still hold row `i - 1` or
  // the initial values `align` wrote.

  ghost predicate VRow(pr: Problem, i: int, j: int, v: seq<real>)
    requires Scorable(pr) && 1 <= i <= |pr.s1|
  {
    |v| == |pr.s2| + 1 && forall c :: 0 <= c < |v| ==> v[c] == V(pr, if c < j then i else i - 1, c)
  }

  ghost predicate GRow(pr: Problem, i: int, j: int, g: seq<Ext>)
    requires Scorable(pr) && 1 <= i <= |pr.s1|
  {
    |g| == |pr.s2| + 1 && forall c :: 1 <= c < |g| ==> g[c] == GExt(pr, if c < j then i else i - 1, c)
  }

  ghost predicate DirRow(pr: Problem, i: int, j: int, d: seq<Direction>)
    requires Scorable(pr) && 1 <= i <= |pr.s1|
  {
    |d| == |pr.s2| + 1 && forall c :: 0 <= c < |d| ==> d[c] == if c < j then Dir(pr, i, c) else Stop
  }

  ghost predicate VGapRow(pr: Problem, i: int, j: int, r: seq<int>)
    requires Scorable(pr) && 1 <= i <= |pr.s1|
  {
    |r| == |pr.s2| + 1 && forall c :: 0 <= c < |r| ==> r[c] == if c < j then VGap(pr, i, c) else 1
  }

  ghost predicate HGapRow(pr: Problem, i: int, j: int, r: seq<int>)
    requires Scorable(pr) && 1 <= i <= |pr.s1|
  {
    |r| == |pr.s2| + 1 && forall c :: 0 <= c < |r| ==> r[c] == if c < j then HGap(pr, i, c) else 1
  }

  lemma VRowStep(pr: Problem, i: int, j: int, v: seq<real>)
    requires Scorable(pr) && 1 <= i <= |pr.s1| && 1 <= j <= |pr.s2|
    requires VRow(pr, i, j, v)
    ensures VRow(pr, i, j + 1, v[j := V(pr, i, j)])
  {
  }

  lemma GRowStep(pr: Problem, i: int, j: int, g: seq<Ext>)
    requires Scorable(pr) && 1 <= i <= |pr.s1| && 1 <= j <= |pr.s2|
    requires GRow(pr, i, j, g)
    ensures GRow(pr, i, j + 1, g[j := Fin(G(pr, i, j))])
  {
  }

  lemma DirRowStep(pr: Problem, i: int, j: int, d: seq<Direction>)
    requires Scorable(pr) && 1 <= i <= |pr.s1| && 1 <= j <= |pr.s2|
    requires DirRow(pr, i, j, d)
    ensures DirRow(pr, i, j + 1, d[j := Dir(pr, i, j)])
  {
  }

  lemma VGapRowStep(pr: Problem, i: int, j: int, r: seq<int>, above: int)
    requires Scorable(pr) && 1 <= i <= |pr.s1| && 1 <= j <= |pr.s2|
    requires VGapRow(pr, i, j, r) && above == VGap(pr, i - 1, j)
    ensures ExtendsVertical(pr, i, j) ==> VGapRow(pr, i, j + 1, r[j := above + 1])
    ensures !ExtendsVertical(pr, i, j) ==> VGapRow(pr, i, j + 1, r)
  {
  }

  lemma HGapRowStep(pr: Problem, i: int, j: int, r: seq<int>)
    requires Scorable(pr) && 1 <= i <= |pr.s1| && 1 <= j <= |pr.s2|
    requires HGapRow(pr, i, j, r)
    ensures ExtendsHorizontal(pr, i, j) ==> HGapRow(pr, i, j + 1, r[j := r[j - 1] + 1])
    ensures !ExtendsHorizontal(pr, i, j) ==> HGapRow(pr, i, j + 1, r)
  {
  }

  /** The rolling state of the inner loop of `construct`. */
  datatype RowState = RowState(
    v: seq<real>, g: seq<Ext>, h: Ext, vDiagonal: real,
    drow: seq<Direction>, vrow: seq<int>, hrow: seq<int>, best: Cell)

  /** The state of row `i` before column `j` is visited. */
  ghost predicate RowAt(pr: Problem, i: int, j: int, st: RowState)
    requires Scorable(pr) && 1 <= i <= |pr.s1| && 1 <= j <= |pr.s2| + 1
  {
    VRow(pr, i, j, st.v) && GRow(pr, i, j, st.g) &&
    st.h == HExt(pr, i, j - 1) && st.vDiagonal == V(pr, i - 1, j - 1) &&
    DirRow(pr, i, j, st.drow) && VGapRow(pr, i, j, st.vrow) && HGapRow(pr, i, j, st.hrow) &&
    BestOf(pr, st.best, i, j)
  }

  /** The vertical gap of cell `(i, j)`: `g[j]` is extended only when that is
      strictly better than opening a gap under `v[j]`, and only then does the
      run counter grow. */
  method VerticalCell(pr: Problem, i: int, j: int, g0: seq<Ext>, vj: real, vrow0: seq<int>, above: int)
    returns (g: seq<Ext>, vrow: seq<int>)
    requires Scorable(pr) && 1 <= i <= |pr.s1| && 1 <= j <= |pr.s2|
    requires GRow(pr, i, j, g0) && vj == V(pr, i - 1, j)
    requires VGapRow(pr, i, j, vrow0) && above == VGap(pr, i - 1, j)
    ensures GRow(pr, i, j + 1, g) && g[j] == Fin(G(pr, i, j))
    ensures VGapRow(pr, i, j + 1, vrow)
  {
    VerticalStep(pr, i, j, g0[j], vj);
    GRowStep(pr, i, j, g0);
    VGapRowStep(pr, i, j, vrow0, above);
    var g1, g2 := g0[j], vj - pr.sc.open;
    if Exceeds(g1, pr.sc.extend, g2) {
      g := g0[j := Fin(g1.value - pr.sc.extend)];
      vrow := vrow0[j := above + 1];
    } else {
      g := g0[j := Fin(g2)];
      vrow := vrow0;
    }
  }

  /** The horizontal gap of cell `(i, j)`, from `h` and `v[j - 1]` of row `i`. */
  method HorizontalCell(pr: Problem, i: int, j: int, h0: Ext, vLeft: real, hrow0: seq<int>)
    returns (h: Ext, hrow: seq<int>)
    requires Scorable(pr) && 1 <= i <= |pr.s1| && 1 <= j <= |pr.s2|
    requires h0 == HExt(pr, i, j - 1) && vLeft == V(pr, i, j - 1)
    requires HGapRow(pr, i, j, hrow0)
    ensures h == Fin(H(pr, i, j))
    ensures HGapRow(pr, i, j + 1, hrow)
  {
    HorizontalStep(pr, i, j, h0, vLeft);
    HGapRowStep(pr, i, j, hrow0);
    var h1, h2 := h0, vLeft - pr.sc.open;
    if Exceeds(h1, pr.sc.extend, h2) {
      h := Fin(h1.value - pr.sc.extend);
      hrow := hrow0[j := hrow0[j - 1] + 1];
    } else {
      h := Fin(h2);
      hrow := hrow0;
    }
  }

  /** One pass of the inner loop of `construct`: the similarity of the two
      residues, the two gap updates, the cell's score, its direction and the
      best cell. */
  method FillCell(pr: Problem, i: int, j: int, st: RowState, above: int) returns (r: RowState)
    requires Scorable(pr) && 1 <= i <= |pr.s1| && 1 <= j <= |pr.s2|
    requires RowAt(pr, i, j, st) && above == VGap(pr, i - 1, j)
    ensures RowAt(pr, i, j + 1, r)
  {
    assert st.v[j] == V(pr, i - 1, j) && st.v[j - 1] == V(pr, i, j - 1);
    var f := st.vDiagonal + Sim(pr, i, j);
    var g, vrow := VerticalCell(pr, i, j, st.g, st.v[j], st.vrow, above);
    var h, hrow := HorizontalCell(pr, i, j, st.h, st.v[j - 1], st.hrow);
    ScoreStep(pr, i, j, st.vDiagonal);
    VRowStep(pr, i, j, st.v);
    DirRowStep(pr, i, j, st.drow);
    BestStep(pr, st.best, i, j);
    var vDiagonal := st.v[j];
    var x := Maximum(f, g[j].value, h.value, 0.0);
    var v := st.v[j := x];
    var drow := st.drow[j := Pick(x, f, g[j].value)];
    var best := if x > st.best.score then Cell(i, j, x) else st.best;
    r := RowState(v, g, h, vDiagonal, drow, vrow, hrow, best);
  }

  /** The inner loop of `construct` for row `i`: `v` and `g` come in holding row
      `i - 1` and leave holding row `i`; the direction and gap-run rows start
      as `align` initialised them and leave holding row `i` of the tables. */
  method FillRow(pr: Problem, i: int, v0: seq<real>, g0: seq<Ext>,
                 drow0: seq<Direction>, vrow0: seq<int>, hrow0: seq<int>, vabove: seq<int>, best0: Cell)
    returns (v: seq<real>, g: seq<Ext>, drow: seq<Direction>, vrow: seq<int>, hrow: seq<int>, best: Cell)
    requires Scorable(pr) && 1 <= i <= |pr.s1|
    requires |v0| == |pr.s2| + 1 && forall c :: 0 <= c < |v0| ==> v0[c] == V(pr, i - 1, c)
    requires |g0| == |pr.s2| + 1 && forall c :: 1 <= c < |g0| ==> g0[c] == GExt(pr, i - 1, c)
    requires |drow0| == |pr.s2| + 1 && forall c :: 0 <= c < |drow0| ==> drow0[c] == Stop
    requires |vrow0| == |pr.s2| + 1 && forall c :: 0 <= c < |vrow0| ==> vrow0[c] == 1
    requires |hrow0| == |pr.s2| + 1 && forall c :: 0 <= c < |hrow0| ==> hrow0[c] == 1
    requires |vabove| == |pr.s2| + 1 && forall c :: 0 <= c < |vabove| ==> vabove[c] == VGap(pr, i - 1, c)
    requires BestOf(pr, best0, i, 1)
    ensures |v| == |pr.s2| + 1 && forall c :: 0 <= c < |v| ==> v[c] == V(pr, i, c)
    ensures |g| == |pr.s2| + 1 && forall c :: 1 <= c < |g| ==> g[c] == GExt(pr, i, c)
    ensures |drow| == |pr.s2| + 1 && forall c :: 0 <= c < |drow| ==> drow[c] == Dir(pr, i, c)
    ensures |vrow| == |pr.s2| + 1 && forall c :: 0 <= c < |vrow| ==> vrow[c] == VGap(pr, i, c)
    ensures |hrow| == |pr.s2| + 1 && forall c :: 0 <= c < |hrow| ==> hrow[c] == HGap(pr, i, c)
    ensures BestOf(pr, best, i, |pr.s2| + 1)
  {
    var n := |pr.s2| + 1;
    var st := RowState(v0, g0, NegInf, v0[0], drow0, vrow0, hrow0, best0);
    var j := 1;
    while j < n
      invariant 1 <= j <= n
      invariant RowAt(pr, i, j, st)
    {
      st := FillCell(pr, i, j, st, vabove[j]);
      j := j + 1;
    }
    v, g, drow, vrow, hrow, best := st.v, st.g, st.drow, st.vrow, st.hrow, st.best;
  }

  /** `construct`: fills the direction and gap-run tables that `align` set up
      (all STOP, all runs 1) row by row and returns the first cell of maximal
      score. */
  method Construct(pr: Problem, p0: Pointers) returns (p: Pointers, best: Cell)
    requires Scorable(pr)
    requires Shaped(p0.dirs, |pr.s1| + 1, |pr.s2| + 1) && Shaped(p0.vg, |pr.s1| + 1, |pr.s2| + 1) && Shaped(p0.hg, |pr.s1| + 1, |pr.s2| + 1)
    requires forall r, c :: 0 <= r <= |pr.s1| && 0 <= c <= |pr.s2| ==> p0.dirs[r][c] == Stop && p0.vg[r][c] == 1 && p0.hg[r][c] == 1
    ensures Shaped(p.dirs, |pr.s1| + 1, |pr.s2| + 1) && Shaped(p.vg, |pr.s1| + 1, |pr.s2| + 1) && Shaped(p.hg, |pr.s1| + 1, |pr.s2| + 1)
    ensures forall r, c :: InRange(pr, r, c) ==>
      p.dirs[r][c] == Dir(pr, r, c) && p.vg[r][c] == VGap(pr, r, c) && p.hg[r][c] == HGap(pr, r, c)
    ensures InRange(pr, best.row, best.col) && best.score == V(pr, best.row, best.col)
    ensures forall r, c :: InRange(pr, r, c) ==> V(pr, r, c) <= best.score
    ensures forall r, c :: InRange(pr, r, c) && Before(r, c, best.row, best.col) ==> V(pr, r, c) < best.score
    ensures best.score == 0.0 ==> best.row == 0 && best.col == 0
  {
    var m, n := |pr.s1| + 1, |pr.s2| + 1;
    var v: seq<real> := seq(n, _ => 0.0);
    var g: seq<Ext> := seq(n, _ => NegInf);
    p := p0;
    best := Cell(0, 0, 0.0);
    BestStart(pr);
    var i := 1;
    while i < m
      invariant 1 <= i <= m
      invariant |v| == n && forall c :: 0 <= c < n ==> v[c] == V(pr, i - 1, c)
      invariant |g| == n && forall c :: 1 <= c < n ==> g[c] == GExt(pr, i - 1, c)
      invariant TablesUpTo(pr, p, i)
      invariant BestOf(pr, best, i, 1)
    {
      var drow, vrow, hrow;
      v, g, drow, vrow, hrow, best := FillRow(pr, i, v, g, p.dirs[i], p.vg[i], p.hg[i], p.vg[i - 1], best);
      BestNextRow(pr, best, i);
      TablesStep(pr, p, i, drow, vrow, hrow);
      p := Pointers(p.dirs[i := drow], p.vg[i := vrow], p.hg[i := hrow]);
      i := i + 1;
    }
  }

  /** The tables after `construct` has filled rows `1..i - 1`: those rows (and
      row 0) hold the recurrence, the others what `align` wrote. */
  ghost predicate TablesUpTo(pr: Problem, p: Pointers, i: int)
    requires Scorable(pr)
  {
    Shaped(p.dirs, |pr.s1| + 1, |pr.s2| + 1) && Shaped(p.vg, |pr.s1| + 1, |pr.s2| + 1) && Shaped(p.hg, |pr.s1| + 1, |pr.s2| + 1) &&
    forall r, c :: InRange(pr, r, c) ==>
      p.dirs[r][c] == (if r < i then Dir(pr, r, c) else Stop) &&
      p.vg[r][c] == (if r < i then VGap(pr, r, c) else 1) &&
      p.hg[r][c] == (if r < i then HGap(pr, r, c) else 1)
  }

  lemma TablesStep(pr: Problem, p: Pointers, i: int, drow: seq<Direction>, vrow: seq<int>, hrow: seq<int>)
    requires Scorable(pr) && 1 <= i <= |pr.s1|
    requires TablesUpTo(pr, p, i)
    requires |drow| == |pr.s2| + 1 && forall c :: 0 <= c < |drow| ==> drow[c] == Dir(pr, i, c)
    requires |vrow| == |pr.s2| + 1 && forall c :: 0 <= c < |vrow| ==> vrow[c] == VGap(pr, i, c)
    requires |hrow| == |pr.s2| + 1 && forall c :: 0 <= c < |hrow| ==> hrow[c] == HGap(pr, i, c)
    ensures TablesUpTo(pr, Pointers(p.dirs[i := drow], p.vg[i := vrow], p.hg[i := hrow]), i + 1)
  {
  }

  /** The tables `construct` fills keep every traceback move inside them. */
  lemma RecurrencePointersValid(pr: Problem, p: Pointers)
    requires Scorable(pr)
    requires Shaped(p.dirs, |pr.s1| + 1, |pr.s2| + 1) && Shaped(p.vg, |pr.s1| + 1, |pr.s2| + 1) && Shaped(p.hg, |pr.s1| + 1, |pr.s2| + 1)
    requires forall r, c :: InRange(pr, r, c) ==>
      p.dirs[r][c] == Dir(pr, r, c) && p.vg[r][c] == VGap(pr, r, c) && p.hg[r][c] == HGap(pr, r, c)
    ensures ValidPointers(p, |pr.s1| + 1, |pr.s2| + 1)
  {
    forall r, c | InRange(pr, r, c)
      ensures 1 <= VGap(pr, r, c) && (r >= 1 ==> VGap(pr, r, c) <= r)
      ensures 1 <= HGap(pr, r, c) && (c >= 1 ==> HGap(pr, r, c) <= c)
    {
      VGapBound(pr, r, c);
      HGapBound(pr, r, c);
    }
  }

  // ---------------------------------------------------------------------------
  // traceback

  /** The traceback's output buffers: the five lines written back to front and
      the three counters. */
  datatype Buffers = Buffers(
    rev1: seq<char>, rev2: seq<char>, rev3: seq<char>,
    revc1: seq<CodeUnit>, revc2: seq<CodeUnit>, counts: Counts)

  /** The buffers hold the columns `done` written back to front, with their
      counters. */
  ghost predicate Holds(b: Buffers, done: seq<Column>, t: Table) {
    var l := Render(done, t);
    b.rev1 == Rev(l.seq1) && b.rev2 == Rev(l.seq2) && b.rev3 == Rev(l.markup) &&
    b.revc1 == Rev(l.coils1) && b.revc2 == Rev(l.coils2) && b.counts == CountsOf(done, t)
  }

  /** Writes one column at the end of the buffers: a character on each of the
      five lines and one more on the counter the column's markup names. */
  function Push(b: Buffers, c: Column, t: Table): Buffers {
    var m := Mark(c, t);
    Buffers(
      b.rev1 + [Line1Char(c)], b.rev2 + [Line2Char(c)], b.rev3 + [m],
      b.revc1 + [Coil1Char(c)], b.revc2 + [Coil2Char(c)],
      Counts(
        b.counts.identity + (if m == MarkIdentity then 1 else 0),
        b.counts.similarity + (if m == MarkIdentity || m == MarkSimilarity then 1 else 0),
        b.counts.gaps + (if m == MarkGap then 1 else 0)))
  }

  /** The buffers after writing the columns `done` from last to first. */
  function Written(done: seq<Column>, t: Table): Buffers {
    if done == [] then Buffers([], [], [], [], [], Counts(0, 0, 0))
    else Push(Written(done[1..], t), done[0], t)
  }

  lemma WrittenCons(c: Column, done: seq<Column>, t: Table)
    ensures Written([c] + done, t) == Push(Written(done, t), c, t)
  {
    assert ([c] + done)[1..] == done;
  }

  /** Writing a column at the end of the buffers puts it in front of the
      columns they hold. */
  lemma PushHolds(b: Buffers, done: seq<Column>, c: Column, t: Table)
    requires Holds(b, done, t)
    ensures Holds(Push(b, c, t), [c] + done, t)
  {
    var l, l2 := Render(done, t), Render([c] + done, t);
    assert l2.seq1 == [Line1Char(c)] + l.seq1;
    assert l2.seq2 == [Line2Char(c)] + l.seq2;
    assert l2.markup == [Mark(c, t)] + l.markup;
    assert l2.coils1 == [Coil1Char(c)] + l.coils1;
    assert l2.coils2 == [Coil2Char(c)] + l.coils2;
    RevCons(Line1Char(c), l.seq1);
    RevCons(Line2Char(c), l.seq2);
    RevCons(Mark(c, t), l.markup);
    RevCons(Coil1Char(c), l.coils1);
    RevCons(Coil2Char(c), l.coils2);
    assert ([c] + done)[1..] == done;
  }

  /** Writing columns from last to first leaves every line reversed and the
      counters counting. */
  lemma {:induction false} WrittenHolds(done: seq<Column>, t: Table)
    ensures Holds(Written(done, t), done, t)
  {
    if done != [] {
      WrittenHolds(done[1..], t);
      PushHolds(Written(done[1..], t), done[1..], done[0], t);
      assert [done[0]] + done[1..] == done;
    }
  }

  /** One diagonal move of the traceback: the pair before `(i0, j0)` is written. */
  method DiagonalMove(s1: seq<Residue>, s2: seq<Residue>, t: Table, b0: Buffers, ghost done: seq<Column>, i0: int, j0: int)
    returns (b: Buffers, i: int, j: int)
    requires 1 <= i0 <= |s1| && 1 <= j0 <= |s2|
    requires b0 == Written(done, t)
    ensures i == i0 - 1 && j == j0 - 1
    ensures b == Written([Aligned(s1[i], s2[j])] + done, t)
  {
    i, j := i0 - 1, j0 - 1;
    WrittenCons(Aligned(s1[i], s2[j]), done, t);
    b := Push(b0, Aligned(s1[i], s2[j]), t);
  }

  /** The UP case of `traceback`: `len` residues of the first sequence, from
      `s1[i - 1]` backwards, each against a gap. */
  method UpMoves(s1: seq<Residue>, t: Table, b0: Buffers, ghost done: seq<Column>, i0: int, len: int)
    returns (b: Buffers, i: int)
    requires 1 <= len <= i0 <= |s1|
    requires b0 == Written(done, t)
    ensures i == i0 - len
    ensures b == Written(UpRun(s1[i..i0]) + done, t)
  {
    b, i := b0, i0;
    var l := 0;
    assert UpRun(s1[i..i0]) + done == done;
    while l < len
      invariant 0 <= l <= len && i == i0 - l
      invariant b == Written(UpRun(s1[i..i0]) + done, t)
    {
      i := i - 1;
      UpRunCons(s1[..i0], i, done);
      assert s1[..i0][i..] == s1[i..i0] && s1[..i0][i + 1..] == s1[i + 1..i0];
      WrittenCons(OnlyFirst(s1[i]), UpRun(s1[i + 1..i0]) + done, t);
      b := Push(b, OnlyFirst(s1[i]), t);
      l := l + 1;
    }
  }

  /** The LEFT case of `traceback`: `len` residues of the second sequence, from
      `s2[j - 1]` backwards, each against a gap. */
  method LeftMoves(s2: seq<Residue>, t: Table, b0: Buffers, ghost done: seq<Column>, j0: int, len: int)
    returns (b: Buffers, j: int)
    requires 1 <= len <= j0 <= |s2|
    requires b0 == Written(done, t)
    ensures j == j0 - len
    ensures b == Written(LeftRun(s2[j..j0]) + done, t)
  {
    b, j := b0, j0;
    var l := 0;
    assert LeftRun(s2[j..j0]) + done == done;
    while l < len
      invariant 0 <= l <= len && j == j0 - l
      invariant b == Written(LeftRun(s2[j..j0]) + done, t)
    {
      j := j - 1;
      LeftRunCons(s2[..j0], j, done);
      assert s2[..j0][j..] == s2[j..j0] && s2[..j0][j + 1..] == s2[j + 1..j0];
      WrittenCons(OnlySecond(s2[j]), LeftRun(s2[j + 1..j0]) + done, t);
      b := Push(b, OnlySecond(s2[j]), t);
      l := l + 1;
    }
  }

  /** `Alignment`, with the fields this model fills; the names, the matrix and
      the penalties are set by `align` after the traceback. */
  datatype Alignment = Alignment(
    name1: string, name2: string, matrix: Option<Matrix>, open: real, extend: real,
    score: real, lines: Lines, start1: int, start2: int, counts: Counts)

  /** The loop of `traceback`: follows the pointers from `cell` until a STOP
      cell, writing every column into the buffers as it is passed. */
  method Follow(s1: seq<Residue>, s2: seq<Residue>, t: Table, p: Pointers, cell: Cell) returns (b: Buffers, i: int, j: int)
    requires ValidPointers(p, |s1| + 1, |s2| + 1)
    requires 0 <= cell.row <= |s1| && 0 <= cell.col <= |s2|
    ensures var path := Trace(s1, s2, p, cell.row, cell.col);
      b == Written(path.columns, t) && i == path.start1 && j == path.start2
  {
    i, j := cell.row, cell.col;
    ghost var done: seq<Column> := [];
    b := Buffers([], [], [], [], [], Counts(0, 0, 0));
    var stillGoing := true;
    while stillGoing
      invariant 0 <= i <= |s1| && 0 <= j <= |s2|
      invariant b == Written(done, t)
      invariant Continues(s1, s2, p, cell, i, j, done)
      invariant !stillGoing ==> p.dirs[i][j] == Stop
      decreases i + j + (if stillGoing then 1 else 0)
    {
      var i0, j0 := i, j;
      ghost var done0 := done;
      ContinuesStep(s1, s2, p, cell, i0, j0, done0);
      match p.dirs[i][j]
      case Up =>
        b, i := UpMoves(s1, t, b, done, i, p.vg[i][j]);
        done := UpRun(s1[i..i0]) + done;
      case Diagonal =>
        b, i, j := DiagonalMove(s1, s2, t, b, done, i, j);
        done := [Aligned(s1[i], s2[j])] + done;
      case Left =>
        b, j := LeftMoves(s2, t, b, done, j, p.hg[i][j]);
        done := LeftRun(s2[j..j0]) + done;
      case Stop =>
        stillGoing := false;
    }
    ContinuesStop(s1, s2, p, cell, i, j, done);
  }

  /** `traceback`: follows the pointers from `cell`, writing the columns into
      reversed buffers, then reverses them. The result is the rendering of the
      path the traceback function follows from the same cell, and it is never
      longer than the two sequences together. */
  method Traceback(s1: seq<Residue>, s2: seq<Residue>, t: Table, p: Pointers, cell: Cell) returns (al: Alignment)
    requires ValidPointers(p, |s1| + 1, |s2| + 1)
    requires 0 <= cell.row <= |s1| && 0 <= cell.col <= |s2|
    ensures var path := Trace(s1, s2, p, cell.row, cell.col);
      al.lines == Render(path.columns, t) && al.counts == CountsOf(path.columns, t) &&
      al.start1 == path.start1 && al.start2 == path.start2 && al.score == cell.score
    ensures |al.lines.markup| <= |s1| + |s2|
  {
    var b, i, j := Follow(s1, s2, t, p, cell);
    ghost var done := Trace(s1, s2, p, cell.row, cell.col).columns;
    ghost var lines := Render(done, t);
    WrittenHolds(done, t);
    RevRev(lines.seq1);
    RevRev(lines.seq2);
    RevRev(lines.markup);
    RevRev(lines.coils1);
    RevRev(lines.coils2);
    var seq1 := Reverse(b.rev1, |b.rev1|);
    var coils1 := Reverse(b.revc1, |b.revc1|);
    var seq2 := Reverse(b.rev2, |b.rev2|);
    var coils2 := Reverse(b.revc2, |b.revc2|);
    var markup := Reverse(b.rev3, |b.rev3|);
    assert seq1 == Rev(b.rev1) && seq2 == Rev(b.rev2) && markup == Rev(b.rev3);
    assert coils1 == Rev(b.revc1) && coils2 == Rev(b.revc2);
    TraceFits(s1, s2, p, cell.row, cell.col);
    al := Alignment([], [], None, 0.0, 0.0, cell.score, Lines(seq1, seq2, coils1, coils2, markup), i, j, b.counts);
  }

  /** The traceback from `cell` is the one from `(i, j)` followed by `done`. */
  ghost predicate Continues(s1: seq<Residue>, s2: seq<Residue>, p: Pointers, cell: Cell, i: int, j: int, done: seq<Column>)
    requires ValidPointers(p, |s1| + 1, |s2| + 1)
    requires 0 <= cell.row <= |s1| && 0 <= cell.col <= |s2|
    requires 0 <= i <= |s1| && 0 <= j <= |s2|
  {
    var whole, rest := Trace(s1, s2, p, cell.row, cell.col), Trace(s1, s2, p, i, j);
    whole.columns == rest.columns + done && whole.start1 == rest.start1 && whole.start2 == rest.start2
  }

  /** One move of the traceback keeps `Continues`. */
  lemma ContinuesStep(s1: seq<Residue>, s2: seq<Residue>, p: Pointers, cell: Cell, i: int, j: int, done: seq<Column>)
    requires ValidPointers(p, |s1| + 1, |s2| + 1)
    requires 0 <= cell.row <= |s1| && 0 <= cell.col <= |s2|
    requires 0 <= i <= |s1| && 0 <= j <= |s2|
    requires Continues(s1, s2, p, cell, i, j, done)
    ensures p.dirs[i][j] == Diagonal ==>
      Continues(s1, s2, p, cell, i - 1, j - 1, [Aligned(s1[i - 1], s2[j - 1])] + done)
    ensures p.dirs[i][j] == Up ==>
      Continues(s1, s2, p, cell, i - p.vg[i][j], j, UpRun(s1[i - p.vg[i][j]..i]) + done)
    ensures p.dirs[i][j] == Left ==>
      Continues(s1, s2, p, cell, i, j - p.hg[i][j], LeftRun(s2[j - p.hg[i][j]..j]) + done)
  {
  }

  /** At a STOP cell nothing is left to follow: the columns written so far are
      the whole traceback. */
  lemma ContinuesStop(s1: seq<Residue>, s2: seq<Residue>, p: Pointers, cell: Cell, i: int, j: int, done: seq<Column>)
    requires ValidPointers(p, |s1| + 1, |s2| + 1)
    requires 0 <= cell.row <= |s1| && 0 <= cell.col <= |s2|
    requires 0 <= i <= |s1| && 0 <= j <= |s2|
    requires Continues(s1, s2, p, cell, i, j, done) && p.dirs[i][j] == Stop
    ensures var path := Trace(s1, s2, p, cell.row, cell.col);
      path.columns == done && path.start1 == i && path.start2 == j
  {
    assert Trace(s1, s2, p, i, j) == Path([], i, j);
    assert [] + done == done;
  }

  /** An alignment has at most as many columns as the two sequences have
      residues, so the source's buffers of that length never overflow. */
  lemma TraceFits(s1: seq<Residue>, s2: seq<Residue>, p: Pointers, i: int, j: int)
    requires ValidPointers(p, |s1| + 1, |s2| + 1)
    requires 0 <= i <= |s1| && 0 <= j <= |s2|
    ensures |Trace(s1, s2, p, i, j).columns| <= |s1| + |s2|
  {
    var t := Trace(s1, s2, p, i, j);
    TraceCovers(s1, s2, p, i, j);
    var z: Table := seq(Size, _ => seq(Size, _ => 0.0));
    CountsPartition(t.columns, z);
  }

  // ---------------------------------------------------------------------------
  // align

  /** Why `align` ends without an alignment: a table fails its self-check while
      Java assertions are enabled (`AssertionError`), or a residue pair asks
      for a coil table that does not exist (`ArrayIndexOutOfBoundsException`
      inside `construct`). */
  datatype AlignError = CheckFailed | NoSuchRegister

  /** The score tables of the coil matrices, in order. */
  function Tables(ms: seq<Matrix>): seq<Table> {
    seq(|ms|, k requires 0 <= k < |ms| => ms[k].scores)
  }

  ghost predicate AllPass(ms: seq<Matrix>) {
    forall k :: 0 <= k < |ms| ==> WellFormed(ms[k])
  }

  /** The alignment problem `align` hands to `construct`. */
  function ProblemOf(seq1: Sequence, seq2: Sequence, matrices: Option<seq<Matrix>>, blosum: Matrix,
                     o: real, e: real, cMatch: real, cMismatch: real): Problem {
    Problem(seq1.residues, seq2.residues,
      Scoring(blosum.scores, if matrices.None? then None else Some(Tables(matrices.value)), o, e, cMatch, cMismatch))
  }

  /** The loop of `align` that collects `getScores()` of every coil matrix; the
      first matrix that fails its self-check under assertions ends it. */
  method CoilScores(ms: seq<Matrix>, assertionsEnabled: bool) returns (r: Option<seq<Table>>)
    ensures r.Some? <==> !assertionsEnabled || AllPass(ms)
    ensures r.Some? ==> r.value == Tables(ms)
  {
    var tables: seq<Table> := [];
    var i := 0;
    while i < |ms|
      invariant 0 <= i <= |ms|
      invariant Collected(ms, i, tables, assertionsEnabled)
    {
      var t := GetScores(ms[i], assertionsEnabled);
      if t.None? {
        return None;
      }
      CollectStep(ms, i, tables, assertionsEnabled);
      tables := tables + [ms[i].scores];
      i := i + 1;
    }
    CollectDone(ms, tables, assertionsEnabled);
    return Some(tables);
  }

  /** The loop of `CoilScores` has the tables of the first `i` matrices, all of
      which passed their self-check if assertions are enabled. */
  ghost predicate Collected(ms: seq<Matrix>, i: int, tables: seq<Table>, assertionsEnabled: bool)
    requires 0 <= i <= |ms|
  {
    |tables| == i && (forall k :: 0 <= k < i ==> tables[k] == ms[k].scores) &&
    (assertionsEnabled ==> forall k :: 0 <= k < i ==> WellFormed(ms[k]))
  }

  lemma CollectStep(ms: seq<Matrix>, i: int, tables: seq<Table>, assertionsEnabled: bool)
    requires 0 <= i < |ms| && Collected(ms, i, tables, assertionsEnabled)
    requires assertionsEnabled ==> WellFormed(ms[i])
    ensures Collected(ms, i + 1, tables + [ms[i].scores], assertionsEnabled)
  {
  }

  lemma CollectDone(ms: seq<Matrix>, tables: seq<Table>, assertionsEnabled: bool)
    requires Collected(ms, |ms|, tables, assertionsEnabled)
    ensures tables == Tables(ms)
    ensures assertionsEnabled ==> AllPass(ms)
  {
  }

  /** The tables `construct` fills for a problem, as the recurrence defines them. */
  ghost function RecurrencePointers(pr: Problem): (p: Pointers)
    requires Scorable(pr)
    ensures ValidPointers(p, |pr.s1| + 1, |pr.s2| + 1)
    ensures forall r, c :: InRange(pr, r, c) ==>
      p.dirs[r][c] == Dir(pr, r, c) && p.vg[r][c] == VGap(pr, r, c) && p.hg[r][c] == HGap(pr, r, c)
  {
    var m, n := |pr.s1| + 1, |pr.s2| + 1;
    var p := Pointers(
      seq(m, r requires 0 <= r < m => seq(n, c requires 0 <= c < n => Dir(pr, r, c))),
      seq(m, r requires 0 <= r < m => seq(n, c requires 0 <= c < n => VGap(pr, r, c))),
      seq(m, r requires 0 <= r < m => seq(n, c requires 0 <= c < n => HGap(pr, r, c))));
    RecurrencePointersValid(pr, p);
    p
  }

  /** Two sets of tables of the same shape that agree on every cell are equal. */
  lemma SamePointers(pr: Problem, p: Pointers)
    requires Scorable(pr)
    requires Shaped(p.dirs, |pr.s1| + 1, |pr.s2| + 1) && Shaped(p.vg, |pr.s1| + 1, |pr.s2| + 1) && Shaped(p.hg, |pr.s1| + 1, |pr.s2| + 1)
    requires forall r, c :: InRange(pr, r, c) ==>
      p.dirs[r][c] == Dir(pr, r, c) && p.vg[r][c] == VGap(pr, r, c) && p.hg[r][c] == HGap(pr, r, c)
    ensures p == RecurrencePointers(pr)
  {
    var q := RecurrencePointers(pr);
    forall r | 0 <= r <= |pr.s1|
      ensures p.dirs[r] == q.dirs[r] && p.vg[r] == q.vg[r] && p.hg[r] == q.hg[r]
    {
      assert forall c :: 0 <= c <= |pr.s2| ==> InRange(pr, r, c);
    }
  }

  /** The traceback from the best cell is empty exactly when the best score is
      0: a positive best cell never stops, and a zero best is cell `(0, 0)`. */
  lemma EmptyIffZero(pr: Problem, best: Cell)
    requires Scorable(pr) && InRange(pr, best.row, best.col) && best.score == V(pr, best.row, best.col)
    requires best.score == 0.0 ==> best.row == 0 && best.col == 0
    ensures var p := RecurrencePointers(pr);
      Trace(pr.s1, pr.s2, p, best.row, best.col).columns == [] <==> best.score == 0.0
  {
    var p := RecurrencePointers(pr);
    TraceCovers(pr.s1, pr.s2, p, best.row, best.col);
    StopIffZero(pr, best.row, best.col);
  }

  /** `align`: the self-checked score tables, the initial tables of STOP
      directions and runs of 1, `construct`, `traceback` from the best cell,
      and the names, matrix and gap penalties copied into the result. On
      success the score is the largest local score and the lines render the
      traceback from the first cell that attains it. */
  method Align(seq1: Sequence, seq2: Sequence, matrices: Option<seq<Matrix>>, blosum: Matrix,
               o: real, e: real, cMatch: real, cMismatch: real, assertionsEnabled: bool)
    returns (r: Result<Alignment, AlignError>, ghost best: Cell)
    ensures r == Failure(CheckFailed) <==>
      assertionsEnabled && (!WellFormed(blosum) || (matrices.Some? && !AllPass(matrices.value)))
    ensures r == Failure(NoSuchRegister) <==>
      !(assertionsEnabled && (!WellFormed(blosum) || (matrices.Some? && !AllPass(matrices.value)))) &&
      !Scorable(ProblemOf(seq1, seq2, matrices, blosum, o, e, cMatch, cMismatch))
    ensures r.Success? ==>
      r.value.name1 == seq1.name && r.value.name2 == seq2.name &&
      r.value.matrix == Some(blosum) && r.value.open == o && r.value.extend == e
    ensures r.Success? ==>
      var pr := ProblemOf(seq1, seq2, matrices, blosum, o, e, cMatch, cMismatch);
      Scorable(pr) && InRange(pr, best.row, best.col) &&
      r.value.score == best.score == V(pr, best.row, best.col) &&
      (forall i, j :: InRange(pr, i, j) ==> V(pr, i, j) <= r.value.score) &&
      (forall i, j :: InRange(pr, i, j) && Before(i, j, best.row, best.col) ==> V(pr, i, j) < r.value.score)
    ensures r.Success? ==>
      var pr := ProblemOf(seq1, seq2, matrices, blosum, o, e, cMatch, cMismatch);
      Scorable(pr) && InRange(pr, best.row, best.col) &&
      var path := Trace(pr.s1, pr.s2, RecurrencePointers(pr), best.row, best.col);
      r.value.lines == Render(path.columns, blosum.scores) && r.value.counts == CountsOf(path.columns, blosum.scores) &&
      r.value.start1 == path.start1 && r.value.start2 == path.start2
    ensures r.Success? ==> (r.value.score == 0.0 <==> r.value.lines.markup == [])
  {
    best := Cell(0, 0, 0.0);
    var blosumScores := GetScores(blosum, assertionsEnabled);
    if blosumScores.None? {
      return Failure(CheckFailed), best;
    }
    var coils: Option<seq<Table>> := None;
    if matrices.Some? {
      coils := CoilScores(matrices.value, assertionsEnabled);
      if coils.None? {
        return Failure(CheckFailed), best;
      }
    }
    var pr := Problem(seq1.residues, seq2.residues, Scoring(blosumScores.value, coils, o, e, cMatch, cMismatch));
    assert pr == ProblemOf(seq1, seq2, matrices, blosum, o, e, cMatch, cMismatch);
    if !Scorable(pr) {
      return Failure(NoSuchRegister), best;
    }
    var al;
    al, best := AlignScorable(pr, blosum.scores);
    r := Success(al.(name1 := seq1.name, name2 := seq2.name, matrix := Some(blosum), open := o, extend := e));
  }

  /** The part of `align` after the self-checks: the tables set up (all STOP,
      all runs 1), `construct`, and `traceback` from the best cell with the
      similarity table `t`. */
  method AlignScorable(pr: Problem, t: Table) returns (al: Alignment, ghost best: Cell)
    requires Scorable(pr)
    ensures InRange(pr, best.row, best.col) && al.score == best.score == V(pr, best.row, best.col)
    ensures forall i, j :: InRange(pr, i, j) ==> V(pr, i, j) <= al.score
    ensures forall i, j :: InRange(pr, i, j) && Before(i, j, best.row, best.col) ==> V(pr, i, j) < al.score
    ensures var path := Trace(pr.s1, pr.s2, RecurrencePointers(pr), best.row, best.col);
      al.lines == Render(path.columns, t) && al.counts == CountsOf(path.columns, t) &&
      al.start1 == path.start1 && al.start2 == path.start2
    ensures al.score == 0.0 <==> al.lines.markup == []
  {
    var m, n := |pr.s1| + 1, |pr.s2| + 1;
    var p0 := Pointers(seq(m, _ => seq(n, _ => Stop)), seq(m, _ => seq(n, _ => 1)), seq(m, _ => seq(n, _ => 1)));
    var p, cell := Construct(pr, p0);
    SamePointers(pr, p);
    al := Traceback(pr.s1, pr.s2, t, p, cell);
    EmptyIffZero(pr, cell);
    best := cell;
  }
}

=== FILE: legacy_matrices.dfy ===
/** The older copy of the matrix class kept in `jaligner.matrix.Matrix`: a name and
    a table, with a self-check whose loop returns after its first row. Java
    assertions are a run-time switch, so the two members that contain `assert`
    statements take that switch as a parameter. */
module LegacyMatrices {
  import opened Wrappers
  import opened Matrices

  /** The constructor stores name and table as given; `getId()` is the `id` field. */
  datatype LegacyMatrix = LegacyMatrix(id: string, scores: Table)

  /** `getScore(a, b)`. */
  function LegacyGetScore(m: LegacyMatrix, a: Aa, b: Aa): real {
    m.scores[a as int][b as int]
  }

  /** `checkScores()`: the loop computes the maximum of the first standard row,
      asserts that it is positive, and returns false whatever it found. */
  function LegacyCheckScores(m: LegacyMatrix, assertionsEnabled: bool): (r: Outcome)
    ensures r != Returned(true)
    ensures r == AssertionFailed <==> assertionsEnabled && !HasPositive(m.scores, Standard[0])
  {
    var max := RowMax(m.scores, Standard[0], Standard);
    RowMaxPositive(m.scores, Standard[0]);
    if assertionsEnabled && !(max > 0.0) then AssertionFailed else Returned(false)
  }

  /** Every standard residue scores positively against some standard residue. */
  predicate AllRowsPositive(t: Table) {
    forall i :: 0 <= i < |Standard| ==> HasPositive(t, Standard[i])
  }

  /** Every row of `rows` from the `k`-th on has a positive score. */
  predicate PositiveFrom(t: Table, rows: seq<Aa>, k: nat)
    requires k <= |rows|
    decreases |rows| - k
  {
    k == |rows| || (HasPositive(t, rows[k]) && PositiveFrom(t, rows, k + 1))
  }

  lemma {:induction false} PositiveFromAll(t: Table, rows: seq<Aa>, k: nat)
    requires k <= |rows|
    ensures PositiveFrom(t, rows, k) <==> forall i :: k <= i < |rows| ==> HasPositive(t, rows[i])
    decreases |rows| - k
  {
    if k < |rows| {
      PositiveFromAll(t, rows, k + 1);
    }
  }

  /** The self-check as evidently intended, the loop of the newer matrix class:
      from the `k`-th standard residue on, the first row without a positive score
      fails the assertion (or returns false with assertions disabled), and only
      when every row passes does the check return true. */
  function LegacyCheckFrom(m: LegacyMatrix, k: nat, assertionsEnabled: bool): (r: Outcome)
    requires k <= |Standard|
    ensures r == Returned(true) <==> PositiveFrom(m.scores, Standard, k)
    ensures r == AssertionFailed <==> assertionsEnabled && !PositiveFrom(m.scores, Standard, k)
    decreases |Standard| - k
  {
    if k == |Standard| then Returned(true)
    else
      var max := RowMax(m.scores, Standard[k], Standard);
      RowMaxPositive(m.scores, Standard[k]);
      if !(max > 0.0) then
        if assertionsEnabled then AssertionFailed else Returned(false)
      else LegacyCheckFrom(m, k + 1, assertionsEnabled)
  }

  /** The corrected `checkScores()`: true exactly when every standard row has a
      positive score; otherwise the assertion fails, or with assertions disabled
      the answer is false. */
  function LegacyCheckScoresIntended(m: LegacyMatrix, assertionsEnabled: bool): (r: Outcome)
    ensures r == Returned(true) <==> AllRowsPositive(m.scores)
    ensures r == AssertionFailed <==> assertionsEnabled && !AllRowsPositive(m.scores)
  {
    PositiveFromAll(m.scores, Standard, 0);
    LegacyCheckFrom(m, 0, assertionsEnabled)
  }

  /** The corrected legacy check agrees with the self-check of the newer matrix
      class for every matrix not called "zeroes", with assertions on or off. */
  lemma LegacyIntendedAgrees(m: LegacyMatrix, assertionsEnabled: bool)
    requires m.id != ZeroesId
    ensures LegacyCheckScoresIntended(m, assertionsEnabled) == CheckScores(Matrix(m.id, m.scores), assertionsEnabled)
  {
  }

  /** A table of ones: every row has a positive score, yet the check as written
      answers false, where the corrected one answers true. */
  lemma LegacyCheckRejectsOnes()
    ensures var m := LegacyMatrix("ones", seq(Size, _ => seq(Size, _ => 1.0)));
      LegacyCheckScores(m, false) == Returned(false) && LegacyCheckScoresIntended(m, false) == Returned(true)
  {
    var m := LegacyMatrix("ones", seq(Size, _ => seq(Size, _ => 1.0)));
    forall i | 0 <= i < |Standard| ensures HasPositive(m.scores, Standard[i]) {
      assert m.scores[Standard[i] as int][Standard[0] as int] > 0.0;
    }
  }

  /** `getScores()`: guarded by `assert checkScores()`, which can never hold, so
      the table is only handed out when assertions are disabled. */
  function LegacyGetScores(m: LegacyMatrix, assertionsEnabled: bool): (r: Result<Table, Outcome>)
    ensures r.Success? <==> !assertionsEnabled
    ensures r.Success? ==> r.value == m.scores
  {
    if !assertionsEnabled then Success(m.scores)
    else
      match LegacyCheckScores(m, true)
      case Returned(true) => Success(m.scores)
      case other => Failure(other)
  }
}

=== FILE: matrices.dfy ===
/** The substitution tables of `ccaligner.matrix.Matrix`: a named 127 x 127 table
    indexed by the ASCII code of two residue letters, with the all-zero default,
    uniform scaling, rounding and the non-degeneracy self-check. */
module Matrices {
  import opened Wrappers
  import opened Numbers

  /** Tables cover the ASCII range so that a residue letter is its own index. */
  const Size: int := 127

  /** A character that can index a table. */
  type Aa = c: char | (c as int) < Size witness 'A'

  /** An index produced by the residue-code mapping of the matrix loader. */
  type Code = x: int | 0 <= x < Size

  predicate IsTable(t: seq<seq<real>>) {
    |t| == Size && forall i :: 0 <= i < |t| ==> |t[i]| == Size
  }

  type Table = t: seq<seq<real>> | IsTable(t) witness seq(Size, _ => seq(Size, _ => 0.0))

  datatype Matrix = Matrix(id: string, scores: Table)

  const ZeroesId: string := "zeroes"

  /** The twenty standard residues, in the order the self-check visits them. */
  const Standard: seq<Aa> := "ARNDCEQGHILKMFPSTWYV"

  function Cell(t: Table, a: Code, b: Code): real {
    t[a][b]
  }

  /** Scoring `a` against `b` is the same as scoring `b` against `a`. */
  predicate IsSymmetric(t: Table) {
    forall a: Code, b: Code :: Cell(t, a, b) == Cell(t, b, a)
  }

  /** `new Matrix()`: the all-zero negative-control matrix. */
  function Zeroes(): (m: Matrix)
    ensures m.id == ZeroesId
    ensures forall a: Code, b: Code :: Cell(m.scores, a, b) == 0.0
  {
    Matrix(ZeroesId, seq(Size, _ => seq(Size, _ => 0.0)))
  }

  /** `getScore(a, b)`. */
  function GetScore(m: Matrix, a: Aa, b: Aa): real {
    m.scores[a as int][b as int]
  }

  // ---------------------------------------------------------------------------
  // checkScores

  /** The running maximum of the self-check's inner loop: starts at 0 and is
      raised by every larger score in row `a` against `cs[..k]`. */
  function RowMax(t: Table, a: Aa, cs: seq<Aa>): (r: real)
    ensures r >= 0.0
    ensures forall k :: 0 <= k < |cs| ==> t[a as int][cs[k] as int] <= r
    ensures r == 0.0 || exists k :: 0 <= k < |cs| && r == t[a as int][cs[k] as int]
  {
    if cs == [] then 0.0
    else
      var m := RowMax(t, a, cs[..|cs| - 1]);
      var f := t[a as int][cs[|cs| - 1] as int];
      assert forall k :: 0 <= k < |cs| - 1 ==> cs[..|cs| - 1][k] == cs[k];
      if f > m then f else m
  }

  /** Row `a` has a positive score against some standard residue. */
  predicate HasPositive(t: Table, a: Aa) {
    exists k :: 0 <= k < |Standard| && t[a as int][Standard[k] as int] > 0.0
  }

  lemma RowMaxPositive(t: Table, a: Aa)
    ensures RowMax(t, a, Standard) > 0.0 <==> HasPositive(t, a)
  {
    if HasPositive(t, a) {
      var k :| 0 <= k < |Standard| && t[a as int][Standard[k] as int] > 0.0;
      assert t[a as int][Standard[k] as int] <= RowMax(t, a, Standard);
    }
  }

  /** The self-check's verdict on row `c`: a matrix called "zeroes" must have no
      positive score in it, any other matrix some positive score. */
  predicate RowPasses(m: Matrix, c: Aa) {
    HasPositive(m.scores, c) == (m.id != ZeroesId)
  }

  /** Every standard row from the `k`-th on passes the self-check. */
  predicate PassesFrom(m: Matrix, k: nat) {
    forall i :: k <= i < |Standard| ==> RowPasses(m, Standard[i])
  }

  /** What a call to a self-check does: return a value, or stop with an
      AssertionError when assertions are enabled and an assertion fails. */
  datatype Outcome = Returned(value: bool) | AssertionFailed

  /** The self-check from the `k`-th standard residue on. The first row that
      fails ends the check: its assertion fails when assertions are enabled,
      otherwise the check returns false. */
  function CheckFrom(m: Matrix, k: nat, assertionsEnabled: bool): (r: Outcome)
    requires k <= |Standard|
    ensures r == Returned(true) <==> PassesFrom(m, k)
    ensures r == AssertionFailed <==> assertionsEnabled && !PassesFrom(m, k)
    ensures r == Returned(false) <==> !assertionsEnabled && !PassesFrom(m, k)
    decreases |Standard| - k
  {
    if k == |Standard| then Returned(true)
    else
      var max := RowMax(m.scores, Standard[k], Standard);
      RowMaxPositive(m.scores, Standard[k]);
      var failed := if m.id == ZeroesId then max > 0.0 else max <= 0.0;
      if failed then
        if assertionsEnabled then AssertionFailed else Returned(false)
      else CheckFrom(m, k + 1, assertionsEnabled)
  }

  /** What the self-check demands: every standard residue scores positively
      against some standard residue, or, for the matrix called "zeroes", none
      does. */
  ghost predicate WellFormed(m: Matrix) {
    if m.id == ZeroesId then forall i :: 0 <= i < |Standard| ==> !HasPositive(m.scores, Standard[i])
    else forall i :: 0 <= i < |Standard| ==> HasPositive(m.scores, Standard[i])
  }

  /** `checkScores()`: true when the matrix is well formed. A matrix that is not
      fails an assertion when assertions are enabled, so false is only ever
      returned with assertions disabled. */
  function CheckScores(m: Matrix, assertionsEnabled: bool): (r: Outcome)
    ensures r == Returned(true) <==> WellFormed(m)
    ensures r == AssertionFailed <==> assertionsEnabled && !WellFormed(m)
    ensures r == Returned(false) <==> !assertionsEnabled && !WellFormed(m)
  {
    WellFormedPasses(m);
    CheckFrom(m, 0, assertionsEnabled)
  }

  lemma WellFormedPasses(m: Matrix)
    ensures WellFormed(m) <==> PassesFrom(m, 0)
  {
  }

  /** `getScores()`: guarded by `assert checkScores()`, which only runs with Java
      assertions enabled; a matrix that fails its self-check then raises
      AssertionError (None) instead of handing out its table. */
  function GetScores(m: Matrix, assertionsEnabled: bool): (r: Option<Table>)
    ensures r.Some? <==> !assertionsEnabled || WellFormed(m)
    ensures r.Some? ==> r.value == m.scores
  {
    if assertionsEnabled && CheckScores(m, true) != Returned(true) then None else Some(m.scores)
  }

  /** The default matrix passes its own self-check. */
  lemma ZeroesPassesCheck(assertionsEnabled: bool)
    ensures CheckScores(Zeroes(), assertionsEnabled) == Returned(true)
  {
    var z := Zeroes();
    forall i | 0 <= i < |Standard|
      ensures !HasPositive(z.scores, Standard[i])
    {
      assert forall k :: 0 <= k < |Standard| ==> Cell(z.scores, Standard[i] as int, Standard[k] as int) == 0.0;
    }
  }

  // ---------------------------------------------------------------------------
  // scaleScores and roundScores

  /** `scaleScores(f)`: every cell multiplied by `f`; the name is kept. */
  function ScaleScores(m: Matrix, f: real): (r: Matrix)
    ensures r.id == m.id
    ensures forall a: Code, b: Code :: Cell(r.scores, a, b) == Cell(m.scores, a, b) * f
  {
    Matrix(m.id, seq(Size, i requires 0 <= i < Size => seq(Size, j requires 0 <= j < Size => m.scores[i][j] * f)))
  }

  /** Scaling by a positive factor keeps the sign of every score, so it does not
      change the outcome of the self-check. */
  lemma ScalePreservesCheck(m: Matrix, f: real, assertionsEnabled: bool)
    requires f > 0.0
    ensures CheckScores(ScaleScores(m, f), assertionsEnabled) == CheckScores(m, assertionsEnabled)
  {
    var s := ScaleScores(m, f);
    forall i | 0 <= i < |Standard|
      ensures HasPositive(s.scores, Standard[i]) <==> HasPositive(m.scores, Standard[i])
    {
      ScaleKeepsPositive(m, f, Standard[i]);
    }
    assert WellFormed(s) <==> WellFormed(m);
  }

  lemma ScaleKeepsPositive(m: Matrix, f: real, c: Aa)
    requires f > 0.0
    ensures HasPositive(ScaleScores(m, f).scores, c) <==> HasPositive(m.scores, c)
  {
    var s := ScaleScores(m, f);
    var a := c as int;
    forall k | 0 <= k < |Standard|
      ensures s.scores[a][Standard[k] as int] > 0.0 <==> m.scores[a][Standard[k] as int] > 0.0
    {
      assert Cell(s.scores, a, Standard[k] as int) == Cell(m.scores, a, Standard[k] as int) * f;
      SignOfProduct(Cell(m.scores, a, Standard[k] as int), f);
    }
  }

  lemma SignOfProduct(x: real, f: real)
    requires f > 0.0
    ensures x * f > 0.0 <==> x > 0.0
  {
    if x > 0.0 {
      assert x * f > 0.0;
    } else {
      assert x * f <= 0.0;
    }
  }

  /** `Math.round` of a score: the nearest integer, halves rounded up. The result
      is an `int`, so a score beyond the `int` range saturates at its bound. */
  function Round(x: real): (r: real)
    ensures r == (r.Floor as real) && IsInt32(r.Floor)
    ensures (MinInt32 as real) - 0.5 <= x < (MaxInt32 as real) + 0.5 ==> x - 0.5 < r <= x + 0.5
    ensures x >= (MaxInt32 as real) + 0.5 ==> r == MaxInt32 as real
    ensures x < (MinInt32 as real) - 0.5 ==> r == MinInt32 as real
  {
    var n := (x + 0.5).Floor;
    if n > MaxInt32 then MaxInt32 as real
    else if n < MinInt32 then MinInt32 as real
    else n as real
  }

  /** `roundScores()`: every cell replaced by its nearest integer; the name is kept. */
  function RoundScores(m: Matrix): (r: Matrix)
    ensures r.id == m.id
    ensures forall a: Code, b: Code :: Cell(r.scores, a, b) == Round(Cell(m.scores, a, b))
  {
    Matrix(m.id, seq(Size, i requires 0 <= i < Size => seq(Size, j requires 0 <= j < Size => Round(m.scores[i][j]))))
  }

  lemma RoundIntegral(x: real)
    requires x == (x.Floor as real) && IsInt32(x.Floor)
    ensures Round(x) == x
  {
    var n := x.Floor;
    var y := x + 0.5;
    assert (n as real) <= y < (n as real) + 1.0;
    assert y.Floor == n;
  }

  /** Rounding an already rounded matrix changes nothing. */
  lemma RoundScoresIdempotent(m: Matrix)
    ensures RoundScores(RoundScores(m)) == RoundScores(m)
  {
    var r := RoundScores(m);
    var rr := RoundScores(r);
    forall i, j | 0 <= i < Size && 0 <= j < Size
      ensures rr.scores[i][j] == r.scores[i][j]
    {
      assert Cell(rr.scores, i, j) == Round(Cell(r.scores, i, j));
      RoundIntegral(Cell(r.scores, i, j));
    }
    assert forall i | 0 <= i < Size :: rr.scores[i] == r.scores[i];
  }
}

=== FILE: matrix_loader.dfy ===
/** The scoring-table readers of `ccaligner.matrix.MatrixLoader`: the column
    layout read from a `## query` header, one-line matrix declarations read with
    that layout, and the square text format read into a symmetric table.

    `Residue.aa_to_code` and the `Matrix(query, subject, scores)` constructor are
    not part of this model; they are parameters (`aaToCode`, `matrixId`), and so
    is `Character.isLetter`. */
module MatrixLoader {
  import opened Wrappers
  import opened Text
  import opened Numbers
  import opened Matrices

  /** A `MatrixCoord`: the table cell that one column of a declaration line fills. */
  datatype Coord = Coord(i: Code, j: Code)

  /** The exception a one-line declaration can raise. `ZeroScale` is not an
      exception: it stands for a line that Java loads although a numeric value is
      divided by a scaling factor of zero, which stores an infinite or NaN score
      that a table of reals cannot hold. */
  datatype LineError = NoSuchElement | IndexOutOfBounds | NumberFormat | ZeroScale

  const Tab: set<char> := {'\t'}

  /** The three leading columns of every declaration line. */
  const LeadingColumns: seq<string> := ["## query", "subject", "scaling_factor"]

  // ---------------------------------------------------------------------------
  // The header constructor

  /** The coordinates named by the columns after the three leading ones; a column
      needs two characters, the row and the column residue. */
  function CoordsOf(cols: seq<string>, aaToCode: char -> Code): (r: Result<seq<Coord>, LineError>)
    ensures r.Success? <==> forall k :: 0 <= k < |cols| ==> |cols[k]| >= 2
    ensures r.Success? ==> |r.value| == |cols|
    ensures r.Success? ==> forall k :: 0 <= k < |cols| ==>
      r.value[k] == Coord(aaToCode(cols[k][0]), aaToCode(cols[k][1]))
  {
    if cols == [] then Success([])
    else if |cols[0]| < 2 then Failure(IndexOutOfBounds)
    else
      match CoordsOf(cols[1..], aaToCode)
      case Failure(e) =>
        assert exists k :: 1 <= k < |cols| && |cols[k]| < 2 by {
          var k :| 0 <= k < |cols[1..]| && |cols[1..][k]| < 2;
          assert cols[k + 1] == cols[1..][k];
        }
        Failure(e)
      case Success(rest) =>
        assert forall k :: 1 <= k < |cols| ==> cols[k] == cols[1..][k - 1];
        Success([Coord(aaToCode(cols[0][0]), aaToCode(cols[0][1]))] + rest)
  }

  /** `new MatrixLoader(header)`: the trimmed header is cut at tabs, the first three
      columns are skipped and every further column becomes one coordinate, in
      order. The assertions on the skipped columns compare references and are
      not modelled. */
  function ParseHeader(header: string, aaToCode: char -> Code): (r: Result<seq<Coord>, LineError>)
    ensures var cols := Tokenize(Trim(header), Tab);
      (r.Success? <==> |cols| >= 3 && forall k :: 3 <= k < |cols| ==> |cols[k]| >= 2) &&
      (|cols| < 3 ==> r == Failure(NoSuchElement)) &&
      (r.Success? ==> |r.value| == |cols| - 3) &&
      (r.Success? ==> forall k :: 0 <= k < |r.value| ==>
        r.value[k] == Coord(aaToCode(cols[k + 3][0]), aaToCode(cols[k + 3][1])))
  {
    var cols := Tokenize(Trim(header), Tab);
    if |cols| < 3 then Failure(NoSuchElement)
    else
      assert forall k :: 3 <= k < |cols| ==> cols[k] == cols[3..][k - 3];
      CoordsOf(cols[3..], aaToCode)
  }

  /** The header a loader is constructed from: the leading columns followed by one
      two-character column per coordinate. */
  function HeaderOf(pairs: seq<string>): string {
    Join(LeadingColumns + pairs, '\t')
  }

  /** A header built from two-character columns is read back as exactly their
      coordinates, provided it does not end in a blank. */
  lemma ParseHeaderOf(pairs: seq<string>, aaToCode: char -> Code)
    requires forall k :: 0 <= k < |pairs| ==> |pairs[k]| == 2 && '\t' !in pairs[k]
    requires |pairs| > 0 ==> !IsTrimmable(pairs[|pairs| - 1][|pairs[|pairs| - 1]| - 1])
    ensures var r := ParseHeader(HeaderOf(pairs), aaToCode);
      r.Success? && |r.value| == |pairs| &&
      forall k :: 0 <= k < |pairs| ==> r.value[k] == Coord(aaToCode(pairs[k][0]), aaToCode(pairs[k][1]))
  {
    var cols := LeadingColumns + pairs;
    var h := HeaderOf(pairs);
    forall k | 0 <= k < |cols|
      ensures IsToken(cols[k], Tab)
    {
      if k >= 3 {
        assert cols[k] == pairs[k - 3];
      }
    }
    JoinFirst(cols, '\t');
    JoinLast(cols, '\t');
    TrimIdentity(h);
    TokenizeJoin(cols, '\t', Tab);
    assert cols[3..] == pairs;
  }

  /** The residue letters of the built-in layout, in its order. */
  const Alphabet: string := "-ABCDEFGHIKLMNPQRSTVWXYZU*OJ"

  /** The 784 columns of the built-in layout: every ordered pair of letters. */
  function DefaultPairs(): seq<string> {
    seq(784, k requires 0 <= k < 784 => [Alphabet[k / 28], Alphabet[k % 28]])
  }

  /** `new MatrixLoader()`: the loader built from the built-in header. */
  function DefaultLoader(aaToCode: char -> Code): Result<seq<Coord>, LineError> {
    ParseHeader(HeaderOf(DefaultPairs()), aaToCode)
  }

  /** Every ordered pair of the 28 letters, row letter first, row by row. */
  predicate IsDefaultLayout(cs: seq<Coord>, aaToCode: char -> Code) {
    |cs| == 784 &&
    forall a, b :: 0 <= a < 28 && 0 <= b < 28 ==>
      cs[28 * a + b] == Coord(aaToCode(Alphabet[a]), aaToCode(Alphabet[b]))
  }

  /** The loader built from the built-in header has the built-in layout. */
  lemma DefaultLayout(aaToCode: char -> Code)
    ensures DefaultLoader(aaToCode).Success?
    ensures IsDefaultLayout(DefaultLoader(aaToCode).value, aaToCode)
  {
    var ps := DefaultPairs();
    DefaultPairsArePairs();
    ParseHeaderOf(ps, aaToCode);
    var r := ParseHeader(HeaderOf(ps), aaToCode);
    PairsLayout(r.value, ps, aaToCode);
  }

  lemma PairsLayout(cs: seq<Coord>, ps: seq<string>, aaToCode: char -> Code)
    requires ps == DefaultPairs()
    requires |cs| == |ps|
    requires forall k :: 0 <= k < |ps| ==> |ps[k]| == 2 && cs[k] == Coord(aaToCode(ps[k][0]), aaToCode(ps[k][1]))
    ensures IsDefaultLayout(cs, aaToCode)
  {
    forall a, b | 0 <= a < 28 && 0 <= b < 28
      ensures cs[28 * a + b] == Coord(aaToCode(Alphabet[a]), aaToCode(Alphabet[b]))
    {
      DefaultPair(a, b);
    }
  }

  lemma DefaultPair(a: int, b: int)
    requires 0 <= a < 28 && 0 <= b < 28
    ensures 0 <= 28 * a + b < 784
    ensures DefaultPairs()[28 * a + b] == [Alphabet[a], Alphabet[b]]
  {
    DivMod28(a, b);
  }

  lemma DivMod28(a: int, b: int)
    requires 0 <= a < 28 && 0 <= b < 28
    ensures (28 * a + b) / 28 == a && (28 * a + b) % 28 == b
  {
  }

  lemma DefaultPairsArePairs()
    ensures var ps := DefaultPairs();
      |ps| == 784 &&
      (forall k :: 0 <= k < |ps| ==> |ps[k]| == 2 && '\t' !in ps[k]) &&
      !IsTrimmable(ps[783][1])
  {
    var ps := DefaultPairs();
    AlphabetPrintable();
    forall k | 0 <= k < |ps|
      ensures |ps[k]| == 2 && '\t' !in ps[k]
    {
      assert ps[k] == [Alphabet[k / 28], Alphabet[k % 28]];
    }
    assert ps[783] == [Alphabet[27], Alphabet[27]];
  }

  lemma AlphabetPrintable()
    ensures forall i :: 0 <= i < |Alphabet| ==> Alphabet[i] > ' '
  {
  }

  // ---------------------------------------------------------------------------
  // loadFromLine

  /** The score stored for a declared value that is missing from the source data. */
  const MissingScore: real := -32768.0

  /** A value column Java accepts: the missing-score marker "X" or a number. */
  predicate ScoreToken(t: string) {
    t == "X" || ParseScore(t).Some?
  }

  /** The score one value column declares: "X" is the missing-score marker, any
      other column is a number divided by the scaling factor. A column that is no
      number raises NumberFormat; a number divided by a zero factor has no value
      in a table of reals (ZeroScale). */
  function TokenValue(t: string, scale: real): (r: Result<real, LineError>)
    ensures t == "X" ==> r == Success(MissingScore)
    ensures r == Failure(NumberFormat) <==> !ScoreToken(t)
    ensures r == Failure(ZeroScale) <==> ScoreToken(t) && t != "X" && scale == 0.0
    ensures r.Success? && t != "X" ==> scale != 0.0 && ParseScore(t).Some? && r.value == ParseScore(t).value / scale
  {
    if t == "X" then Success(MissingScore)
    else
      var p := ParseScore(t);
      if p.None? then Failure(NumberFormat)
      else if scale == 0.0 then Failure(ZeroScale)
      else
        Success(p.value / scale)
  }

  /** The position of the last occurrence of `c` in `cs`, if any. */
  function LastIndex(cs: seq<Coord>, c: Coord): (r: Option<nat>)
    ensures r.Some? ==> (r.value < |cs| && cs[r.value] == c &&
      forall k :: r.value < k < |cs| ==> cs[k] != c)
    ensures r.None? ==> forall k :: 0 <= k < |cs| ==> cs[k] != c
  {
    if cs == [] then None
    else if cs[|cs| - 1] == c then Some(|cs| - 1)
    else LastIndex(cs[..|cs| - 1], c)
  }

  /** The value a declaration gives to cell `(a, b)`: the one in the last column
      whose coordinate is `(a, b)`, or 0 when no column names it. */
  predicate Declares(coords: seq<Coord>, values: seq<string>, scale: real, a: Code, b: Code, x: real)
    requires |values| <= |coords|
  {
    match LastIndex(coords[..|values|], Coord(a, b))
    case None => x == 0.0
    case Some(k) => TokenValue(values[k], scale) == Success(x)
  }

  function SetCell(t: Table, a: Code, b: Code, v: real): (r: Table)
    ensures Cell(r, a, b) == v
    ensures forall p: Code, q: Code :: (p != a || q != b) ==> Cell(r, p, q) == Cell(t, p, q)
  {
    t[a := t[a][b := v]]
  }

  /** The value loop of `loadFromLine` from column `k` on: each column takes the
      next coordinate, running out of coordinates raises NoSuchElement, and a
      column that is not a number raises NumberFormat. A number divided by a zero
      factor does not stop Java's loop, so ZeroScale is only the answer when no
      later column raises an exception. */
  function FillDeclared(t: Table, coords: seq<Coord>, values: seq<string>, scale: real, k: nat): (r: Result<Table, LineError>)
    requires k <= |values| && k <= |coords|
    ensures r.Success? <==> (|values| <= |coords| &&
      forall i :: k <= i < |values| ==> TokenValue(values[i], scale).Success?)
    ensures (r.Failure? && r.error != ZeroScale) <==>
      !(|values| <= |coords| && forall i :: k <= i < |values| ==> ScoreToken(values[i]))
    ensures r.Success? ==> forall a: Code, b: Code ::
      match LastIndex(coords[..|values|], Coord(a, b))
      case Some(i) => (i < k ==> Cell(r.value, a, b) == Cell(t, a, b)) &&
                      (i >= k ==> TokenValue(values[i], scale) == Success(Cell(r.value, a, b)))
      case None => Cell(r.value, a, b) == Cell(t, a, b)
    decreases |values| - k
  {
    if k == |values| then Success(t)
    else if k >= |coords| then Failure(NoSuchElement)
    else
      var tv := TokenValue(values[k], scale);
      if tv == Failure(NumberFormat) then Failure(NumberFormat)
      else
        var v := if tv.Success? then tv.value else 0.0;
        var r := FillDeclared(SetCell(t, coords[k].i, coords[k].j, v), coords, values, scale, k + 1);
        if r.Failure? then r
        else if tv.Failure? then Failure(ZeroScale)
        else
          FillDeclaredStep(t, coords, values, scale, k, v, r.value);
          r
  }

  /** One step of the value loop keeps the last-column characterisation. */
  lemma FillDeclaredStep(t: Table, coords: seq<Coord>, values: seq<string>, scale: real, k: nat, v: real, r: Table)
    requires k < |values| <= |coords|
    requires TokenValue(values[k], scale) == Success(v)
    requires forall a: Code, b: Code ::
      match LastIndex(coords[..|values|], Coord(a, b))
      case Some(i) => (i < k + 1 ==> Cell(r, a, b) == Cell(SetCell(t, coords[k].i, coords[k].j, v), a, b)) &&
                      (i >= k + 1 ==> TokenValue(values[i], scale) == Success(Cell(r, a, b)))
      case None => Cell(r, a, b) == Cell(SetCell(t, coords[k].i, coords[k].j, v), a, b)
    ensures forall a: Code, b: Code ::
      match LastIndex(coords[..|values|], Coord(a, b))
      case Some(i) => (i < k ==> Cell(r, a, b) == Cell(t, a, b)) &&
                      (i >= k ==> TokenValue(values[i], scale) == Success(Cell(r, a, b)))
      case None => Cell(r, a, b) == Cell(t, a, b)
  {
    var cs := coords[..|values|];
    forall a: Code, b: Code
      ensures match LastIndex(cs, Coord(a, b))
        case Some(i) => (i < k ==> Cell(r, a, b) == Cell(t, a, b)) &&
                        (i >= k ==> TokenValue(values[i], scale) == Success(Cell(r, a, b)))
        case None => Cell(r, a, b) == Cell(t, a, b)
    {
      var li := LastIndex(cs, Coord(a, b));
      assert cs[k] == coords[k];
      if li.Some? && li.value == k {
        assert Coord(a, b) == coords[k];
      } else if li.Some? && li.value > k {
      } else {
        assert Coord(a, b) != coords[k];
      }
    }
  }

  /** The columns of a declaration line: one leading '#' dropped, the rest
      trimmed and cut at tabs. */
  function LineColumns(line: string): seq<string> {
    Tokenize(Trim(if StartsWith(line, "#") then line[1..] else line), Tab)
  }

  /** `loadFromLine(line)` with the layout `coords`: a line with fewer columns
      than the layout has coordinates is no declaration (`None`). Otherwise the
      first three columns are the query, the subject and the scaling factor, and
      the rest fill the table as `Declares` describes. */
  function LoadFromLine(coords: seq<Coord>, line: string, matrixId: (string, string) -> string)
    : (r: Result<Option<Matrix>, LineError>)
    ensures r == Success(None) <==> |LineColumns(line)| < |coords|
    ensures var cols := LineColumns(line);
      r.Success? && r.value.Some? ==>
        |cols| >= 3 && |cols| - 3 <= |coords| &&
        r.value.value.id == matrixId(cols[0], cols[1]) &&
        exists scale :: ParseScore(cols[2]) == Some(scale) &&
          forall a: Code, b: Code :: Declares(coords, cols[3..], scale, a, b, Cell(r.value.value.scores, a, b))
    ensures var cols := LineColumns(line);
      r.Success? && r.value.Some? <==>
        |coords| <= |cols| && 3 <= |cols| && |cols| - 3 <= |coords| && ParseScore(cols[2]).Some? &&
        (forall k :: 3 <= k < |cols| ==> ScoreToken(cols[k])) &&
        (ParseScore(cols[2]).value != 0.0 || forall k :: 3 <= k < |cols| ==> cols[k] == "X")
    ensures var cols := LineColumns(line);
      r == Failure(ZeroScale) <==>
        |coords| <= |cols| && 3 <= |cols| && |cols| - 3 <= |coords| && ParseScore(cols[2]) == Some(0.0) &&
        (forall k :: 3 <= k < |cols| ==> ScoreToken(cols[k])) &&
        exists k :: 3 <= k < |cols| && cols[k] != "X"
  {
    var cols := LineColumns(line);
    if |cols| < |coords| then Success(None)
    else if |cols| < 3 then Failure(NoSuchElement)
    else
      match ParseScore(cols[2])
      case None => Failure(NumberFormat)
      case Some(scale) =>
        var values := cols[3..];
        ShiftedColumns(cols);
        FillZeroScale(Zeroes().scores, coords, values, scale);
        match FillDeclared(Zeroes().scores, coords, values, scale, 0)
        case Failure(e) => Failure(e)
        case Success(t) =>
          assert forall a: Code, b: Code :: Declares(coords, values, scale, a, b, Cell(t, a, b));
          Success(Some(Matrix(matrixId(cols[0], cols[1]), t)))
  }

  lemma ShiftedColumns(cols: seq<string>)
    requires |cols| >= 3
    ensures (forall k :: 3 <= k < |cols| ==> ScoreToken(cols[k])) <==>
      (forall k :: 0 <= k < |cols[3..]| ==> ScoreToken(cols[3..][k]))
    ensures (exists k :: 3 <= k < |cols| && cols[k] != "X") <==>
      (exists k :: 0 <= k < |cols[3..]| && cols[3..][k] != "X")
  {
    assert forall k :: 3 <= k < |cols| ==> cols[k] == cols[3..][k - 3];
    if exists k :: 0 <= k < |cols[3..]| && cols[3..][k] != "X" {
      var k :| 0 <= k < |cols[3..]| && cols[3..][k] != "X";
      assert cols[k + 3] != "X";
    }
  }

  /** The value loop ends in ZeroScale exactly when Java's loop raises nothing
      and some column is a number divided by a zero factor. */
  lemma FillZeroScale(t: Table, coords: seq<Coord>, values: seq<string>, scale: real)
    ensures FillDeclared(t, coords, values, scale, 0) == Failure(ZeroScale) <==>
      |values| <= |coords| && (forall k :: 0 <= k < |values| ==> ScoreToken(values[k])) &&
      scale == 0.0 && exists k :: 0 <= k < |values| && values[k] != "X"
  {
    var r := FillDeclared(t, coords, values, scale, 0);
    if |values| <= |coords| && (forall k :: 0 <= k < |values| ==> ScoreToken(values[k])) {
      if scale == 0.0 && exists k :: 0 <= k < |values| && values[k] != "X" {
        var k :| 0 <= k < |values| && values[k] != "X";
        assert TokenValue(values[k], scale).Failure?;
      } else {
        assert forall k :: 0 <= k < |values| ==> TokenValue(values[k], scale).Success?;
      }
    }
  }

  /** A zero scaling factor divides nothing when every value is "X", so such a
      line loads as Java loads it. */
  lemma ZeroScaleWithoutNumbers(matrixId: (string, string) -> string)
    ensures LoadFromLine([], "#q\ts\t0", matrixId) == Success(Some(Matrix(matrixId("q", "s"), Zeroes().scores)))
  {
    var line := "#q\ts\t0";
    var l := line[1..];
    assert StartsWith(line, "#");
    assert Join(["q", "s", "0"], '\t') == l;
    TrimIdentity(l);
    TokenizeJoin(["q", "s", "0"], '\t', Tab);
    assert LineColumns(line) == ["q", "s", "0"];
    assert ParseScore("0") == Some(0.0);
    assert FillDeclared(Zeroes().scores, [], [], 0.0, 0) == Success(Zeroes().scores);
  }

  // ---------------------------------------------------------------------------
  // load(String, InputStream): the square text format

  /** `NoHeaderLine` is the NullPointerException raised when the input holds no
      line after the comments, `HeaderTooWide` the ArrayIndexOutOfBoundsException
      of a header with more than 127 letters; everything else is reported as a
      MatrixLoaderException. */
  datatype LoadError = NoHeaderLine | HeaderTooWide | LoaderException

  /** The delimiters of a `StringTokenizer` built without any. */
  const Whitespace: set<char> := {' ', '\t', '\n', '\r', '\U{000C}'}

  predicate IsComment(line: string) {
    var t := Trim(line);
    t != [] && t[0] == '#'
  }

  /** The comment-skipping loop: the index of the first line that is not a
      comment. A blank line fails, because the loop reads its first character. */
  function SkipComments(lines: seq<string>, k: nat): (r: Result<nat, LoadError>)
    requires k <= |lines|
    ensures r.Success? ==> k <= r.value < |lines| && !IsComment(lines[r.value]) && Trim(lines[r.value]) != []
    ensures r.Success? ==> forall i :: k <= i < r.value ==> IsComment(lines[i])
    ensures r == Failure(LoaderException) ==>
      exists i :: k <= i < |lines| && Trim(lines[i]) == [] && forall i' :: k <= i' < i ==> IsComment(lines[i'])
    ensures r == Failure(NoHeaderLine) <==> forall i :: k <= i < |lines| ==> IsComment(lines[i])
    ensures r != Failure(HeaderTooWide)
    decreases |lines| - k
  {
    if k == |lines| then Failure(NoHeaderLine)
    else if Trim(lines[k]) == [] then Failure(LoaderException)
    else if IsComment(lines[k]) then SkipComments(lines, k + 1)
    else Success(k)
  }

  /** The header letters: the first character of every whitespace-separated
      word, in order, in a 127-slot array whose unused slots hold NUL. */
  function HeaderAcids(line: string): (r: Result<seq<char>, LoadError>)
    ensures var words := Tokenize(Trim(line), Whitespace);
      (r.Success? <==> |words| <= Size) &&
      (r.Failure? ==> r.error == HeaderTooWide) &&
      (r.Success? ==> (|r.value| == Size &&
        (forall j :: 0 <= j < |words| ==> r.value[j] == words[j][0]) &&
        (forall j :: |words| <= j < Size ==> r.value[j] == '\0')))
  {
    var words := Tokenize(Trim(line), Whitespace);
    if |words| > Size then Failure(HeaderTooWide)
    else Success(seq(Size, j requires 0 <= j < Size => if j < |words| then words[j][0] else '\0'))
  }

  /** The paired assignment `scores[x][y] = scores[y][x] = v`. */
  function SetSymmetric(t: Table, x: Code, y: Code, v: real): (r: Table)
    ensures Cell(r, x, y) == v && Cell(r, y, x) == v
    ensures forall p: Code, q: Code :: !(p == x && q == y) && !(p == y && q == x) ==> Cell(r, p, q) == Cell(t, p, q)
    ensures IsSymmetric(t) ==> IsSymmetric(r)
  {
    SetCell(SetCell(t, y, x, v), x, y, v)
  }

  /** The number of non-NUL letters in `s`. */
  function Letters(s: seq<char>): nat {
    if s == [] then 0 else (if s[0] != '\0' then 1 else 0) + Letters(s[1..])
  }

  /** Header slot `j` is a non-NUL letter that occurs nowhere after `j`, and
      among slots `i..j` it comes early enough to be given one of `n` numbers. */
  predicate Feeds(acids: seq<char>, i: nat, j: int, n: nat) {
    i <= j < |acids| && acids[j] != '\0' && Letters(acids[i..j]) < n &&
    forall j' :: j < j' < |acids| ==> acids[j'] != acids[j]
  }

  /** The slots of `acids` from `i` on that the row `acid` may write: the cells
      in its row and its column facing a header letter. */
  predicate Facing(acids: seq<char>, i: nat, acid: char, p: Code, q: Code) {
    (p == acid as int && exists j :: i <= j < |acids| && acids[j] as int == q) ||
    (q == acid as int && exists j :: i <= j < |acids| && acids[j] as int == p)
  }

  /** The inner loop over header slots `i..126` for the row labelled `acid`: each
      non-NUL header letter takes the next number of the row, stored on both
      sides of the diagonal; numbers beyond the header letters are ignored. */
  function FillRow(t: Table, acids: seq<char>, acid: char, words: seq<string>, i: nat): (r: Result<Table, LoadError>)
    requires |acids| == Size && i <= Size
    ensures r.Failure? ==> r.error == LoaderException
    ensures r.Success? ==> (IsSymmetric(t) ==> IsSymmetric(r.value))
    ensures r.Success? ==> forall p: Code, q: Code ::
      !Facing(acids, i, acid, p, q) ==> Cell(r.value, p, q) == Cell(t, p, q)
    ensures r.Success? ==> forall j :: Feeds(acids, i, j, |words|) ==>
        (acid as int < Size && acids[j] as int < Size &&
         ParseScore(words[Letters(acids[i..j])]) == Some(r.value[acid as int][acids[j] as int]))
    decreases Size - i
  {
    if i == Size then Success(t)
    else if acids[i] == '\0' || words == [] then
      var r := FillRow(t, acids, acid, words, i + 1);
      if r.Success? then
        FillRowSkip(t, acids, acid, words, i, r.value);
        r
      else r
    else if acids[i] as int >= Size || acid as int >= Size then Failure(LoaderException)
    else
      match ParseScore(words[0])
      case None => Failure(LoaderException)
      case Some(v) =>
        var t1 := SetSymmetric(t, acids[i] as int, acid as int, v);
        var r := FillRow(t1, acids, acid, words[1..], i + 1);
        if r.Success? then
          FillRowWrite(t, acids, acid, words, i, v, r.value);
          r
        else r
  }

  lemma LettersSkip(acids: seq<char>, i: nat, j: nat)
    requires i < j <= |acids|
    ensures Letters(acids[i..j]) == (if acids[i] != '\0' then 1 else 0) + Letters(acids[i + 1..j])
  {
    assert acids[i..j][1..] == acids[i + 1..j];
  }

  /** A header slot that writes nothing keeps the characterisation of the rest. */
  lemma FillRowSkip(t: Table, acids: seq<char>, acid: char, words: seq<string>, i: nat, r: Table)
    requires |acids| == Size && i < Size
    requires acids[i] == '\0' || words == []
    requires forall p: Code, q: Code :: !Facing(acids, i + 1, acid, p, q) ==> Cell(r, p, q) == Cell(t, p, q)
    requires forall j :: Feeds(acids, i + 1, j, |words|) ==>
        (acid as int < Size && acids[j] as int < Size &&
         ParseScore(words[Letters(acids[i + 1..j])]) == Some(r[acid as int][acids[j] as int]))
    ensures forall p: Code, q: Code :: !Facing(acids, i, acid, p, q) ==> Cell(r, p, q) == Cell(t, p, q)
    ensures forall j :: Feeds(acids, i, j, |words|) ==>
        (acid as int < Size && acids[j] as int < Size &&
         ParseScore(words[Letters(acids[i..j])]) == Some(r[acid as int][acids[j] as int]))
  {
    forall p: Code, q: Code | !Facing(acids, i, acid, p, q)
      ensures Cell(r, p, q) == Cell(t, p, q)
    {
      assert !Facing(acids, i + 1, acid, p, q);
    }
    forall j | Feeds(acids, i, j, |words|)
      ensures Letters(acids[i..j]) == Letters(acids[i + 1..j])
    {
      if j > i {
        LettersSkip(acids, i, j);
      }
    }
  }

  /** A header slot that writes keeps the characterisation of the rest. */
  lemma FillRowWrite(t: Table, acids: seq<char>, acid: char, words: seq<string>, i: nat, v: real, r: Table)
    requires |acids| == Size && i < Size && words != []
    requires acids[i] != '\0' && acids[i] as int < Size && acid as int < Size
    requires ParseScore(words[0]) == Some(v)
    requires var t1 := SetSymmetric(t, acids[i] as int, acid as int, v);
      forall p: Code, q: Code :: !Facing(acids, i + 1, acid, p, q) ==> Cell(r, p, q) == Cell(t1, p, q)
    requires forall j :: Feeds(acids, i + 1, j, |words[1..]|) ==>
        (acid as int < Size && acids[j] as int < Size &&
         ParseScore(words[1..][Letters(acids[i + 1..j])]) == Some(r[acid as int][acids[j] as int]))
    ensures forall p: Code, q: Code :: !Facing(acids, i, acid, p, q) ==> Cell(r, p, q) == Cell(t, p, q)
    ensures forall j :: Feeds(acids, i, j, |words|) ==>
        (acid as int < Size && acids[j] as int < Size &&
         ParseScore(words[Letters(acids[i..j])]) == Some(r[acid as int][acids[j] as int]))
  {
    var t1 := SetSymmetric(t, acids[i] as int, acid as int, v);
    forall p: Code, q: Code | !Facing(acids, i, acid, p, q)
      ensures Cell(r, p, q) == Cell(t, p, q)
    {
      FacingStep(acids, i, acid, p, q);
    }
    forall j | Feeds(acids, i, j, |words|)
      ensures acids[j] as int < Size
      ensures ParseScore(words[Letters(acids[i..j])]) == Some(r[acid as int][acids[j] as int])
    {
      if j == i {
        FedFirst(acids, i, acid);
      } else {
        FeedsStep(acids, i, j, |words|);
        assert words[1..][Letters(acids[i + 1..j])] == words[Letters(acids[i..j])];
      }
    }
  }

  /** A cell the row does not face from slot `i` on is neither faced from slot
      `i + 1` on nor one of the two cells slot `i` writes. */
  lemma FacingStep(acids: seq<char>, i: nat, acid: char, p: Code, q: Code)
    requires i < |acids|
    requires !Facing(acids, i, acid, p, q)
    ensures !Facing(acids, i + 1, acid, p, q)
    ensures !(p == acids[i] as int && q == acid as int) && !(p == acid as int && q == acids[i] as int)
  {
  }

  /** The cell slot `i` writes in the row of `acid` is faced by no later slot
      when its letter does not occur again. */
  lemma FedFirst(acids: seq<char>, i: nat, acid: char)
    requires i < |acids| && acids[i] as int < Size && acid as int < Size
    requires forall j' :: i < j' < |acids| ==> acids[j'] != acids[i]
    ensures !Facing(acids, i + 1, acid, acid as int, acids[i] as int)
  {
  }

  lemma FeedsStep(acids: seq<char>, i: nat, j: int, n: nat)
    requires i < j && Feeds(acids, i, j, n) && acids[i] != '\0'
    ensures n > 0 && Feeds(acids, i + 1, j, n - 1)
    ensures Letters(acids[i + 1..j]) + 1 == Letters(acids[i..j])
  {
    LettersSkip(acids, i, j);
  }

  /** The label and the numbers of one trimmed, non-blank matrix row. */
  datatype Row = Row(acid: char, words: seq<string>, next: nat)

  /** A row starting with a letter or '*' is labelled by that character and its
      first word is skipped; any other row takes the next header letter. */
  function RowOf(line: string, acids: seq<char>, current: nat, isLetter: char -> bool): (r: Result<Row, LoadError>)
    requires |acids| == Size
    ensures var l := Trim(line);
      (r.Success? <==> l != [] && (isLetter(l[0]) || l[0] == '*' || current < Size)) &&
      (r.Failure? ==> r.error == LoaderException) &&
      (r.Success? && (isLetter(l[0]) || l[0] == '*') ==>
        r.value.acid == l[0] && r.value.next == current &&
        [l[..TokenEnd(l, Whitespace)]] + r.value.words == Tokenize(l, Whitespace)) &&
      (r.Success? && !(isLetter(l[0]) || l[0] == '*') ==>
        r.value.acid == acids[current] && r.value.next == current + 1 &&
        r.value.words == Tokenize(l, Whitespace))
  {
    var l := Trim(line);
    if l == [] then Failure(LoaderException)
    else
      var words := Tokenize(l, Whitespace);
      if isLetter(l[0]) || l[0] == '*' then
        assert l[0] !in Whitespace;
        Success(Row(l[0], words[1..], current))
      else if current >= Size then Failure(LoaderException)
      else Success(Row(acids[current], words, current + 1))
  }

  /** The row loop: every line is a row of the matrix. */
  function LoadRows(t: Table, acids: seq<char>, current: nat, lines: seq<string>, isLetter: char -> bool)
    : (r: Result<Table, LoadError>)
    requires |acids| == Size
    ensures r.Failure? ==> r.error == LoaderException
    ensures r.Success? && IsSymmetric(t) ==> IsSymmetric(r.value)
    decreases |lines|
  {
    if lines == [] then Success(t)
    else
      match RowOf(lines[0], acids, current, isLetter)
      case Failure(e) => Failure(e)
      case Success(row) =>
        match FillRow(t, acids, row.acid, row.words, 0)
        case Failure(e) => Failure(e)
        case Success(t1) => LoadRows(t1, acids, row.next, lines[1..], isLetter)
  }

  lemma ZeroesSymmetric()
    ensures IsSymmetric(Zeroes().scores)
  {
  }

  /** `load(name, stream)` over the lines of the stream: skip the comments, read
      the header letters, then fill the table row by row. Whatever it loads is
      symmetric and carries the given name. */
  function Load(name: string, lines: seq<string>, isLetter: char -> bool): (r: Result<Matrix, LoadError>)
    ensures r.Success? ==> r.value.id == name && IsSymmetric(r.value.scores)
    ensures (forall i :: 0 <= i < |lines| ==> IsComment(lines[i])) <==> r == Failure(NoHeaderLine)
  {
    var k :- SkipComments(lines, 0);
    var acids :- HeaderAcids(lines[k]);
    ZeroesSymmetric();
    var t :- LoadRows(Zeroes().scores, acids, 0, lines[k + 1..], isLetter);
    Success(Matrix(name, t))
  }
}

=== FILE: numbers.dfy ===
/** Decimal text for the numbers that appear in result lines and matrix lines:
    Java `int` wrap-around, `Integer.valueOf`, `Float.valueOf` restricted to plain
    decimal notation, and the two-decimal `DecimalFormat("0.00")` used for scores. */
module Numbers {
  import opened Wrappers
  import opened Text

  const MinInt32: int := -0x8000_0000
  const MaxInt32: int := 0x7fff_ffff

  predicate IsInt32(x: int) {
    MinInt32 <= x <= MaxInt32
  }

  /** Two's-complement wrap-around of a Java `int` expression. */
  function Wrap32(x: int): (r: int)
    ensures IsInt32(r)
    ensures IsInt32(x) ==> r == x
    ensures x == MaxInt32 + 1 ==> r == MinInt32
    ensures x == MinInt32 - 1 ==> r == MaxInt32
    decreases if x > MaxInt32 then x - MaxInt32 else MinInt32 - x
  {
    if x > MaxInt32 then Wrap32(x - 0x1_0000_0000)
    else if x < MinInt32 then Wrap32(x + 0x1_0000_0000)
    else x
  }

  predicate IsDigit(c: char) {
    '0' <= c <= '9'
  }

  function DigitChar(d: nat): (c: char)
    requires d < 10
    ensures IsDigit(c) && DigitValue(c) == d
  {
    (('0' as int) + d) as char
  }

  function DigitValue(c: char): (d: nat)
    requires IsDigit(c)
    ensures d < 10
  {
    (c as int) - ('0' as int)
  }

  /** Every character of `s` is a decimal digit; read from the end, like
      `DigitsValue`. */
  predicate AllDigits(s: string) {
    s == [] || (AllDigits(s[..|s| - 1]) && IsDigit(s[|s| - 1]))
  }

  /** The value of a string of decimal digits, read most significant first. */
  function DigitsValue(s: string): nat
    requires AllDigits(s)
  {
    if s == [] then 0 else DigitsValue(s[..|s| - 1]) * 10 + DigitValue(s[|s| - 1])
  }

  /** Decimal representation of a natural number without leading zeros. */
  function NatToString(n: nat): (s: string)
    ensures s != [] && AllDigits(s) && IsDigit(s[0])
    ensures '.' !in s && '-' !in s && '\t' !in s
  {
    if n < 10 then
      var s := [DigitChar(n)];
      assert s[..0] == [];
      s
    else
      var p := NatToString(n / 10);
      var s := p + [DigitChar(n % 10)];
      assert s[..|s| - 1] == p;
      s
  }

  lemma {:induction false} NatToStringValue(n: nat)
    ensures DigitsValue(NatToString(n)) == n
  {
    if n >= 10 {
      var s := NatToString(n);
      assert s[..|s| - 1] == NatToString(n / 10);
      NatToStringValue(n / 10);
    }
  }

  /** `String.valueOf(int)`. */
  function IntToString(n: int): (s: string)
    ensures s != [] && '\t' !in s
  {
    if n < 0 then "-" + NatToString(-n) else NatToString(n)
  }

  /** `Integer.valueOf(s)`: an optional sign followed by at least one digit, whose
      value fits in a Java `int`; anything else raises NumberFormatException. */
  function ParseInt(s: string): (r: Option<int>)
    ensures r.Some? ==> IsInt32(r.value)
  {
    if s == [] then None
    else
      var negative := s[0] == '-';
      var digits := if s[0] == '-' || s[0] == '+' then s[1..] else s;
      if digits == [] || !AllDigits(digits) then None
      else
        var d: int := DigitsValue(digits);
        var v := if negative then -d else d;
        if IsInt32(v) then Some(v) else None
  }

  /** Printing an `int` and reading it back gives the same `int`. */
  lemma ParseIntToString(n: int)
    requires IsInt32(n)
    ensures ParseInt(IntToString(n)) == Some(n)
  {
    if n < 0 {
      ParseNegativeIntToString(n);
    } else {
      ParseNonNegativeIntToString(n);
    }
  }

  lemma ParseNegativeIntToString(n: int)
    requires MinInt32 <= n < 0
    ensures ParseInt(IntToString(n)) == Some(n)
  {
    var s := IntToString(n);
    var digits := NatToString(-n);
    assert s == "-" + digits;
    assert s[0] == '-' && s[1..] == digits;
    NatToStringValue(-n);
  }

  lemma ParseNonNegativeIntToString(n: int)
    requires 0 <= n <= MaxInt32
    ensures ParseInt(IntToString(n)) == Some(n)
  {
    var s := NatToString(n);
    assert IsDigit(s[0]);
    NatToStringValue(n);
  }

  // ---------------------------------------------------------------------------
  // Scores with two decimals

  /** The number of hundredths `DecimalFormat("0.00")` prints for `x`, rounding
      halves upwards. */
  function Cents(x: real): int {
    (x * 100.0 + 0.5).Floor
  }

  /** `x` rounded to two decimals. */
  function Round2(x: real): (r: real)
    ensures r == (Cents(x) as real) / 100.0
  {
    (Cents(x) as real) / 100.0
  }

  function TwoDigits(n: nat): (s: string)
    requires n < 100
    ensures |s| == 2 && AllDigits(s)
  {
    var s := [DigitChar(n / 10), DigitChar(n % 10)];
    assert s[..1][..0] == [] && s[..1] == [s[0]];
    s
  }

  /** The unsigned text of `a` hundredths: whole part, point, two decimals. */
  function CentsText(a: nat): (s: string)
    ensures s != [] && '\t' !in s && IsDigit(s[0])
    ensures !IsTrimmable(s[0]) && !IsTrimmable(s[|s| - 1])
  {
    var w := NatToString(a / 100);
    var f := TwoDigits(a % 100);
    assert (w + "." + f)[0] == w[0];
    w + "." + f
  }

  /** `DecimalFormat("0.00").format(x)`. */
  function FormatScore(x: real): (s: string)
    ensures s != [] && '\t' !in s
    ensures IsDigit(s[0]) || (s[0] == '-' && |s| > 1 && IsDigit(s[1]))
    ensures !IsTrimmable(s[0]) && !IsTrimmable(s[|s| - 1])
  {
    var c := Cents(x);
    if c < 0 then "-" + CentsText(-c) else CentsText(c)
  }

  /** The value of plain decimal text `A.B` (either part may be empty, not both). */
  function DecimalValue(s: string): Option<real> {
    var k := IndexOf(s, '.');
    var whole := s[..k];
    var frac := if k < |s| then s[k + 1..] else "";
    if (whole == [] && frac == []) || !AllDigits(whole) || !AllDigits(frac) then None
    else Some(DigitsValue(whole) as real + Shift(DigitsValue(frac) as real, |frac|))
  }

  /** `x` divided by ten `n` times: the value of `n` digits after the point. */
  function Shift(x: real, n: nat): real {
    if n == 0 then x else Shift(x, n - 1) / 10.0
  }

  /** `Float.valueOf(s)` for plain decimal notation: surrounding blanks are
      ignored and an optional sign may precede the digits. */
  function ParseScore(s: string): Option<real> {
    var t := Trim(s);
    if t == [] then None
    else if t[0] == '-' then
      match DecimalValue(t[1..])
      case Some(v) => Some(-v)
      case None => None
    else if t[0] == '+' then DecimalValue(t[1..])
    else DecimalValue(t)
  }

  lemma TwoDigitsValue(n: nat)
    requires n < 100
    ensures DigitsValue(TwoDigits(n)) == n
  {
    var s := TwoDigits(n);
    assert s[..1] == [s[0]];
    assert [s[0]][..0] == [];
    assert DigitsValue(s[..1]) == n / 10;
  }

  lemma CentsArithmetic(a: nat)
    ensures (a / 100) as real + ((a % 100) as real) / 100.0 == (a as real) / 100.0
  {
    assert a == (a / 100) * 100 + a % 100;
  }

  lemma {:induction false} DecimalValueOfCentsText(a: nat)
    ensures DecimalValue(CentsText(a)) == Some((a as real) / 100.0)
  {
    var w := NatToString(a / 100);
    var f := TwoDigits(a % 100);
    var s := CentsText(a);
    assert s == w + "." + f;
    var k := IndexOf(s, '.');
    assert forall i :: 0 <= i < |w| ==> s[i] == w[i];
    assert s[|w|] == '.';
    assert k == |w|;
    assert s[..k] == w;
    assert s[k + 1..] == f;
    NatToStringValue(a / 100);
    TwoDigitsValue(a % 100);
    assert Shift(DigitsValue(f) as real, 1) == (DigitsValue(f) as real) / 10.0;
    assert Shift(DigitsValue(f) as real, 2) == (DigitsValue(f) as real) / 100.0;
    CentsArithmetic(a);
  }

  lemma ParseCentsText(a: nat)
    ensures ParseScore(CentsText(a)) == Some((a as real) / 100.0)
  {
    var s := CentsText(a);
    DecimalValueOfCentsText(a);
    TrimIdentity(s);
    assert Trim(s) == s;
    assert IsDigit(s[0]);
  }

  lemma ParseNegatedCentsText(a: nat)
    ensures ParseScore("-" + CentsText(a)) == Some(-((a as real) / 100.0))
  {
    var s := CentsText(a);
    DecimalValueOfCentsText(a);
    var t := "-" + s;
    assert t[|t| - 1] == s[|s| - 1];
    TrimIdentity(t);
    assert Trim(t) == t;
    assert t[1..] == s;
  }

  lemma ParseFormatNonNegative(x: real, a: nat)
    requires Cents(x) == a
    ensures ParseScore(FormatScore(x)) == Some(Round2(x))
  {
    ParseCentsText(a);
    assert FormatScore(x) == CentsText(a);
  }

  lemma ParseFormatNegative(x: real, a: nat)
    requires Cents(x) + a == 0 && a > 0
    ensures ParseScore(FormatScore(x)) == Some(Round2(x))
  {
    var c: int := Cents(x);
    assert c == -(a as int) && (c as real) == -(a as real);
    assert FormatScore(x) == "-" + CentsText(a);
    ParseNegatedCentsText(a);
    assert Round2(x) == (c as real) / 100.0 == -((a as real) / 100.0);
  }

  /** Formatting a score with two decimals and reading it back gives the score
      rounded to two decimals. */
  lemma ParseFormatScore(x: real)
    ensures ParseScore(FormatScore(x)) == Some(Round2(x))
  {
    var c := Cents(x);
    if c < 0 {
      ParseFormatNegative(x, -c);
    } else {
      ParseFormatNonNegative(x, c);
    }
  }
}

=== FILE: recurrence.dfy ===
/** The Smith-Waterman-Gotoh recurrence that `SmithWatermanGotoh.construct` fills
    in, stated as functions of the cell coordinates: the coil-aware similarity
    of two residues, the local score `V`, the best scores `G` and `H` of a
    vertical and a horizontal gap, the gap-run lengths and the traceback
    direction of every cell. Row `i` and column `j` stand for the prefixes of
    length `i` and `j` of the two sequences. */
module Recurrence {
  import opened Wrappers
  import opened Matrices
  import opened Residues

  /** The scoring inputs of one alignment: the background table, the optional
      register-indexed coil tables, the gap penalties and the coil bonus and
      penalty. */
  datatype Scoring = Scoring(
    blosum: Table, coils: Option<seq<Table>>,
    open: real, extend: real, cMatch: real, cMismatch: real)

  datatype Problem = Problem(s1: seq<Residue>, s2: seq<Residue>, sc: Scoring)

  // ---------------------------------------------------------------------------
  // Similarity

  /** The register whose coil table scores the pair: that of the residue with
      the higher coil probability, the higher register breaking a tie. */
  function CoilRegister(a: Residue, b: Residue): int {
    if a.ccProb > b.ccProb || (a.ccProb == b.ccProb && a.register > b.register) then a.register else b.register
  }

  /** The coil table the pair needs exists. */
  predicate CoilIndexOk(sc: Scoring, a: Residue, b: Residue) {
    sc.coils.None? || (a.register < 0 && b.register < 0) || 0 <= CoilRegister(a, b) < |sc.coils.value|
  }

  /** Every pair of residues of the two sequences can be scored. */
  predicate Scorable(pr: Problem) {
    forall x, y :: 0 <= x < |pr.s1| && 0 <= y < |pr.s2| ==> CoilIndexOk(pr.sc, pr.s1[x], pr.s2[y])
  }

  /** The similarity of two residues: the background table, unless coil tables
      are given and one residue is in a coil; then the coil table of the chosen
      register, plus the bonus when the plausible registers overlap, or minus the
      penalty when both residues are coiled in incompatible registers. */
  function Similarity(sc: Scoring, a: Residue, b: Residue): real
    requires CoilIndexOk(sc, a, b)
  {
    match sc.coils
    case None => Cell(sc.blosum, a.aa as int, b.aa as int)
    case Some(tables) =>
      if a.register >= 0 || b.register >= 0 then
        var base := Cell(tables[CoilRegister(a, b)], a.aa as int, b.aa as int);
        if a.possible * b.possible != {} then base + sc.cMatch
        else if a.register >= 0 && b.register >= 0 then base - sc.cMismatch
        else base
      else Cell(sc.blosum, a.aa as int, b.aa as int)
  }

  /** Without coil tables, or for two residues outside coils, the background
      table decides. */
  lemma SimilarityBackground(sc: Scoring, a: Residue, b: Residue)
    requires sc.coils.None? || (a.register < 0 && b.register < 0)
    ensures CoilIndexOk(sc, a, b)
    ensures Similarity(sc, a, b) == Cell(sc.blosum, a.aa as int, b.aa as int)
  {
  }

  /** With coil tables and a coiled residue, the score is the chosen coil table's
      entry adjusted by exactly one of: the bonus, the penalty, nothing. */
  lemma SimilarityCoiled(sc: Scoring, a: Residue, b: Residue)
    requires sc.coils.Some? && (a.register >= 0 || b.register >= 0)
    requires CoilIndexOk(sc, a, b)
    ensures var base := Cell(sc.coils.value[CoilRegister(a, b)], a.aa as int, b.aa as int);
      (a.possible * b.possible != {} ==> Similarity(sc, a, b) == base + sc.cMatch) &&
      (a.possible * b.possible == {} && a.register >= 0 && b.register >= 0 ==>
        Similarity(sc, a, b) == base - sc.cMismatch) &&
      (a.possible * b.possible == {} && (a.register < 0 || b.register < 0) ==>
        Similarity(sc, a, b) == base)
  {
  }

  /** The choice of register does not depend on the order of the two residues. */
  lemma {:induction false} CoilRegisterSymmetric(a: Residue, b: Residue)
    ensures CoilRegister(a, b) == CoilRegister(b, a)
  {
    if a.ccProb > b.ccProb {
    } else if a.ccProb == b.ccProb {
      if a.register > b.register {
      } else if a.register < b.register {
      } else {
      }
    } else {
    }
  }

  /** With symmetric tables the similarity is symmetric. */
  lemma SimilaritySymmetric(sc: Scoring, a: Residue, b: Residue)
    requires IsSymmetric(sc.blosum)
    requires sc.coils.Some? ==> forall k :: 0 <= k < |sc.coils.value| ==> IsSymmetric(sc.coils.value[k])
    requires CoilIndexOk(sc, a, b)
    ensures CoilIndexOk(sc, b, a)
    ensures Similarity(sc, a, b) == Similarity(sc, b, a)
  {
    CoilRegisterSymmetric(a, b);
    assert b.possible * a.possible == a.possible * b.possible;
    if sc.coils.Some? && (a.register >= 0 || b.register >= 0) {
      var t := sc.coils.value[CoilRegister(a, b)];
      assert Cell(t, a.aa as int, b.aa as int) == Cell(t, b.aa as int, a.aa as int);
    } else {
      assert Cell(sc.blosum, a.aa as int, b.aa as int) == Cell(sc.blosum, b.aa as int, a.aa as int);
    }
  }

  /** The chosen register can be -1: a residue outside coils with the higher
      probability picks it while its partner is coiled, and no table has that
      index. */
  lemma NegativeCoilRegister(sc: Scoring, a: Residue, b: Residue)
    requires sc.coils.Some?
    requires a.register == -1 && b.register >= 0 && a.ccProb > b.ccProb
    ensures CoilRegister(a, b) == -1
    ensures !CoilIndexOk(sc, a, b)
  {
  }

  // ---------------------------------------------------------------------------
  // The recurrence

  /** The largest of four scores. */
  function Max4(a: real, b: real, c: real, d: real): real {
    var x := if a >= b then a else b;
    var y := if c >= d then c else d;
    if x >= y then x else y
  }

  predicate InRange(pr: Problem, i: int, j: int) {
    0 <= i <= |pr.s1| && 0 <= j <= |pr.s2|
  }

  function Sim(pr: Problem, i: int, j: int): real
    requires Scorable(pr) && 1 <= i <= |pr.s1| && 1 <= j <= |pr.s2|
  {
    Similarity(pr.sc, pr.s1[i - 1], pr.s2[j - 1])
  }

  /** The best local score ending at cell `(i, j)`; row 0 and column 0 are 0. */
  function V(pr: Problem, i: int, j: int): (r: real)
    requires Scorable(pr) && InRange(pr, i, j)
    ensures r >= 0.0
    decreases i + j, 2
  {
    if i == 0 || j == 0 then 0.0
    else Max4(Diag(pr, i, j), G(pr, i, j), H(pr, i, j), 0.0)
  }

  /** The score of ending `(i, j)` with the two residues aligned. */
  function Diag(pr: Problem, i: int, j: int): real
    requires Scorable(pr) && 1 <= i <= |pr.s1| && 1 <= j <= |pr.s2|
    decreases i + j, 0
  {
    V(pr, i - 1, j - 1) + Sim(pr, i, j)
  }

  /** Whether the vertical gap into `(i, j)` extends the one into `(i - 1, j)`:
      only when that is strictly better than opening a new gap. */
  predicate ExtendsVertical(pr: Problem, i: int, j: int)
    requires Scorable(pr) && 1 <= i <= |pr.s1| && 1 <= j <= |pr.s2|
    decreases i + j, 0
  {
    i > 1 && G(pr, i - 1, j) - pr.sc.extend > V(pr, i - 1, j) - pr.sc.open
  }

  /** The best score of ending `(i, j)` in a vertical gap. */
  function G(pr: Problem, i: int, j: int): real
    requires Scorable(pr) && 1 <= i <= |pr.s1| && 1 <= j <= |pr.s2|
    decreases i + j, 1
  {
    if ExtendsVertical(pr, i, j) then G(pr, i - 1, j) - pr.sc.extend
    else V(pr, i - 1, j) - pr.sc.open
  }

  predicate ExtendsHorizontal(pr: Problem, i: int, j: int)
    requires Scorable(pr) && 1 <= i <= |pr.s1| && 1 <= j <= |pr.s2|
    decreases i + j, 0
  {
    j > 1 && H(pr, i, j - 1) - pr.sc.extend > V(pr, i, j - 1) - pr.sc.open
  }

  /** The best score of ending `(i, j)` in a horizontal gap. */
  function H(pr: Problem, i: int, j: int): real
    requires Scorable(pr) && 1 <= i <= |pr.s1| && 1 <= j <= |pr.s2|
    decreases i + j, 1
  {
    if ExtendsHorizontal(pr, i, j) then H(pr, i, j - 1) - pr.sc.extend
    else V(pr, i, j - 1) - pr.sc.open
  }

  /** The length of the vertical gap run ending at `(i, j)`; 1 wherever no run is
      extended, including row 0 and column 0. */
  function VGap(pr: Problem, i: int, j: int): int
    requires Scorable(pr) && InRange(pr, i, j)
    decreases i
  {
    if i == 0 || j == 0 then 1
    else if ExtendsVertical(pr, i, j) then VGap(pr, i - 1, j) + 1
    else 1
  }

  function HGap(pr: Problem, i: int, j: int): int
    requires Scorable(pr) && InRange(pr, i, j)
    decreases j
  {
    if i == 0 || j == 0 then 1
    else if ExtendsHorizontal(pr, i, j) then HGap(pr, i, j - 1) + 1
    else 1
  }

  datatype Direction = Stop | Diagonal | Up | Left

  /** The traceback direction: STOP on the borders and wherever the score is 0,
      else the first of diagonal, vertical gap, horizontal gap that attains it. */
  function Dir(pr: Problem, i: int, j: int): Direction
    requires Scorable(pr) && InRange(pr, i, j)
  {
    if i == 0 || j == 0 then Stop
    else
      var v := V(pr, i, j);
      if v == 0.0 then Stop
      else if v == Diag(pr, i, j) then Diagonal
      else if v == G(pr, i, j) then Up
      else Left
  }

  // ---------------------------------------------------------------------------
  // Properties of the recurrence

  /** A vertical gap run never reaches above row 1. */
  lemma {:induction false} VGapBound(pr: Problem, i: int, j: int)
    requires Scorable(pr) && InRange(pr, i, j)
    ensures 1 <= VGap(pr, i, j)
    ensures i >= 1 ==> VGap(pr, i, j) <= i
    decreases i
  {
    if i > 0 && j > 0 && ExtendsVertical(pr, i, j) {
      VGapBound(pr, i - 1, j);
    }
  }

  /** A horizontal gap run never reaches left of column 1. */
  lemma {:induction false} HGapBound(pr: Problem, i: int, j: int)
    requires Scorable(pr) && InRange(pr, i, j)
    ensures 1 <= HGap(pr, i, j)
    ensures j >= 1 ==> HGap(pr, i, j) <= j
    decreases j
  {
    if i > 0 && j > 0 && ExtendsHorizontal(pr, i, j) {
      HGapBound(pr, i, j - 1);
    }
  }

  /** A cell stops the traceback exactly when its score is 0. */
  lemma StopIffZero(pr: Problem, i: int, j: int)
    requires Scorable(pr) && InRange(pr, i, j)
    ensures Dir(pr, i, j) == Stop <==> V(pr, i, j) == 0.0
  {
  }

  /** A cell that does not stop attains its positive score through the move its
      direction names. */
  lemma DirAttains(pr: Problem, i: int, j: int)
    requires Scorable(pr) && InRange(pr, i, j)
    ensures Dir(pr, i, j) != Stop ==> 1 <= i && 1 <= j && V(pr, i, j) > 0.0
    ensures Dir(pr, i, j) == Diagonal ==> V(pr, i, j) == Diag(pr, i, j)
    ensures Dir(pr, i, j) == Up ==> V(pr, i, j) == G(pr, i, j)
    ensures Dir(pr, i, j) == Left ==> V(pr, i, j) == H(pr, i, j)
  {
  }
}

=== FILE: residues.dfy ===
/** Residues annotated with a coiled-coil prediction, and the protein sequences
    built from them (`ccaligner.Residue`, `ccaligner.Sequence`). */
module Residues {
  import opened Matrices

  /** One residue: its letter, its heptad register (0..6, or -1 when it is not
      confidently coiled), the coiled-coil probability, and the set of
      registers that are plausible for it. */
  datatype Residue = Residue(aa: Aa, register: int, ccProb: real, possible: set<int>)

  /** A protein: name, residues, and the cached largest coiled-coil probability. */
  datatype Sequence = Sequence(name: string, residues: seq<Residue>, maxProb: real)

  /** `new Sequence(name, residues)`: stores both and scans the residues for the
      largest probability, starting from 0. */
  method NewSequence(name: string, residues: seq<Residue>) returns (s: Sequence)
    ensures s.name == name && s.residues == residues
    ensures s.maxProb >= 0.0
    ensures forall k :: 0 <= k < |residues| ==> residues[k].ccProb <= s.maxProb
    ensures s.maxProb == 0.0 || exists k :: 0 <= k < |residues| && s.maxProb == residues[k].ccProb
  {
    var prob := 0.0;
    var i := 0;
    while i < |residues|
      invariant 0 <= i <= |residues|
      invariant prob >= 0.0
      invariant forall k :: 0 <= k < i ==> residues[k].ccProb <= prob
      invariant prob == 0.0 || exists k :: 0 <= k < i && prob == residues[k].ccProb
    {
      if residues[i].ccProb > prob {
        prob := residues[i].ccProb;
      }
      i := i + 1;
    }
    s := Sequence(name, residues, prob);
  }
}

=== FILE: result_iterator.dfy ===
/** `ccaligner.ResultListIterator`: reads a result file line by line and hands
    out one `ResultList` per query (per subject in the later recompute passes).
    Comment lines carry matrix headers and matrix declarations; a comment line
    or a change of name ends the current list, and the line or result that
    ended it is kept for the next call.

    The `BufferedReader` is the sequence `lines` with a read position, and
    `System.out` is the list `echoed` of the lines printed. `Commons.extractName`,
    `Residue.aa_to_code` and the `Matrix(query, subject, scores)` constructor are
    the parameters of `Settings`. */
module ResultListIterators {
  import opened Wrappers
  import opened Text
  import Matrices
  import opened MatrixLoader
  import opened AlignmentResults
  import opened ResultLists

  /** The constructor's arguments and the collaborators the reader calls. */
  datatype Settings = Settings(
    cutoff: real, pass: int,
    extractName: string -> Option<string>, aaToCode: char -> Matrices.Code, matrixId: (string, string) -> string)

  /** The reading state kept between calls: the input and its position, the
      cached line and result, the matrix loader, and the lines printed. */
  datatype Reader = Reader(
    lines: seq<string>, pos: nat, lineCache: Option<string>, arCache: Option<AlignmentResult>,
    loader: Option<seq<Coord>>, echoed: seq<string>)

  /** The exception `readNext` raises: a result line or a matrix line that does
      not parse. */
  datatype ReadError = BadResult(ParseError) | BadMatrix(LineError)

  /** The state after a call and what the call returned or raised. */
  datatype Outcome = Outcome(reader: Reader, group: Result<ResultList, ReadError>)

  /** The name results are grouped by: the query until pass 2, then the subject. */
  function GroupName(env: Settings, x: AlignmentResult): string {
    if env.pass < 2 then x.p1 else x.p2
  }

  /** Lines and cached items still to be consumed. */
  function Pending(rd: Reader): nat {
    (if rd.pos < |rd.lines| then |rd.lines| - rd.pos else 0) +
    (if rd.lineCache.Some? then 1 else 0) + (if rd.arCache.Some? then 1 else 0)
  }

  /** Nothing is left to read: `readLine` returns null and nothing is cached. */
  predicate Exhausted(rd: Reader) {
    rd.pos >= |rd.lines| && rd.lineCache.None? && rd.arCache.None?
  }

  /** The caches as `readNext` leaves them: at most one is set, and a cached
      result passed the bitscore filter when it was read. */
  predicate CacheOk(env: Settings, rd: Reader) {
    rd.arCache.Some? ==> rd.lineCache.None? && !Below(rd.arCache.value.bitscore, env.cutoff)
  }

  // ---------------------------------------------------------------------------
  // One pass through the loop of readNext

  /** What one pass through the loop does: return, go round again, or go on
      with an alignment result to place. */
  datatype Step =
    | Stop(outcome: Outcome)
    | Skip(reader: Reader, list: ResultList)
    | Take(reader: Reader, result: AlignmentResult)

  /** The top of the loop: the cached result if there is one, otherwise the
      cached line or the next input line, which is a comment, a result below the
      cutoff (skipped) or a result to place. */
  function Fetch(env: Settings, rd: Reader, rl: ResultList): (s: Step)
    ensures s.Skip? ==> Pending(s.reader) < Pending(rd) && s.reader.arCache.None? && s.list.results == rl.results
    ensures s.Take? ==> Pending(s.reader) < Pending(rd) && s.reader.arCache.None?
    ensures s.Take? && CacheOk(env, rd) ==> s.reader.lineCache.None? && !Below(s.result.bitscore, env.cutoff)
    ensures s.Stop? ==> s.outcome.reader.arCache.None?
    ensures s.Stop? && s.outcome.group.Success? ==>
      s.outcome.group.value.results == rl.results &&
      (rl.results == [] ==> Exhausted(s.outcome.reader)) &&
      (s.outcome.reader.lineCache.Some? ==> rl.results != [] && StartsWith(s.outcome.reader.lineCache.value, "#"))
  {
    if rd.arCache.Some? then Take(rd.(arCache := None), rd.arCache.value)
    else if rd.lineCache.Some? then Line(env, rd.(lineCache := None), rl, rd.lineCache.value)
    else if rd.pos < |rd.lines| then Line(env, rd.(pos := rd.pos + 1), rl, rd.lines[rd.pos])
    else Stop(Outcome(rd, Success(rl)))
  }

  /** The layout a matrix line is read with: the one built from the last
      "## query" header, or the built-in one when no header came first. */
  function Layout(env: Settings, rd: Reader): (cs: seq<Coord>)
    ensures rd.loader.Some? ==> cs == rd.loader.value
    ensures rd.loader.None? ==> IsDefaultLayout(cs, env.aaToCode)
  {
    if rd.loader.Some? then rd.loader.value
    else
      DefaultLayout(env.aaToCode);
      DefaultLoader(env.aaToCode).value
  }

  /** The handling of one line once it is read. */
  function Line(env: Settings, rd: Reader, rl: ResultList, line: string): (s: Step)
    requires rd.arCache.None? && rd.lineCache.None?
    ensures s.Skip? ==> Pending(s.reader) == Pending(rd) && s.reader.arCache.None? && s.list.results == rl.results
    ensures s.Take? ==> s.reader == rd && !Below(s.result.bitscore, env.cutoff)
    ensures s.Stop? ==> s.outcome.reader.arCache.None?
    ensures s.Stop? && s.outcome.group.Success? ==>
      s.outcome.group.value == rl && rl.results != [] &&
      s.outcome.reader.lineCache == Some(line) && StartsWith(line, "#")
    // A comment line ends a non-empty list and is kept for the next call.
    ensures StartsWith(line, "#") && Size(rl) > 0 ==>
      s.Stop? && s.outcome.group == Success(rl) && s.outcome.reader == rd.(lineCache := Some(line))
    // A header line before any result replaces the layout.
    ensures StartsWith(line, "#") && Size(rl) == 0 && StartsWith(line, "## query") ==>
      var h := ParseHeader(line, env.aaToCode);
      (h.Success? ==> s == Skip(rd.(loader := Some(h.value)), rl)) &&
      (h.Failure? ==> s == Stop(Outcome(rd, Failure(BadMatrix(h.error)))))
    // Any other comment line before any result is read as a matrix declaration.
    ensures StartsWith(line, "#") && Size(rl) == 0 && !StartsWith(line, "## query") ==>
      var cs := Layout(env, rd);
      var m := LoadFromLine(cs, line, env.matrixId);
      (m.Failure? ==> s == Stop(Outcome(rd.(loader := Some(cs)), Failure(BadMatrix(m.error))))) &&
      (m.Success? ==> s.Skip? && s.reader.loader == Some(cs) && s.reader.pos == rd.pos) &&
      (m.Success? && m.value.Some? ==>
        s.list == AddMatrix(rl, m.value.value.id, m.value.value) && s.reader.echoed == rd.echoed) &&
      (m == Success(None) ==>
        s.list == rl && s.reader.echoed == (if env.pass == -1 then rd.echoed + [line] else rd.echoed))
    // A result line is parsed; one below the cutoff is dropped.
    ensures !StartsWith(line, "#") ==>
      var p := Parse(line, env.extractName);
      (p.Failure? ==> s == Stop(Outcome(rd, Failure(BadResult(p.error))))) &&
      (p.Success? && Below(p.value.bitscore, env.cutoff) ==> s == Skip(rd, rl)) &&
      (p.Success? && !Below(p.value.bitscore, env.cutoff) ==> s == Take(rd, p.value))
  {
    if StartsWith(line, "#") then
      if Size(rl) > 0 then Stop(Outcome(rd.(lineCache := Some(line)), Success(rl)))
      else if StartsWith(line, "## query") then
        match ParseHeader(line, env.aaToCode)
        case Failure(e) => Stop(Outcome(rd, Failure(BadMatrix(e))))
        case Success(cs) => Skip(rd.(loader := Some(cs)), rl)
      else
        var cs := Layout(env, rd);
        var rd' := rd.(loader := Some(cs));
        match LoadFromLine(cs, line, env.matrixId)
        case Failure(e) => Stop(Outcome(rd', Failure(BadMatrix(e))))
        case Success(Some(m)) => Skip(rd', AddMatrix(rl, m.id, m))
        case Success(None) =>
          Skip(if env.pass == -1 then rd'.(echoed := rd'.echoed + [line]) else rd', rl)
    else
      match Parse(line, env.extractName)
      case Failure(e) => Stop(Outcome(rd, Failure(BadResult(e))))
      case Success(ar) => if Below(ar.bitscore, env.cutoff) then Skip(rd, rl) else Take(rd, ar)
  }

  // ---------------------------------------------------------------------------
  // readNext

  /** The loop of `readNext` from the list `rl` gathered so far and the name
      `last` of its results: a result of another name ends a non-empty list and
      is cached; any other result is added (a second one of the same key is
      dropped by the set). */
  function ReadNext(env: Settings, rd: Reader, rl: ResultList, last: Option<string>): (o: Outcome)
    requires Ordered(rl.results)
    ensures o.group.Success? ==> Ordered(o.group.value.results)
    decreases Pending(rd)
  {
    match Fetch(env, rd, rl)
    case Stop(o) => o
    case Skip(rd', rl') => ReadNext(env, rd', rl', last)
    case Take(rd', ar) =>
      var name := GroupName(env, ar);
      if last.Some? && name != last.value && Size(rl) > 0 then Outcome(rd'.(arCache := Some(ar)), Success(rl))
      else ReadNext(env, rd', Add(rl, ar).1, Some(name))
  }

  /** `readNext()`: a fresh list, no name yet. */
  function ReadGroup(env: Settings, rd: Reader): (o: Outcome)
    ensures o.group.Success? ==> Ordered(o.group.value.results)
  {
    ReadNext(env, rd, Empty(), None)
  }

  /** Every result in `s` has the grouping name `name`. */
  predicate AllNamed(env: Settings, s: seq<AlignmentResult>, name: string) {
    forall y :: y in s ==> GroupName(env, y) == name
  }

  /** No result in `s` fell below the cutoff. */
  predicate AboveCutoff(env: Settings, s: seq<AlignmentResult>) {
    forall y :: y in s ==> !Below(y.bitscore, env.cutoff)
  }

  /** What a list returned by `readNext` looks like: above the cutoff, all of
      one name, empty only at the end of the input, and when something was
      cached for the next call, that it is what ended the list: a result of
      another name or a comment line. */
  predicate WellSplit(env: Settings, o: Outcome) {
    o.group.Success? ==>
      var g := o.group.value.results;
      AboveCutoff(env, g) &&
      (g != [] ==> AllNamed(env, g, GroupName(env, g[0]))) &&
      (g == [] ==> Exhausted(o.reader)) &&
      (o.reader.arCache.Some? ==> g != [] && GroupName(env, o.reader.arCache.value) != GroupName(env, g[0])) &&
      (o.reader.lineCache.Some? ==> g != [] && StartsWith(o.reader.lineCache.value, "#"))
  }

  /** The loop keeps its list of one name and above the cutoff, and returns a
      well split list. */
  lemma {:induction false} ReadNextSplits(env: Settings, rd: Reader, rl: ResultList, last: Option<string>)
    requires Ordered(rl.results) && CacheOk(env, rd)
    requires last.None? ==> rl.results == []
    requires last.Some? ==> rl.results != [] && AllNamed(env, rl.results, last.value)
    requires AboveCutoff(env, rl.results)
    ensures WellSplit(env, ReadNext(env, rd, rl, last))
    ensures CacheOk(env, ReadNext(env, rd, rl, last).reader)
    decreases Pending(rd)
  {
    var o := ReadNext(env, rd, rl, last);
    match Fetch(env, rd, rl)
    case Stop(o') =>
      assert o == o';
      if o.group.Success? && rl.results != [] {
        assert rl.results[0] in rl.results;
      }
    case Skip(rd', rl') =>
      ReadNextSplits(env, rd', rl', last);
    case Take(rd', ar) =>
      var name := GroupName(env, ar);
      if last.Some? && name != last.value && Size(rl) > 0 {
        assert rl.results[0] in rl.results;
      } else {
        var rl' := Add(rl, ar).1;
        AddMembers(rl, ar);
        AddSize(rl, ar);
        ReadNextSplits(env, rd', rl', Some(name));
      }
  }

  /** The list `readNext` returns is well split. */
  lemma ReadGroupSplits(env: Settings, rd: Reader)
    requires CacheOk(env, rd)
    ensures WellSplit(env, ReadGroup(env, rd)) && CacheOk(env, ReadGroup(env, rd).reader)
  {
    ReadNextSplits(env, rd, Empty(), None);
  }

  /** The results the loop takes, from the cache or the input, in the order it
      takes them, up to and including the one of another name that ends the list. */
  ghost function Taken(env: Settings, rd: Reader, rl: ResultList, last: Option<string>): seq<AlignmentResult>
    requires Ordered(rl.results)
    decreases Pending(rd)
  {
    match Fetch(env, rd, rl)
    case Stop(_) => []
    case Skip(rd', rl') => Taken(env, rd', rl', last)
    case Take(rd', ar) =>
      var name := GroupName(env, ar);
      if last.Some? && name != last.value && Size(rl) > 0 then [ar]
      else [ar] + Taken(env, rd', Add(rl, ar).1, Some(name))
  }

  /** No result is lost and none is invented: the returned list keeps the list
      it started from, holds the key of every result taken except the one left in
      the result cache, and holds nothing else. */
  lemma {:induction false} ReadNextKeeps(env: Settings, rd: Reader, rl: ResultList, last: Option<string>)
    requires Ordered(rl.results)
    ensures var o := ReadNext(env, rd, rl, last);
      var taken := Taken(env, rd, rl, last);
      o.group.Success? ==>
        (forall y :: y in rl.results ==> y in o.group.value.results) &&
        (forall x :: x in taken ==> HasKey(o.group.value.results, x) || o.reader.arCache == Some(x)) &&
        (forall y :: y in o.group.value.results ==> y in rl.results || y in taken)
    decreases Pending(rd)
  {
    match Fetch(env, rd, rl)
    case Stop(_) =>
    case Skip(rd', rl') =>
      ReadNextKeeps(env, rd', rl', last);
    case Take(rd', ar) =>
      var name := GroupName(env, ar);
      if !(last.Some? && name != last.value && Size(rl) > 0) {
        var rl' := Add(rl, ar).1;
        var o := ReadNext(env, rd', rl', Some(name));
        var rest := Taken(env, rd', rl', Some(name));
        assert Taken(env, rd, rl, last) == [ar] + rest;
        AddKeeps(rl, ar);
        AddMembers(rl, ar);
        ReadNextKeeps(env, rd', rl', Some(name));
        if o.group.Success? {
          var g := o.group.value.results;
          HasKeyWithin(rl'.results, g, ar);
          forall x | x in [ar] + rest
            ensures HasKey(g, x) || o.reader.arCache == Some(x)
          {
            if x != ar {
              assert x in rest;
            }
          }
        }
      }
  }

  /** A result left in the cache opens the next list: the next call of
      `readNext` takes it first and keeps it, unless that call fails. */
  lemma CachedResultFirst(env: Settings, rd: Reader)
    requires rd.arCache.Some?
    ensures Taken(env, rd, Empty(), None) != [] && Taken(env, rd, Empty(), None)[0] == rd.arCache.value
    ensures ReadGroup(env, rd).group.Success? ==> rd.arCache.value in ReadGroup(env, rd).group.value.results
  {
    var x := rd.arCache.value;
    var rd' := rd.(arCache := None);
    var rl' := Add(Empty(), x).1;
    AddSize(Empty(), x);
    ReadNextKeeps(env, rd', rl', Some(GroupName(env, x)));
  }

  // ---------------------------------------------------------------------------
  // hasNext and next

  /** The iterator: the reading state, the list read ahead when `next_rl_valid`
      holds, and the last exception caught. */
  datatype Iterator = Iterator(reader: Reader, ahead: Option<ResultList>, exception: Option<ReadError>)

  /** `new ResultListIterator(br, bitscore_cutoff, recompute_pass)` over `lines`. */
  function Start(lines: seq<string>): (it: Iterator)
    ensures it.reader.pos == 0 && it.reader.lines == lines && it.ahead.None?
  {
    Iterator(Reader(lines, 0, None, None, None, []), None, None)
  }

  /** What holds between calls: the cache is above the cutoff and a list read
      ahead is ordered and well split (an empty one only at the end). */
  predicate Consistent(env: Settings, it: Iterator) {
    CacheOk(env, it.reader) &&
    (it.ahead.Some? ==> Ordered(it.ahead.value.results) && WellSplit(env, Outcome(it.reader, Success(it.ahead.value))))
  }

  lemma StartConsistent(env: Settings, lines: seq<string>)
    ensures Consistent(env, Start(lines))
  {
  }

  /** `hasNext()`: reads ahead unless a list is already waiting; an exception
      is stored and answered with false, and so is an empty list. */
  function HasNext(env: Settings, it: Iterator): (r: (bool, Iterator))
    requires Consistent(env, it)
    ensures Consistent(env, r.1)
    ensures r.0 <==> r.1.ahead.Some? && Size(r.1.ahead.value) > 0
    ensures it.ahead.Some? ==> r.1 == it
    ensures r.1.ahead.None? ==> r.1.exception.Some?
  {
    if it.ahead.Some? then (Size(it.ahead.value) > 0, it)
    else
      var o := ReadGroup(env, it.reader);
      ReadGroupSplits(env, it.reader);
      match o.group
      case Failure(e) => (false, it.(reader := o.reader, exception := Some(e)))
      case Success(g) => (Size(g) > 0, it.(reader := o.reader, ahead := Some(g)))
  }

  /** `next()`: the list read ahead, or null (`None`) when there is none; the
      list is handed out once. On a false answer Java leaves `next_rl_valid`
      set while the model clears the list read ahead. The two cannot be told
      apart: an empty list is read only when the input is used up, and reading
      again then returns an empty list at once (`ExhaustedEmpty`). */
  function Next(env: Settings, it: Iterator): (r: (Option<ResultList>, Iterator))
    requires Consistent(env, it)
    ensures Consistent(env, r.1) && r.1.ahead.None?
    ensures r.0.Some? <==> HasNext(env, it).0
    ensures r.0.Some? ==> r.0 == HasNext(env, it).1.ahead
  {
    var (more, it') := HasNext(env, it);
    if !more then (None, it'.(ahead := None)) else (it'.ahead, it'.(ahead := None))
  }

  /** Asking again after a true answer reads nothing and answers true again. */
  lemma HasNextStable(env: Settings, it: Iterator)
    requires Consistent(env, it) && HasNext(env, it).0
    ensures HasNext(env, HasNext(env, it).1) == HasNext(env, it)
  {
  }

  /** Every list `next` hands out is non-empty, ordered, of one name and above
      the cutoff. */
  lemma NextGroup(env: Settings, it: Iterator)
    requires Consistent(env, it) && Next(env, it).0.Some?
    ensures var g := Next(env, it).0.value.results;
      g != [] && Ordered(g) && AboveCutoff(env, g) && AllNamed(env, g, GroupName(env, g[0]))
  {
  }

  /** A false answer that left an (empty) list read ahead, rather than an
      exception, means the input is used up, and from then on the answer stays
      false. */
  lemma HasNextFalseAtEnd(env: Settings, it: Iterator)
    requires Consistent(env, it)
    requires !HasNext(env, it).0 && HasNext(env, it).1.ahead.Some?
    ensures Exhausted(HasNext(env, it).1.reader)
    ensures !HasNext(env, HasNext(env, it).1).0
  {
  }

  /** With nothing left to read the loop returns an empty list at once. */
  lemma ExhaustedEmpty(env: Settings, rd: Reader)
    requires Exhausted(rd)
    ensures ReadGroup(env, rd) == Outcome(rd, Success(Empty()))
  {
  }
}

=== FILE: result_list.dfy ===
/** `ccaligner.ResultList`: the hits of one query kept in ranking order without
    two results of the same key, together with the matrices declared for the
    query's pairs. The `TreeSet` is a sequence strictly increasing in
    `Compare`; the `HashMap` is a map. */
module ResultLists {
  import opened Wrappers
  import opened Matrices
  import opened AlignmentResults

  /** Each result ranks strictly before the next, hence (`OrderedBefore`) before
      every later one, so no two results share a key. */
  predicate Ordered(s: seq<AlignmentResult>) {
    forall i :: 0 < i < |s| ==> Compare(s[i - 1], s[i]) < 0
  }

  lemma {:induction false} OrderedBefore(s: seq<AlignmentResult>, i: nat, j: nat)
    requires Ordered(s) && i < j < |s|
    ensures Compare(s[i], s[j]) < 0
    decreases j - i
  {
    if i + 1 < j {
      OrderedBefore(s, i + 1, j);
      CompareTransitive(s[i], s[i + 1], s[j]);
    }
  }

  datatype ResultList = ResultList(results: seq<AlignmentResult>, matrices: map<string, Matrix>)

  /** `new ResultList()`. */
  function Empty(): (rl: ResultList)
    ensures Ordered(rl.results) && Size(rl) == 0 && rl.matrices == map[]
  {
    ResultList([], map[])
  }

  /** `size()`. */
  function Size(rl: ResultList): nat {
    |rl.results|
  }

  // ---------------------------------------------------------------------------
  // add

  /** Some result of `s` has the key of `x`. */
  predicate HasKey(s: seq<AlignmentResult>, x: AlignmentResult) {
    exists k :: 0 <= k < |s| && SameKey(s[k], x)
  }

  /** The insertion of `TreeSet.add`: walk the ordered results, keep the one
      already holding the key of `x`, or put `x` before the first larger one. */
  function Insert(s: seq<AlignmentResult>, x: AlignmentResult): seq<AlignmentResult> {
    if s == [] then [x]
    else
      var c := Compare(x, s[0]);
      if c == 0 then s
      else if c < 0 then [x] + s
      else [s[0]] + Insert(s[1..], x)
  }

  /** Inserting keeps the order; it changes nothing when the key is taken and
      otherwise adds exactly `x`. */
  lemma {:induction false} InsertSpec(s: seq<AlignmentResult>, x: AlignmentResult)
    requires Ordered(s)
    ensures Ordered(Insert(s, x))
    ensures HasKey(s, x) ==> Insert(s, x) == s
    ensures !HasKey(s, x) ==> multiset(Insert(s, x)) == multiset(s) + multiset{x}
  {
    if s != [] {
      var c := Compare(x, s[0]);
      CompareZero(x, s[0]);
      if c == 0 {
        assert SameKey(s[0], x);
      } else if c < 0 {
        InsertBefore(s, x);
      } else {
        OrderedTail(s);
        InsertSpec(s[1..], x);
        InsertAfter(s, x);
      }
    }
  }

  lemma OrderedTail(s: seq<AlignmentResult>)
    requires Ordered(s) && s != []
    ensures Ordered(s[1..])
  {
    var t := s[1..];
    forall i | 0 < i < |t| ensures Compare(t[i - 1], t[i]) < 0 {
      assert t[i - 1] == s[i] && t[i] == s[i + 1];
    }
  }

  /** The step past a first result that ranks before `x`. */
  lemma InsertAfter(s: seq<AlignmentResult>, x: AlignmentResult)
    requires Ordered(s) && s != [] && Compare(x, s[0]) > 0
    requires Ordered(Insert(s[1..], x))
    requires HasKey(s[1..], x) ==> Insert(s[1..], x) == s[1..]
    requires !HasKey(s[1..], x) ==> multiset(Insert(s[1..], x)) == multiset(s[1..]) + multiset{x}
    ensures Ordered(Insert(s, x))
    ensures HasKey(s, x) ==> Insert(s, x) == s
    ensures !HasKey(s, x) ==> multiset(Insert(s, x)) == multiset(s) + multiset{x}
  {
    var t := s[1..];
    var it := Insert(t, x);
    assert Insert(s, x) == [s[0]] + it;
    InsertHead(t, x);
    CompareAntisymmetric(x, s[0]);
    OrderedCons(s[0], it);
    CompareZero(x, s[0]);
    HasKeyTail(s, x);
    ConsContents(s, it, x);
  }

  /** The first result after an insertion is `x` or the old first one. */
  lemma InsertHead(t: seq<AlignmentResult>, x: AlignmentResult)
    ensures Insert(t, x) != []
    ensures Insert(t, x)[0] == x || (t != [] && Insert(t, x)[0] == t[0])
  {
  }

  lemma ConsContents(s: seq<AlignmentResult>, it: seq<AlignmentResult>, x: AlignmentResult)
    requires s != []
    ensures it == s[1..] ==> [s[0]] + it == s
    ensures multiset(it) == multiset(s[1..]) + multiset{x} ==>
      multiset([s[0]] + it) == multiset(s) + multiset{x}
  {
    assert s == [s[0]] + s[1..];
  }

  lemma HasKeyTail(s: seq<AlignmentResult>, x: AlignmentResult)
    requires s != [] && !SameKey(s[0], x)
    ensures HasKey(s, x) <==> HasKey(s[1..], x)
  {
    var t := s[1..];
    if HasKey(s, x) {
      var k :| 0 <= k < |s| && SameKey(s[k], x);
      assert t[k - 1] == s[k];
    }
    if HasKey(t, x) {
      var k :| 0 <= k < |t| && SameKey(t[k], x);
      assert s[k + 1] == t[k];
    }
  }

  lemma OrderedCons(a: AlignmentResult, s: seq<AlignmentResult>)
    requires Ordered(s) && s != [] && Compare(a, s[0]) < 0
    ensures Ordered([a] + s)
  {
    var r := [a] + s;
    forall i | 0 < i < |r| ensures Compare(r[i - 1], r[i]) < 0 {
      assert r[i] == s[i - 1];
      if i > 1 {
        assert r[i - 1] == s[i - 2];
      }
    }
  }

  /** `x` ranks before the first result, hence before all of them. */
  lemma InsertBefore(s: seq<AlignmentResult>, x: AlignmentResult)
    requires Ordered(s) && s != [] && Compare(x, s[0]) < 0
    ensures Ordered([x] + s) && !HasKey(s, x)
  {
    forall k | 0 <= k < |s| ensures !SameKey(s[k], x) {
      if k > 0 {
        OrderedBefore(s, 0, k);
        CompareTransitive(x, s[0], s[k]);
      }
      CompareZero(x, s[k]);
    }
    OrderedCons(x, s);
  }

  /** `add(r)`: true when no result of the same key is present and `r` was
      added; otherwise the list stays as it was. The matrices are untouched. */
  function Add(rl: ResultList, x: AlignmentResult): (r: (bool, ResultList))
    requires Ordered(rl.results)
    ensures Ordered(r.1.results) && r.1.matrices == rl.matrices
    ensures r.0 <==> !HasKey(rl.results, x)
    ensures r.0 ==> multiset(r.1.results) == multiset(rl.results) + multiset{x}
    ensures !r.0 ==> r.1 == rl
  {
    InsertSpec(rl.results, x);
    var s := Insert(rl.results, x);
    (!HasKey(rl.results, x), ResultList(s, rl.matrices))
  }

  /** After `add(x)` the list holds what it held, and possibly `x`. */
  lemma AddMembers(rl: ResultList, x: AlignmentResult)
    requires Ordered(rl.results)
    ensures forall y :: y in Add(rl, x).1.results ==> y in rl.results || y == x
  {
    var r := Add(rl, x).1;
    forall y | y in r.results ensures y in rl.results || y == x {
      assert y in multiset(r.results);
    }
  }

  /** A successful `add` grows the size by one, a refused one leaves it, and the
      new result is then in the list. */
  lemma AddSize(rl: ResultList, x: AlignmentResult)
    requires Ordered(rl.results)
    ensures var (added, r) := Add(rl, x);
      Size(r) == Size(rl) + (if added then 1 else 0) &&
      (added ==> x in r.results)
  {
    var (added, r) := Add(rl, x);
    if added {
      assert |multiset(r.results)| == |multiset(rl.results)| + 1;
      assert x in multiset(r.results);
    }
  }

  /** Nothing is lost by `add`: every old result stays, and afterwards the list
      holds the key of `x`, either as `x` itself or as the result that refused it. */
  lemma AddKeeps(rl: ResultList, x: AlignmentResult)
    requires Ordered(rl.results)
    ensures forall y :: y in rl.results ==> y in Add(rl, x).1.results
    ensures HasKey(Add(rl, x).1.results, x)
  {
    var (added, r) := Add(rl, x);
    if added {
      forall y | y in rl.results ensures y in r.results {
        assert y in multiset(rl.results);
        assert y in multiset(r.results);
      }
      assert x in multiset(r.results);
      var k :| 0 <= k < |r.results| && r.results[k] == x;
      assert SameKey(r.results[k], x);
    }
  }

  /** A key held by a list is held by any list containing its results. */
  lemma HasKeyWithin(s: seq<AlignmentResult>, t: seq<AlignmentResult>, x: AlignmentResult)
    requires HasKey(s, x) && forall y :: y in s ==> y in t
    ensures HasKey(t, x)
  {
    var k :| 0 <= k < |s| && SameKey(s[k], x);
    assert s[k] in t;
    var j :| 0 <= j < |t| && t[j] == s[k];
    assert SameKey(t[j], x);
  }

  /** Adding a result whose key is present is refused even when the result
      differs in its other fields: the set keeps the first one. */
  lemma AddSameKeyRefused(rl: ResultList, x: AlignmentResult, y: AlignmentResult)
    requires Ordered(rl.results) && SameKey(x, y)
    ensures var r := Add(rl, x).1; Add(r, y) == (false, r)
  {
    var r := Add(rl, x).1;
    if Add(rl, x).0 {
      assert x in multiset(r.results);
      var k :| 0 <= k < |r.results| && r.results[k] == x;
      assert SameKey(r.results[k], y);
    } else {
      var k :| 0 <= k < |rl.results| && SameKey(rl.results[k], x);
      assert SameKey(r.results[k], y);
    }
  }

  // ---------------------------------------------------------------------------
  // addMatrix, clear, getMatrix

  /** `addMatrix(name, m)`: the map entry for `name` is set, replacing any. */
  function AddMatrix(rl: ResultList, name: string, m: Matrix): (r: ResultList)
    ensures r.results == rl.results
    ensures name in r.matrices && r.matrices[name] == m
    ensures forall n :: n in rl.matrices && n != name ==> n in r.matrices && r.matrices[n] == rl.matrices[n]
    ensures r.matrices.Keys == rl.matrices.Keys + {name}
  {
    ResultList(rl.results, rl.matrices[name := m])
  }

  /** `clear()`: the results go, the matrices stay. */
  function Clear(rl: ResultList): (r: ResultList)
    ensures Ordered(r.results) && Size(r) == 0
    ensures r.matrices == rl.matrices
  {
    ResultList([], rl.matrices)
  }

  /** The `prefix + "-"` of an adjusted key. Java tests `prefix != ""` by
      reference, so only the interned empty literal (`interned`) is left alone;
      any other empty string gets the dash as well. */
  function PrefixPart(prefix: string, interned: bool): string {
    if prefix == "" && interned then "" else prefix + "-"
  }

  /** The key of the composition-adjusted matrix for a pair. */
  function AdjustedKey(prefix: string, interned: bool, name1: string, name2: string): string {
    var p := PrefixPart(prefix, interned);
    p + name1 + "-" + p + name2
  }

  /** The key of the pair's own matrix. */
  function PairKey(name1: string, name2: string): string {
    name1 + "-" + name2
  }

  /** `getMatrix(prefix, name1, name2, blosum, blosum_matrix, cc_comp_adj)`: with
      `blosum_matrix` always the given matrix; otherwise the adjusted matrix when
      `cc_comp_adj` asks for it and one is stored, then the pair's matrix, and
      the given matrix only when neither is stored. */
  function GetMatrix(rl: ResultList, prefix: string, interned: bool, name1: string, name2: string,
                     blosum: Matrix, blosumMatrix: bool, ccCompAdj: bool): (m: Matrix)
    ensures m == blosum || m in rl.matrices.Values
    ensures blosumMatrix ==> m == blosum
    ensures var a := AdjustedKey(prefix, interned, name1, name2);
      !blosumMatrix && ccCompAdj && a in rl.matrices ==> m == rl.matrices[a]
    ensures var a, k := AdjustedKey(prefix, interned, name1, name2), PairKey(name1, name2);
      (!blosumMatrix && k in rl.matrices && (!ccCompAdj || a !in rl.matrices)) ==> m == rl.matrices[k]
    ensures var a, k := AdjustedKey(prefix, interned, name1, name2), PairKey(name1, name2);
      m != blosum ==> (!blosumMatrix && ((ccCompAdj && a in rl.matrices) || k in rl.matrices))
  {
    if blosumMatrix then blosum
    else
      var adjusted := AdjustedKey(prefix, interned, name1, name2);
      var plain := PairKey(name1, name2);
      if ccCompAdj && adjusted in rl.matrices then rl.matrices[adjusted]
      else if plain in rl.matrices then rl.matrices[plain]
      else blosum
  }

  /** A matrix stored under a pair's key is what `getMatrix` hands out for the
      pair when no adjustment is asked for. */
  lemma AddMatrixGet(rl: ResultList, name1: string, name2: string, m: Matrix,
                     prefix: string, interned: bool, blosum: Matrix)
    ensures GetMatrix(AddMatrix(rl, PairKey(name1, name2), m), prefix, interned, name1, name2, blosum, false, false) == m
  {
  }

  /** With a non-empty prefix the adjusted key is `prefix-name1-prefix-name2`,
      whatever the reference test decides. */
  lemma AdjustedKeyOfPrefix(prefix: string, interned: bool, name1: string, name2: string)
    requires prefix != ""
    ensures AdjustedKey(prefix, interned, name1, name2) == prefix + "-" + name1 + "-" + prefix + "-" + name2
  {
  }

  /** With the interned empty prefix the adjusted key is the pair's key, so
      asking for the adjusted matrix changes nothing. */
  lemma EmptyPrefixUnadjusted(rl: ResultList, name1: string, name2: string, blosum: Matrix, blosumMatrix: bool)
    ensures GetMatrix(rl, "", true, name1, name2, blosum, blosumMatrix, true) ==
            GetMatrix(rl, "", true, name1, name2, blosum, blosumMatrix, false)
  {
    assert AdjustedKey("", true, name1, name2) == PairKey(name1, name2);
  }

  /** Clearing the results keeps every matrix lookup. */
  lemma ClearKeepsMatrices(rl: ResultList, prefix: string, interned: bool, name1: string, name2: string,
                           blosum: Matrix, blosumMatrix: bool, ccCompAdj: bool)
    ensures GetMatrix(Clear(rl), prefix, interned, name1, name2, blosum, blosumMatrix, ccCompAdj) ==
            GetMatrix(rl, prefix, interned, name1, name2, blosum, blosumMatrix, ccCompAdj)
  {
  }

  // ---------------------------------------------------------------------------
  // removeFromTop

  /** `!isRecomputed()` for a result whose method is set. */
  predicate IsStale(x: AlignmentResult) {
    x.tag != Some(Recomputed)
  }

  /** The stale results of `s`, in order. */
  function Stale(s: seq<AlignmentResult>): (r: seq<AlignmentResult>)
  {
    if s == [] then []
    else Stale(s[..|s| - 1]) + (if IsStale(s[|s| - 1]) then [s[|s| - 1]] else [])
  }

  /** The recomputed results of `s`, in order. */
  function Fresh(s: seq<AlignmentResult>): (r: seq<AlignmentResult>)
  {
    if s == [] then []
    else Fresh(s[..|s| - 1]) + (if IsStale(s[|s| - 1]) then [] else [s[|s| - 1]])
  }

  /** `removeAll(l)`: the results of `s` not in `l`, in order. */
  function Without(s: seq<AlignmentResult>, l: seq<AlignmentResult>): (r: seq<AlignmentResult>)
  {
    if s == [] then []
    else Without(s[..|s| - 1], l) + (if s[|s| - 1] in l then [] else [s[|s| - 1]])
  }

  /** How many results the loop of `removeFromTop(toCheck)` looks at: it stops
      after the `toCheck`-th, but only after looking at one, so a bound of 0
      still examines the first result. */
  function Examined(n: nat, toCheck: int): (k: nat)
    ensures k <= n
    ensures n > 0 ==> k >= 1
  {
    if n == 0 then 0 else if toCheck <= 1 then 1 else if toCheck < n then toCheck else n
  }

  /** The exceptions of `removeFromTop`: a negative bound is the
      IllegalArgumentException of `new ArrayList(to_check)`, and an error result
      among the examined ones the NullPointerException of `isRecomputed()`. */
  datatype RemoveError = NegativeCapacity | NullMethod

  datatype Removal = Removal(removed: seq<AlignmentResult>, rest: ResultList)

  /** `removeFromTop(toCheck)`: the results not recomputed by this aligner among
      the first `Examined` ones are taken out, in order; the recomputed ones
      there and everything after stay. */
  method RemoveFromTop(rl: ResultList, toCheck: int) returns (r: Result<Removal, RemoveError>)
    requires Ordered(rl.results)
    ensures toCheck < 0 ==> r == Failure(NegativeCapacity)
    ensures var n := Examined(|rl.results|, toCheck);
      toCheck >= 0 ==> (r.Failure? <==> exists k :: 0 <= k < n && rl.results[k].tag.None?)
    ensures var n := Examined(|rl.results|, toCheck);
      r.Success? ==>
        r.value.removed == Stale(rl.results[..n]) &&
        r.value.rest.results == Fresh(rl.results[..n]) + rl.results[n..] &&
        r.value.rest.matrices == rl.matrices
  {
    if toCheck < 0 {
      return Failure(NegativeCapacity);
    }
    var s := rl.results;
    ghost var n := Examined(|s|, toCheck);
    var l: seq<AlignmentResult> := [];
    var checked := 0;
    var stop := false;
    while checked < |s| && !stop
      invariant 0 <= checked <= n
      invariant stop ==> checked == n
      invariant !stop && checked < |s| ==> checked < n
      invariant l == Stale(s[..checked])
      invariant forall k :: 0 <= k < checked ==> s[k].tag.Some?
    {
      var x := s[checked];
      match IsRecomputed(x)
      case None =>
        return Failure(NullMethod);
      case Some(recomputed) =>
        if !recomputed {
          l := l + [x];
        }
      assert s[..checked + 1][..checked] == s[..checked];
      checked := checked + 1;
      if checked >= toCheck {
        stop := true;
      }
    }
    assert checked == n;
    WithoutTop(s, n);
    return Success(Removal(l, ResultList(Without(s, l), rl.matrices)));
  }

  /** Removing the stale results of the top `n` leaves the recomputed ones of
      the top followed by the rest, as the results are pairwise distinct. */
  lemma WithoutTop(s: seq<AlignmentResult>, n: nat)
    requires Ordered(s) && n <= |s|
    ensures Without(s, Stale(s[..n])) == Fresh(s[..n]) + s[n..]
  {
    TopRestDistinct(s, n);
    assert s == s[..n] + s[n..];
    WithoutStaleTop(s, s[..n], s[n..]);
  }

  /** The same for any split of `s` whose two parts share no result. */
  lemma WithoutStaleTop(s: seq<AlignmentResult>, top: seq<AlignmentResult>, rest: seq<AlignmentResult>)
    requires s == top + rest
    requires forall y :: y in rest ==> y !in top
    ensures Without(s, Stale(top)) == Fresh(top) + rest
  {
    var l := Stale(top);
    StaleMembers(top);
    WithoutStale(top, l);
    WithoutNone(rest, l);
    WithoutConcat(top, rest, l);
  }

  lemma TopRestDistinct(s: seq<AlignmentResult>, n: nat)
    requires Ordered(s) && n <= |s|
    ensures forall y :: y in s[n..] ==> y !in s[..n]
  {
    forall y | y in s[n..] ensures y !in s[..n] {
      TopRestDisjoint(s, n, y);
    }
  }

  /** No result is both among the first `n` and after them. */
  lemma TopRestDisjoint(s: seq<AlignmentResult>, n: nat, y: AlignmentResult)
    requires Ordered(s) && n <= |s| && y in s[n..]
    ensures y !in s[..n]
  {
    var j :| 0 <= j < |s[n..]| && s[n..][j] == y;
    if y in s[..n] {
      var i :| 0 <= i < |s[..n]| && s[..n][i] == y;
      OrderedBefore(s, i, n + j);
      CompareZero(y, y);
    }
  }

  lemma {:induction false} StaleMembers(s: seq<AlignmentResult>)
    ensures forall y :: y in Stale(s) <==> y in s && IsStale(y)
  {
    if s != [] {
      var u := s[..|s| - 1];
      StaleMembers(u);
      assert s == u + [s[|s| - 1]];
    }
  }

  lemma {:induction false} FreshMembers(s: seq<AlignmentResult>)
    ensures forall y :: y in Fresh(s) <==> y in s && !IsStale(y)
  {
    if s != [] {
      var u := s[..|s| - 1];
      FreshMembers(u);
      assert s == u + [s[|s| - 1]];
    }
  }

  lemma {:induction false} WithoutMembers(s: seq<AlignmentResult>, l: seq<AlignmentResult>)
    ensures forall y :: y in Without(s, l) ==> y in s
  {
    if s != [] {
      var u := s[..|s| - 1];
      WithoutMembers(u, l);
      assert s == u + [s[|s| - 1]];
    }
  }

  lemma {:induction false} WithoutConcat(a: seq<AlignmentResult>, b: seq<AlignmentResult>, l: seq<AlignmentResult>)
    ensures Without(a + b, l) == Without(a, l) + Without(b, l)
    decreases |b|
  {
    if b == [] {
      assert a + b == a;
    } else {
      var b' := b[..|b| - 1];
      assert (a + b)[..|a + b| - 1] == a + b';
      WithoutConcat(a, b', l);
    }
  }

  lemma {:induction false} WithoutNone(b: seq<AlignmentResult>, l: seq<AlignmentResult>)
    requires forall y :: y in b ==> y !in l
    ensures Without(b, l) == b
  {
    if b != [] {
      var u := b[..|b| - 1];
      assert b == u + [b[|b| - 1]];
      WithoutNone(u, l);
    }
  }

  /** Taking out a list holding exactly the stale results of `t` leaves its
      recomputed ones. */
  lemma {:induction false} WithoutStale(t: seq<AlignmentResult>, l: seq<AlignmentResult>)
    requires forall y :: y in l ==> IsStale(y)
    requires forall y :: y in t && IsStale(y) ==> y in l
    ensures Without(t, l) == Fresh(t)
  {
    if t != [] {
      var u := t[..|t| - 1];
      assert t == u + [t[|t| - 1]];
      WithoutStale(u, l);
    }
  }

  /** `removeFromTop` loses no result and keeps the rest ordered: what it returns
      and what stays make up the list it started from, what it returns is never
      a recomputed result, and the results past the examined ones are untouched. */
  lemma RemovalConserves(s: seq<AlignmentResult>, n: nat)
    requires Ordered(s) && n <= |s|
    ensures multiset(Stale(s[..n])) + multiset(Fresh(s[..n]) + s[n..]) == multiset(s)
    ensures Ordered(Fresh(s[..n]) + s[n..])
    ensures forall y :: y in Stale(s[..n]) ==> y in s && !(y.tag == Some(Recomputed))
  {
    RemovalMultiset(s, n);
    WithoutTop(s, n);
    OrderedSub(s, Stale(s[..n]));
    StaleMembers(s[..n]);
  }

  lemma RemovalMultiset(s: seq<AlignmentResult>, n: nat)
    requires n <= |s|
    ensures multiset(Stale(s[..n])) + multiset(Fresh(s[..n]) + s[n..]) == multiset(s)
  {
    SplitConserves(s[..n]);
    assert s == s[..n] + s[n..];
  }

  lemma {:induction false} SplitConserves(t: seq<AlignmentResult>)
    ensures multiset(Stale(t)) + multiset(Fresh(t)) == multiset(t)
  {
    if t != [] {
      var u, z := t[..|t| - 1], t[|t| - 1];
      SplitConserves(u);
      assert t == u + [z];
      assert multiset(t) == multiset(u) + multiset{z};
      if IsStale(z) {
        assert Stale(t) == Stale(u) + [z] && Fresh(t) == Fresh(u);
        assert multiset(Stale(t)) == multiset(Stale(u)) + multiset{z};
      } else {
        assert Stale(t) == Stale(u) && Fresh(t) == Fresh(u) + [z];
        assert multiset(Fresh(t)) == multiset(Fresh(u)) + multiset{z};
      }
    }
  }

  /** Removing results from an ordered list keeps it ordered. */
  lemma {:induction false} OrderedSub(s: seq<AlignmentResult>, l: seq<AlignmentResult>)
    requires Ordered(s)
    ensures Ordered(Without(s, l))
  {
    if s != [] {
      var u := s[..|s| - 1];
      assert Ordered(u) by {
        forall i | 0 < i < |u| ensures Compare(u[i - 1], u[i]) < 0 {
          assert u[i - 1] == s[i - 1] && u[i] == s[i];
        }
      }
      OrderedSub(u, l);
      var w := Without(u, l);
      var last := s[|s| - 1];
      if last !in l && w != [] {
        WithoutMembers(u, l);
        assert w[|w| - 1] in u;
        var i :| 0 <= i < |u| && u[i] == w[|w| - 1];
        OrderedBefore(s, i, |s| - 1);
        OrderedSnoc(w, last);
      }
    }
  }

  lemma OrderedSnoc(s: seq<AlignmentResult>, a: AlignmentResult)
    requires Ordered(s) && s != [] && Compare(s[|s| - 1], a) < 0
    ensures Ordered(s + [a])
  {
    var r := s + [a];
    forall i | 0 < i < |r| ensures Compare(r[i - 1], r[i]) < 0 {
      assert r[i - 1] == s[i - 1];
      if i < |s| {
        assert r[i] == s[i];
      }
    }
  }
}

=== FILE: text.dfy ===
/** The handful of `java.lang.String` and `java.util.StringTokenizer` behaviours the
    result-line and matrix-line parsers rely on: `startsWith`, `trim`, tokenising on a
    set of delimiter characters, `split` on one character, and `compareTo`. */
module Text {

  predicate StartsWith(s: string, prefix: string) {
    |prefix| <= |s| && s[..|prefix|] == prefix
  }

  /** `String.trim` removes every character whose code is at most that of the space. */
  predicate IsTrimmable(c: char) {
    c <= ' '
  }

  function TrimLeft(s: string): (r: string)
    ensures |r| <= |s|
    ensures r == [] || !IsTrimmable(r[0])
  {
    if s == [] || !IsTrimmable(s[0]) then s else TrimLeft(s[1..])
  }

  function TrimRight(s: string): (r: string)
    ensures |r| <= |s| && r == s[..|r|]
    ensures r == [] || !IsTrimmable(r[|r| - 1])
  {
    if s == [] || !IsTrimmable(s[|s| - 1]) then s else TrimRight(s[..|s| - 1])
  }

  /** `r` is `s[i..j]`, and everything `s` holds outside that slice is trimmable. */
  predicate TrimmedSlice(s: string, r: string, i: int, j: int) {
    0 <= i <= j <= |s| && r == s[i..j] &&
    (forall k :: 0 <= k < i ==> IsTrimmable(s[k])) && (forall k :: j <= k < |s| ==> IsTrimmable(s[k]))
  }

  /** `String.trim`: the longest slice that neither starts nor ends with a trimmable
      character, obtained by dropping only trimmable characters from both ends. */
  function Trim(s: string): (r: string)
    ensures |r| <= |s|
    ensures r == [] || (!IsTrimmable(r[0]) && !IsTrimmable(r[|r| - 1]))
  {
    TrimRight(TrimLeft(s))
  }

  /** `trim` keeps a slice of its input: everything it removes lies at the two
      ends and is trimmable, and the middle is kept as it is. */
  lemma TrimSlice(s: string)
    ensures exists i, j :: TrimmedSlice(s, Trim(s), i, j)
  {
    var l := TrimLeft(s);
    var r := TrimRight(l);
    assert Trim(s) == r;
    TrimLeftDrops(s);
    TrimRightDrops(l);
    var i := |s| - |l|;
    SliceOfSuffix(s, l, r, i);
    SuffixTrimmable(s, i, |r|);
    assert TrimmedSlice(s, r, i, i + |r|);
  }

  lemma SliceOfSuffix(s: string, l: string, r: string, i: nat)
    requires i <= |s| && l == s[i..]
    requires |r| <= |l| && r == l[..|r|]
    ensures r == s[i..i + |r|]
  {
  }

  lemma SuffixTrimmable(s: string, i: nat, m: nat)
    requires i + m <= |s|
    requires forall k :: m <= k < |s| - i ==> IsTrimmable(s[i..][k])
    ensures forall k :: i + m <= k < |s| ==> IsTrimmable(s[k])
  {
    forall k | i + m <= k < |s|
      ensures IsTrimmable(s[k])
    {
      assert s[k] == s[i..][k - i];
    }
  }

  lemma {:induction false} TrimLeftDrops(s: string)
    ensures TrimLeft(s) == s[|s| - |TrimLeft(s)|..]
    ensures forall k :: 0 <= k < |s| - |TrimLeft(s)| ==> IsTrimmable(s[k])
  {
    if s != [] && IsTrimmable(s[0]) {
      TrimLeftDrops(s[1..]);
      assert forall k :: 1 <= k < |s| ==> s[k] == s[1..][k - 1];
    }
  }

  lemma {:induction false} TrimRightDrops(s: string)
    ensures forall k :: |TrimRight(s)| <= k < |s| ==> IsTrimmable(s[k])
  {
    if s != [] && IsTrimmable(s[|s| - 1]) {
      TrimRightDrops(s[..|s| - 1]);
    }
  }

  lemma TrimIdentity(s: string)
    requires s == [] || (!IsTrimmable(s[0]) && !IsTrimmable(s[|s| - 1]))
    ensures Trim(s) == s
  {
  }

  /** Index of the first occurrence of `c` in `s`, or `|s|` when there is none. */
  function IndexOf(s: string, c: char): (k: nat)
    ensures k <= |s|
    ensures k < |s| ==> s[k] == c
    ensures forall i :: 0 <= i < k ==> s[i] != c
  {
    if s == [] then 0 else if s[0] == c then 0 else 1 + IndexOf(s[1..], c)
  }

  /** Length of the leading run of non-delimiter characters. */
  function TokenEnd(s: string, delims: set<char>): (k: nat)
    ensures k <= |s|
    ensures k < |s| ==> s[k] in delims
    ensures forall i :: 0 <= i < k ==> s[i] !in delims
  {
    if s == [] || s[0] in delims then 0 else 1 + TokenEnd(s[1..], delims)
  }

  predicate IsToken(t: string, delims: set<char>) {
    t != [] && forall i :: 0 <= i < |t| ==> t[i] !in delims
  }

  /** `StringTokenizer(s, delims)` enumerated to the end: maximal runs of
      non-delimiter characters; runs of delimiters never yield empty tokens. */
  function Tokenize(s: string, delims: set<char>): (ts: seq<string>)
    ensures forall k :: 0 <= k < |ts| ==> IsToken(ts[k], delims)
    decreases |s|
  {
    if s == [] then []
    else if s[0] in delims then Tokenize(s[1..], delims)
    else
      var k := TokenEnd(s, delims);
      [s[..k]] + Tokenize(s[k..], delims)
  }

  /** The tokens joined by one separator character. */
  function Join(ts: seq<string>, sep: char): string
  {
    if |ts| == 0 then ""
    else if |ts| == 1 then ts[0]
    else ts[0] + [sep] + Join(ts[1..], sep)
  }

  lemma {:induction false} TokenizeOfToken(t: string, rest: string, delims: set<char>)
    requires IsToken(t, delims)
    requires rest == [] || rest[0] in delims
    ensures Tokenize(t + rest, delims) == [t] + Tokenize(rest, delims)
  {
    var s := t + rest;
    assert s[0] == t[0];
    var k := TokenEnd(s, delims);
    assert forall i :: 0 <= i < |t| ==> s[i] == t[i];
    assert |t| < |s| ==> s[|t|] == rest[0];
    assert k == |t|;
    assert s[..k] == t;
    assert s[k..] == rest;
  }

  /** Tokenising a delimiter-joined list of tokens gives the list back. */
  lemma {:induction false} TokenizeJoin(ts: seq<string>, sep: char, delims: set<char>)
    requires sep in delims
    requires forall k :: 0 <= k < |ts| ==> IsToken(ts[k], delims)
    ensures Tokenize(Join(ts, sep), delims) == ts
    decreases |ts|
  {
    if |ts| == 0 {
    } else if |ts| == 1 {
      TokenizeOfToken(ts[0], "", delims);
      assert ts[0] + "" == ts[0];
    } else {
      var tail := Join(ts[1..], sep);
      TokenizeOfToken(ts[0], [sep] + tail, delims);
      assert ts[0] + [sep] + tail == ts[0] + ([sep] + tail);
      assert ([sep] + tail)[1..] == tail;
      TokenizeJoin(ts[1..], sep, delims);
      assert ts == [ts[0]] + ts[1..];
    }
  }

  lemma {:induction false} JoinLast(ts: seq<string>, sep: char)
    requires |ts| > 0 && ts[|ts| - 1] != []
    ensures var j := Join(ts, sep); |j| > 0 && j[|j| - 1] == ts[|ts| - 1][|ts[|ts| - 1]| - 1]
    decreases |ts|
  {
    if |ts| > 1 {
      JoinLast(ts[1..], sep);
    }
  }

  lemma {:induction false} JoinFirst(ts: seq<string>, sep: char)
    requires |ts| > 0 && ts[0] != []
    ensures var j := Join(ts, sep); |j| > 0 && j[0] == ts[0][0]
  {
  }

  // ---------------------------------------------------------------------------
  // String.split with a one-character pattern

  /** Every piece between separators, including empty ones. */
  function SplitAll(s: string, sep: char): (ps: seq<string>)
    ensures |ps| >= 1
    decreases |s|
  {
    var k := IndexOf(s, sep);
    if k == |s| then [s] else [s[..k]] + SplitAll(s[k + 1..], sep)
  }

  function DropTrailingEmpty(ps: seq<string>): (r: seq<string>)
    ensures |r| <= |ps| && r == ps[..|r|]
    ensures r == [] || r[|r| - 1] != []
    ensures forall k :: |r| <= k < |ps| ==> ps[k] == []
  {
    if |ps| > 0 && ps[|ps| - 1] == [] then DropTrailingEmpty(ps[..|ps| - 1]) else ps
  }

  /** `s.split(sep)`: when the separator does not occur the result is `[s]`
      (even for the empty string); otherwise all pieces with trailing empty
      pieces removed. */
  function JavaSplit(s: string, sep: char): seq<string>
  {
    if sep !in s then [s] else DropTrailingEmpty(SplitAll(s, sep))
  }

  predicate Free(t: string, sep: char) {
    sep !in t
  }

  lemma {:induction false} SplitAllJoin(fs: seq<string>, sep: char)
    requires |fs| >= 1
    requires forall k :: 0 <= k < |fs| ==> Free(fs[k], sep)
    ensures SplitAll(Join(fs, sep), sep) == fs
    decreases |fs|
  {
    if |fs| == 1 {
      assert IndexOf(fs[0], sep) == |fs[0]|;
    } else {
      var tail := Join(fs[1..], sep);
      SplitAllCons(fs[0], tail, sep);
      SplitAllJoin(fs[1..], sep);
      assert fs == [fs[0]] + fs[1..];
    }
  }

  /** A separator-free piece followed by the separator splits off as one piece. */
  lemma SplitAllCons(f: string, tail: string, sep: char)
    requires Free(f, sep)
    ensures SplitAll(f + [sep] + tail, sep) == [f] + SplitAll(tail, sep)
  {
    var s := f + [sep] + tail;
    var k := IndexOf(s, sep);
    assert forall i :: 0 <= i < |f| ==> s[i] == f[i];
    assert s[|f|] == sep;
    assert k == |f|;
    assert s[..k] == f;
    assert s[k + 1..] == tail;
  }

  lemma {:induction false} JoinContainsSep(fs: seq<string>, sep: char)
    requires |fs| >= 2
    ensures sep in Join(fs, sep)
  {
    var j := Join(fs, sep);
    assert j[|fs[0]|] == sep;
  }

  /** Splitting the separator-joined fields gives them back, provided no field
      holds the separator and the last field is not empty. */
  lemma JavaSplitJoin(fs: seq<string>, sep: char)
    requires |fs| >= 1
    requires forall k :: 0 <= k < |fs| ==> Free(fs[k], sep)
    requires |fs| == 1 || fs[|fs| - 1] != []
    ensures JavaSplit(Join(fs, sep), sep) == fs
  {
    if |fs| == 1 {
    } else {
      JoinContainsSep(fs, sep);
      SplitAllJoin(fs, sep);
    }
  }

  /** With an empty last field the split drops it: a trailing separator leaves
      no empty piece. */
  lemma JavaSplitJoinEmptyLast(fs: seq<string>, sep: char)
    requires |fs| >= 2
    requires forall k :: 0 <= k < |fs| ==> Free(fs[k], sep)
    requires fs[|fs| - 1] == [] && fs[|fs| - 2] != []
    ensures JavaSplit(Join(fs, sep), sep) == fs[..|fs| - 1]
  {
    JoinContainsSep(fs, sep);
    SplitAllJoin(fs, sep);
    var front := fs[..|fs| - 1];
    assert front[|front| - 1] != [];
    assert DropTrailingEmpty(fs) == DropTrailingEmpty(front);
  }

  // ---------------------------------------------------------------------------
  // String.compareTo

  /** `a.compareTo(b)`: the difference of the first differing characters, or
      else the difference of the lengths. */
  function CompareStrings(a: string, b: string): int
  {
    if a == [] || b == [] then |a| - |b|
    else if a[0] != b[0] then a[0] as int - b[0] as int
    else CompareStrings(a[1..], b[1..])
  }

  lemma {:induction false} CompareStringsZero(a: string, b: string)
    ensures CompareStrings(a, b) == 0 <==> a == b
  {
    if a == [] || b == [] {
    } else if a[0] != b[0] {
    } else {
      CompareStringsZero(a[1..], b[1..]);
      assert a == [a[0]] + a[1..];
      assert b == [b[0]] + b[1..];
    }
  }

  lemma {:induction false} CompareStringsAntisymmetric(a: string, b: string)
    ensures CompareStrings(a, b) == -CompareStrings(b, a)
  {
    if a == [] || b == [] {
    } else if a[0] != b[0] {
    } else {
      CompareStringsAntisymmetric(a[1..], b[1..]);
    }
  }

  lemma {:induction false} CompareStringsTransitive(a: string, b: string, c: string)
    requires CompareStrings(a, b) < 0 && CompareStrings(b, c) < 0
    ensures CompareStrings(a, c) < 0
  {
    if a == [] {
      assert b != [];
      assert c != [];
    } else if b == [] {
    } else if c == [] {
    } else if a[0] != b[0] || b[0] != c[0] {
    } else {
      CompareStringsTransitive(a[1..], b[1..], c[1..]);
    }
  }
}

=== FILE: tracing.dfy ===
/** The traceback of `SmithWatermanGotoh.traceback`, stated as a recursive
    function over the pointer tables: the columns of the local alignment in
    forward order and the cell where it begins, together with the five text
    lines and the three counters the alignment reports for those columns. */
module Tracing {
  import opened Matrices
  import opened Residues
  import opened Recurrence

  /** The pointer tables filled by `construct`: a direction and the lengths of
      the vertical and horizontal gap runs for every cell. */
  datatype Pointers = Pointers(dirs: seq<seq<Direction>>, vg: seq<seq<int>>, hg: seq<seq<int>>)

  predicate Shaped<T>(t: seq<seq<T>>, m: int, n: int) {
    |t| == m && forall r :: 0 <= r < m ==> |t[r]| == n
  }

  /** Tables for `m` rows and `n` columns whose moves stay inside the tables:
      a diagonal move leaves row 0 and column 0 alone, a vertical run is no
      longer than the row number and a horizontal run no longer than the
      column number. */
  predicate ValidPointers(p: Pointers, m: int, n: int) {
    Shaped(p.dirs, m, n) && Shaped(p.vg, m, n) && Shaped(p.hg, m, n) &&
    forall i, j :: 0 <= i < m && 0 <= j < n ==>
      (p.dirs[i][j] == Diagonal ==> i >= 1 && j >= 1) &&
      (p.dirs[i][j] == Up ==> 1 <= p.vg[i][j] <= i) &&
      (p.dirs[i][j] == Left ==> 1 <= p.hg[i][j] <= j)
  }

  /** One column of an alignment: two residues facing each other, or a residue
      of one sequence facing a gap in the other. */
  datatype Column = Aligned(a: Residue, b: Residue) | OnlyFirst(a: Residue) | OnlySecond(b: Residue)

  /** The columns of a traceback in forward order and the cell it stopped at. */
  datatype Path = Path(columns: seq<Column>, start1: int, start2: int)

  /** A vertical gap run over the residues `rs` of the first sequence. */
  function UpRun(rs: seq<Residue>): seq<Column> {
    seq(|rs|, k requires 0 <= k < |rs| => OnlyFirst(rs[k]))
  }

  /** A horizontal gap run over the residues `rs` of the second sequence. */
  function LeftRun(rs: seq<Residue>): seq<Column> {
    seq(|rs|, k requires 0 <= k < |rs| => OnlySecond(rs[k]))
  }

  /** Follows the pointers from cell `(i, j)` until a STOP cell: a diagonal move
      aligns `s1[i - 1]` with `s2[j - 1]`, a vertical move of length `len`
      puts the residues `s1[i - len..i]` against gaps, a horizontal one the
      residues `s2[j - len..j]`. */
  function Trace(s1: seq<Residue>, s2: seq<Residue>, p: Pointers, i: int, j: int): Path
    requires ValidPointers(p, |s1| + 1, |s2| + 1)
    requires 0 <= i <= |s1| && 0 <= j <= |s2|
    decreases i + j
  {
    match p.dirs[i][j]
    case Stop => Path([], i, j)
    case Diagonal =>
      var t := Trace(s1, s2, p, i - 1, j - 1);
      Path(t.columns + [Aligned(s1[i - 1], s2[j - 1])], t.start1, t.start2)
    case Up =>
      var len := p.vg[i][j];
      var t := Trace(s1, s2, p, i - len, j);
      Path(t.columns + UpRun(s1[i - len..i]), t.start1, t.start2)
    case Left =>
      var len := p.hg[i][j];
      var t := Trace(s1, s2, p, i, j - len);
      Path(t.columns + LeftRun(s2[j - len..j]), t.start1, t.start2)
  }

  // ---------------------------------------------------------------------------
  // What a path covers

  /** The residues of the first sequence that the columns use, in order. */
  function First(cols: seq<Column>): seq<Residue> {
    if cols == [] then []
    else (if cols[0].OnlySecond? then [] else [cols[0].a]) + First(cols[1..])
  }

  /** The residues of the second sequence that the columns use, in order. */
  function Second(cols: seq<Column>): seq<Residue> {
    if cols == [] then []
    else (if cols[0].OnlyFirst? then [] else [cols[0].b]) + Second(cols[1..])
  }

  lemma FirstAppend(x: seq<Column>, y: seq<Column>)
    ensures First(x + y) == First(x) + First(y)
    ensures Second(x + y) == Second(x) + Second(y)
  {
    FirstConcat(x, y);
    SecondConcat(x, y);
  }

  lemma {:induction false} FirstConcat(x: seq<Column>, y: seq<Column>)
    ensures First(x + y) == First(x) + First(y)
  {
    if x == [] {
      assert x + y == y;
    } else {
      var xy := x + y;
      assert xy[0] == x[0] && xy[1..] == x[1..] + y;
      FirstConcat(x[1..], y);
      var h := if x[0].OnlySecond? then [] else [x[0].a];
      assert First(xy) == h + (First(x[1..]) + First(y));
    }
  }

  lemma {:induction false} SecondConcat(x: seq<Column>, y: seq<Column>)
    ensures Second(x + y) == Second(x) + Second(y)
  {
    if x == [] {
      assert x + y == y;
    } else {
      var xy := x + y;
      assert xy[0] == x[0] && xy[1..] == x[1..] + y;
      SecondConcat(x[1..], y);
      var h := if x[0].OnlyFirst? then [] else [x[0].b];
      assert Second(xy) == h + (Second(x[1..]) + Second(y));
    }
  }

  lemma UpRunCons(rs: seq<Residue>, k: int, done: seq<Column>)
    requires 0 <= k < |rs|
    ensures UpRun(rs[k..]) + done == [OnlyFirst(rs[k])] + (UpRun(rs[k + 1..]) + done)
  {
    assert UpRun(rs[k..]) == [OnlyFirst(rs[k])] + UpRun(rs[k + 1..]);
  }

  lemma LeftRunCons(rs: seq<Residue>, k: int, done: seq<Column>)
    requires 0 <= k < |rs|
    ensures LeftRun(rs[k..]) + done == [OnlySecond(rs[k])] + (LeftRun(rs[k + 1..]) + done)
  {
    assert LeftRun(rs[k..]) == [OnlySecond(rs[k])] + LeftRun(rs[k + 1..]);
  }

  lemma {:induction false} UpRunCovers(rs: seq<Residue>)
    ensures First(UpRun(rs)) == rs && Second(UpRun(rs)) == []
  {
    if rs != [] {
      assert UpRun(rs)[1..] == UpRun(rs[1..]);
      UpRunCovers(rs[1..]);
    }
  }

  lemma {:induction false} LeftRunCovers(rs: seq<Residue>)
    ensures First(LeftRun(rs)) == [] && Second(LeftRun(rs)) == rs
  {
    if rs != [] {
      assert LeftRun(rs)[1..] == LeftRun(rs[1..]);
      LeftRunCovers(rs[1..]);
    }
  }

  /** What a traceback from a cell covers: it stops above and to the left of the
      cell, its columns use exactly the residues of each sequence between that
      stop and the cell, in order, and it is empty exactly at a STOP cell. */
  predicate Covers(s1: seq<Residue>, s2: seq<Residue>, p: Pointers, i: int, j: int, t: Path)
    requires ValidPointers(p, |s1| + 1, |s2| + 1)
    requires 0 <= i <= |s1| && 0 <= j <= |s2|
  {
    0 <= t.start1 <= i && 0 <= t.start2 <= j &&
    First(t.columns) == s1[t.start1..i] && Second(t.columns) == s2[t.start2..j] &&
    (t.columns == [] <==> p.dirs[i][j] == Stop)
  }

  /** Every traceback covers the residues between its stop and its start. */
  lemma {:induction false} TraceCovers(s1: seq<Residue>, s2: seq<Residue>, p: Pointers, i: int, j: int)
    requires ValidPointers(p, |s1| + 1, |s2| + 1)
    requires 0 <= i <= |s1| && 0 <= j <= |s2|
    ensures Covers(s1, s2, p, i, j, Trace(s1, s2, p, i, j))
    decreases i + j
  {
    match p.dirs[i][j]
    case Stop =>
    case Diagonal =>
      TraceCovers(s1, s2, p, i - 1, j - 1);
      DiagonalCovers(s1, s2, p, i, j);
    case Up =>
      TraceCovers(s1, s2, p, i - p.vg[i][j], j);
      UpCovers(s1, s2, p, i, j);
    case Left =>
      TraceCovers(s1, s2, p, i, j - p.hg[i][j]);
      LeftCovers(s1, s2, p, i, j);
  }

  lemma DiagonalCovers(s1: seq<Residue>, s2: seq<Residue>, p: Pointers, i: int, j: int)
    requires ValidPointers(p, |s1| + 1, |s2| + 1)
    requires 0 <= i <= |s1| && 0 <= j <= |s2| && p.dirs[i][j] == Diagonal
    requires Covers(s1, s2, p, i - 1, j - 1, Trace(s1, s2, p, i - 1, j - 1))
    ensures Covers(s1, s2, p, i, j, Trace(s1, s2, p, i, j))
  {
    var u := Trace(s1, s2, p, i - 1, j - 1);
    var c := [Aligned(s1[i - 1], s2[j - 1])];
    FirstAppend(u.columns, c);
    assert First(c) == [s1[i - 1]] && Second(c) == [s2[j - 1]];
    assert s1[u.start1..i] == s1[u.start1..i - 1] + [s1[i - 1]];
    assert s2[u.start2..j] == s2[u.start2..j - 1] + [s2[j - 1]];
  }

  lemma UpCovers(s1: seq<Residue>, s2: seq<Residue>, p: Pointers, i: int, j: int)
    requires ValidPointers(p, |s1| + 1, |s2| + 1)
    requires 0 <= i <= |s1| && 0 <= j <= |s2| && p.dirs[i][j] == Up
    requires Covers(s1, s2, p, i - p.vg[i][j], j, Trace(s1, s2, p, i - p.vg[i][j], j))
    ensures Covers(s1, s2, p, i, j, Trace(s1, s2, p, i, j))
  {
    var len := p.vg[i][j];
    var u := Trace(s1, s2, p, i - len, j);
    var run := UpRun(s1[i - len..i]);
    var t := Trace(s1, s2, p, i, j);
    assert t == Path(u.columns + run, u.start1, u.start2);
    FirstAppend(u.columns, run);
    UpRunCovers(s1[i - len..i]);
    assert First(t.columns) == s1[u.start1..i - len] + s1[i - len..i] == s1[u.start1..i];
    assert Second(t.columns) == s2[u.start2..j] + [];
    assert |run| == len && t.columns != [];
  }

  lemma LeftCovers(s1: seq<Residue>, s2: seq<Residue>, p: Pointers, i: int, j: int)
    requires ValidPointers(p, |s1| + 1, |s2| + 1)
    requires 0 <= i <= |s1| && 0 <= j <= |s2| && p.dirs[i][j] == Left
    requires Covers(s1, s2, p, i, j - p.hg[i][j], Trace(s1, s2, p, i, j - p.hg[i][j]))
    ensures Covers(s1, s2, p, i, j, Trace(s1, s2, p, i, j))
  {
    var len := p.hg[i][j];
    var u := Trace(s1, s2, p, i, j - len);
    var run := LeftRun(s2[j - len..j]);
    var t := Trace(s1, s2, p, i, j);
    assert t == Path(u.columns + run, u.start1, u.start2);
    FirstAppend(u.columns, run);
    LeftRunCovers(s2[j - len..j]);
    assert Second(t.columns) == s2[u.start2..j - len] + s2[j - len..j] == s2[u.start2..j];
    assert First(t.columns) == s1[u.start1..i] + [];
    assert |run| == len && t.columns != [];
  }

  // ---------------------------------------------------------------------------
  // The alignment's text lines and counters

  /** A Java `char`: one UTF-16 code unit. */
  type CodeUnit = x: int | 0 <= x < 0x1_0000

  /** The gap character of the aligned sequences. */
  const Gap: char := '-'
  /** The markup characters for a gap, an identity, a positive-scoring pair and
      any other pair; a coil line shows the gap mark facing a gap. */
  const MarkGap: char := ' '
  const MarkIdentity: char := '|'
  const MarkSimilarity: char := ':'
  const MarkMismatch: char := '.'

  /** `mapRegister(r)`: '-' outside coils, else the letter `r` places after 'a',
      truncated to a 16-bit `char`. */
  function MapRegister(r: int): (u: CodeUnit)
    ensures r < 0 ==> u == '-' as int
    ensures 0 <= r < 0x1_0000 - 'a' as int ==> u == 'a' as int + r
    ensures 0 <= r <= 6 ==> 'a' as int <= u <= 'g' as int
  {
    if r < 0 then '-' as int else (r + 'a' as int) % 0x1_0000
  }

  /** The cast to `char` keeps 16 bits, so registers 65536 apart share a letter. */
  lemma MapRegisterTruncates(r: int)
    requires r >= 0
    ensures MapRegister(r) == MapRegister(r + 0x1_0000)
  {
  }

  /** The heptad registers 0..6 are shown as the letters a..g. */
  lemma HeptadLetters()
    ensures MapRegister(0) == 'a' as int && MapRegister(6) == 'g' as int
    ensures forall r, s :: 0 <= r < s <= 6 ==> MapRegister(r) < MapRegister(s)
  {
  }

  function Line1Char(c: Column): char {
    if c.OnlySecond? then Gap else c.a.aa
  }

  function Line2Char(c: Column): char {
    if c.OnlyFirst? then Gap else c.b.aa
  }

  function Coil1Char(c: Column): CodeUnit {
    if c.OnlySecond? then MarkGap as int else MapRegister(c.a.register)
  }

  function Coil2Char(c: Column): CodeUnit {
    if c.OnlyFirst? then MarkGap as int else MapRegister(c.b.register)
  }

  /** The markup of a column: identical letters, a positive score in `t`, or
      neither; gap columns get the gap mark. */
  function Mark(c: Column, t: Table): char {
    match c
    case Aligned(a, b) =>
      if a.aa == b.aa then MarkIdentity
      else if t[a.aa as int][b.aa as int] > 0.0 then MarkSimilarity
      else MarkMismatch
    case _ => MarkGap
  }

  /** The five lines of an alignment, one character per column. */
  datatype Lines = Lines(seq1: seq<char>, seq2: seq<char>, coils1: seq<CodeUnit>, coils2: seq<CodeUnit>, markup: seq<char>)

  function Render(cols: seq<Column>, t: Table): (r: Lines)
    ensures |r.seq1| == |r.seq2| == |r.coils1| == |r.coils2| == |r.markup| == |cols|
  {
    Lines(
      seq(|cols|, k requires 0 <= k < |cols| => Line1Char(cols[k])),
      seq(|cols|, k requires 0 <= k < |cols| => Line2Char(cols[k])),
      seq(|cols|, k requires 0 <= k < |cols| => Coil1Char(cols[k])),
      seq(|cols|, k requires 0 <= k < |cols| => Coil2Char(cols[k])),
      seq(|cols|, k requires 0 <= k < |cols| => Mark(cols[k], t)))
  }

  /** The number of columns whose markup is `mark`. */
  function CountMark(cols: seq<Column>, t: Table, mark: char): nat {
    if cols == [] then 0
    else (if Mark(cols[0], t) == mark then 1 else 0) + CountMark(cols[1..], t, mark)
  }

  /** The counters the alignment reports: identical pairs, pairs that are
      identical or score positively, and gap columns. */
  datatype Counts = Counts(identity: int, similarity: int, gaps: int)

  function CountsOf(cols: seq<Column>, t: Table): Counts {
    var id := CountMark(cols, t, MarkIdentity);
    Counts(id, id + CountMark(cols, t, MarkSimilarity), CountMark(cols, t, MarkGap))
  }

  /** Every column is exactly one of: identity, similarity, mismatch, gap; a
      gap column is one where a residue faces a gap. */
  lemma {:induction false} CountsPartition(cols: seq<Column>, t: Table)
    ensures CountMark(cols, t, MarkIdentity) + CountMark(cols, t, MarkSimilarity) +
      CountMark(cols, t, MarkMismatch) + CountMark(cols, t, MarkGap) == |cols|
    ensures CountMark(cols, t, MarkGap) == |cols| - |First(cols)| + |cols| - |Second(cols)|
  {
    if cols != [] {
      CountsPartition(cols[1..], t);
    }
  }

  /** The counters never exceed the number of columns, and every identity is
      counted as a similarity. */
  lemma CountsBounds(cols: seq<Column>, t: Table)
    ensures var c := CountsOf(cols, t);
      0 <= c.identity <= c.similarity && c.similarity + c.gaps <= |cols|
  {
    CountsPartition(cols, t);
  }

  // ---------------------------------------------------------------------------
  // Reversed buffers

  /** `s` read backwards. */
  function Rev<T>(s: seq<T>): (r: seq<T>)
    ensures |r| == |s|
  {
    seq(|s|, k requires 0 <= k < |s| => s[|s| - 1 - k])
  }

  lemma RevCons<T>(x: T, s: seq<T>)
    ensures Rev([x] + s) == Rev(s) + [x]
  {
    assert forall k :: 0 <= k < |s| ==> Rev([x] + s)[k] == Rev(s)[k];
  }

  lemma RevRev<T>(s: seq<T>)
    ensures Rev(Rev(s)) == s
  {
  }
}

=== FILE: wrappers.dfy ===
/** Failure-compatible wrappers: `Option` stands for a Java reference that may be
    null, `Result` for a computation that may throw. */
module Wrappers {

  datatype Option<+T> = None | Some(value: T) {
    predicate IsFailure() { None? }

    function PropagateFailure<U>(): Option<U>
      requires None?
    {
      None
    }

    function Extract(): T
      requires Some?
    {
      value
    }
  }

  datatype Result<+R, +E> = Success(value: R) | Failure(error: E) {
    predicate IsFailure() { Failure? }

    function PropagateFailure<U>(): Result<U, E>
      requires Failure?
    {
      Failure(error)
    }

    function Extract(): R
      requires Success?
    {
      value
    }
  }
}
